=== FILE: README.md ===
# phpgrab core in Dafny

This project models the core of phpgrab, a small PHP scraping library. The core has three parts:

- **`Url`** (`src/Url.php`) parses a URL string into components and composes it back. It has the accessors `set_userpass`, `set_host`, `set_port`, `set_path`, `set_query` and `add_query`, plus `get_domain` and `is_valid`.
- **`PhpGrab\Connection\Http`** (`src/PhpGrab/Connection/Http.php`) keeps the connection's state:
  - the default request headers (`set_header`, `unset_header`, and the header swap `ajax` does);
  - the parsing of response header lines (`parse_hdr`, `get_response_header`, `prepare_header_key`);
  - the cookie jar, filled from `Set-Cookie` lines and pruned and selected per host by `set_cookies`;
  - the urlencoded POST body (`get_post_string`);
  - the requests `get`, `post` and `ajax` issue;
  - the next URL `get_result` fetches after a 3xx response.
- **`PhpGrab\Html\Form`** (`src/PhpGrab/Html/Form.php`) extracts forms from a DOM:
  - field extraction for inputs, selects, buttons and textareas, with the precedence `array_merge` gives them;
  - form selection by index or by attributes (`Form::get`);
  - resolution of a relative action URL against a reference URL (`get_absolute_url`);
  - method and content-type normalisation;
  - file fields (`add_file`, `is_file`, `offsetSet`, `offsetUnset`);
  - `from_array` / `from_string`;
  - the connection call `submit` makes.

Everything is pure. Each PHP array is an ordered association list (`OrderedMap.Assoc`):
- assigning an existing key replaces its value in place;
- assigning a new key appends it.

A method that can throw returns `Step<S>`. `Step<S>` is either `Ok(state)` or `Threw(partial, error)`, so the writes made before an exception stay visible. PHP strings are byte strings: a Dafny `char` stands for one byte, and `strlen`, `strtolower`, `ucfirst` and the other string functions the model uses work byte by byte, so no multibyte character is in play. PHP's string truthiness is modelled exactly (`Base.Truthy`: neither `""` nor `"0"`). This matters in many places, for example:
- `is_valid`;
- `set_path`;
- `compose`;
- the usable-element test;
- `array_filter` in `Form::get`.

The model takes several PHP library functions as fields of a `PhpLib.Runtime` value, because their behaviour is not modelled:
- `parse_url`;
- `urlencode`, `rawurlencode` and `urldecode`;
- `http_build_query`;
- `strtotime`.

Where a property needs a fact about one of them, the fact is a precondition. For example, `Inverts(decode, encode)` says that decoding undoes encoding. The other outside inputs are parameters too:
- the file system (`realpath`, `is_file`, `is_readable`), as `HtmlForm.FileSystem`;
- the clock (`time()`), as `now`;
- the HTML parser, as a `parse` function.

Modules, in dependency order:
- `Base`
- `PhpString`: explode/implode, trim, case, decimal digits
- `OrderedMap`
- `PhpLib`
- `Url`
- `HttpHeader`
- `CookieJar`
- `HttpConnection`
- `Dom`
- `FormFields`
- `HtmlForm`

### Where the code and its documentation differ

The model follows the code in each of these cases:
- **Redirects.** `get_result` builds the next URL by replacing the last `/`-segment of the last URL's path with the `Location` value verbatim. From `/p/q`, `Location: /next` therefore yields `/p//next` (`HttpConnection.RedirectKeepsDirectory`), not `/p/next`.
- **Multiple selects.** A `<select multiple>` always lists its first option, then every later option that is `selected`, whether or not the first one is selected (`FormFields.MultiValues`).
- **`add_file`.**
  - It does not record the field as a file field.
  - When it throws, the files written earlier in the same call stay in the data (`HtmlForm.WriteFiles`).
- **`from_array` in a multipart form.** A value starting with `@` is handed to `add_file($v)`. The value is therefore used as the field name, with a null path (`HtmlForm.AtValueBecomesFieldName`).
- **`submit`.** It builds an argument list and calls the connection's method with it. The lists do not match the signatures of `Http` (`src/PhpGrab/Connection/Http.php`), and PHP binds them by position, ignoring arguments past the last parameter:
  - For `get` it calls `get(action, to_string(), referer, hdr)`. The signature is `get(url, referer)` (line 370), so the encoded form data becomes the referer and is not added to the URL.
  - For `post` it calls `post(action, payload, null, referer, hdr)`. The signature is `post(url, referer, data, multipart)` (line 393), so the payload becomes the referer, `null` is the posted data and the referer is the multipart flag. The form data is never sent.
  - For `ajax` it calls `ajax(action, payload, null, referer, hdr)`. The signature is `ajax(url, referer, post, accept)` (lines 438-439), so the payload becomes the referer, `null` is the posted data and the referer is the Accept value; `hdr` is dropped.
  - Any other method makes no call.
  - `submit` type-hints its connection as `Connection_Interface` (`src/PhpGrab/Html/Form.php:563`), which `class Http` (`src/PhpGrab/Connection/Http.php:4`) does not declare that it implements, so an `Http` object cannot be passed to it as written.
  
  The model states the argument lists `submit` builds (`HtmlForm.Submit`), not what the connection does with them.
- **`Set-Cookie` crumbs.** The crumbs go into a PHP array, so a repeated key keeps its last value. The cookie's value is therefore the last value written under the first crumb's key. A `domain` crumb that is present but falsy (`""` or `"0"`) also falls back to the last URL's host (`CookieJar.ReadSetCookie`).
- **Cookie selection.** When no domain equals the host, the value sent is that of the last eligible domain scanned, not the first (`CookieJar.ScanDomainsReference`).
- **Unparseable HTML.** The `Form` constructor throws on it, while `Form::get` returns `false` (`HtmlForm.FromHtml`, `HtmlForm.GetForms`).
- **`get_userpass` → `set_userpass`.** This round trip loses a password of `"0"`, because `get_userpass` tests the password's truthiness (`Url.UserPassZeroLost`).
- **Default headers after `ajax`.** `get` and `post` do not pass `default_header` to cURL. The handle keeps the header table it was last given, by `init` or by `ajax`. After an `ajax` call, the handle's table for later `get` and `post` requests therefore still holds `X-Requested-With` and the Ajax Accept (`HttpConnection.HandleOutlivesAjax`). `set_header` and `unset_header` reach the handle only through a later `ajax` call.
- **Header names handed to cURL.** `init` and `ajax` give `CURLOPT_HTTPHEADER` the associative `default_header` array (`src/PhpGrab/Connection/Http.php`, lines 55 and 450). PHP's cURL binding expects a list of `Name: value` lines and reads only the array's values, so the names are lost: cURL is given `XMLHttpRequest`, not `X-Requested-With: XMLHttpRequest`. The model keeps the table as PHP holds it and does not model the lines cURL builds.
- **Cookies on the handle.** `set_cookies` sets `CURLOPT_COOKIE` only when it selects a cookie; with none selected its options array is empty and nothing is set (`src/PhpGrab/Connection/Http.php:194-206`). The handle then keeps the previous request's cookies, so a cookie that has since expired, or that belongs to another host, stays on the handle for the next request (`HttpConnection.ExpiredCookieResent`).
- **Relative action URLs.** In `get_absolute_url`, a relative URL whose first segment (before any `?`) is falsy (`""` or `"0"`) leaves the reference path unchanged (`HtmlForm.FalsySegmentIgnored`).
- **`offsetUnset`.** It removes only the first occurrence of a repeated file-field name (`HtmlForm.UnsetKeepsRepeatedFileField`).

## Model

| member | source | states |
|---|---|---|
| Url.ParseQuery | src/Url.php:36-46 | `parse_query` never returns `false`: even `""` yields one entry, and the result has distinct keys |
| Url.ParseQueryLastWins | src/Url.php:39-42 | a key that appears several times in the query string takes its last value |
| Url.ParseQueryEmpty | src/Url.php:39-45 | the empty query string parses to the single pair (decoded "", decoded "") |
| Url.ParseTarget | src/Url.php:56-58 | a string without `://` is prefixed with `http://localhost/` after its leading slashes are removed; a string with `://` is kept as is |
| Url.FromParts | src/Url.php:60-75 | the path is never falsy (it defaults to "/"); the query key is always set, and a missing query is empty; missing user, pass and fragment become ""; a `parse_url` failure gives path "/" and nothing else |
| Url.Parse | src/Url.php:54-76 | every parsed URL has a truthy path and a set query key whose query has distinct keys |
| Url.NewUrl | src/Url.php:131-139 | constructing from a falsy string gives an invalid URL; the query key is set exactly when the string is truthy; the query keys are distinct |
| Url.Compose | src/Url.php:84-123 | the result starts with the scheme (default `http`) and `://`, then `userpass@` exactly when the user is truthy, then host-and-port and the path (default `/`); it ends with `#` and the encoded fragment when the fragment is truthy, else with `?` and the built query when the query is non-empty, else it is exactly that prefix |
| Url.CredentialsAfterScheme | src/Url.php:84-96 | when the user is truthy and the encoded `userpass` has no `@`, the composed URL's text after `://` up to the first `@` is that `userpass` |
| Url.ComposeCredentialsRoundTrip | src/Url.php:84-96 | reading the credentials back from a composed URL with `set_userpass` restores user and password, when the user is truthy, the password is not `"0"`, `urldecode` inverts `urlencode` and `urlencode` escapes `:` and `@` |
| Url.Get | src/Url.php:163-176 | `get` returns `false` exactly when the URL is not valid (empty host or `localhost`) |
| Url.GetDomain | src/Url.php:246-252 | `get_domain` returns a value exactly when the URL is valid |
| Url.GetDomainLastLabels | src/Url.php:246-252 | the domain is the host's last two dot-labels (fewer when the host has fewer), and the host is the domain or ends with "." plus the domain |
| Url.HostEndsWithDomain | src/Url.php:249-250 | joining the last labels gives a suffix of the joined host at a label boundary |
| Url.SetUserPass | src/Url.php:181-189 | only user and pass change; the text is split at its first ':' and both halves are decoded; without ':' the password is "" |
| Url.UserPassRoundTrip | src/Url.php:181-201 | setting `userpass` to what `get_userpass` returns restores the URL when decoding inverts encoding, the encoder escapes ':' and the password is not "0" |
| Url.UserPassZeroLost | src/Url.php:194-201 | for password "0" the same round trip empties the password |
| Url.SetHost | src/Url.php:206-232 | only host and port change; with ':' the text splits at its first ':' into host and port, otherwise only the host is replaced |
| Url.HostPortRoundTrip | src/Url.php:206-244 | setting `hostport` to what `get_hostport` returns restores the URL when the host has no ':' |
| Url.SetPort | src/Url.php:220-224 | the port becomes the decimal digits of max(0, n), and it is truthy exactly when n > 0 |
| Url.NormalizePath | src/Url.php:257-264 | the stored path always starts with '/'; a path already starting with '/' is kept, anything else gets '/' in front |
| Url.SetPath | src/Url.php:257-264 | only the path changes, and it starts with '/' |
| Url.SetPathIdempotent | src/Url.php:257-264 | setting the path to the stored path changes nothing |
| Url.SetQuery | src/Url.php:269-277 | a falsy string clears the query, a truthy string is parsed, an array is stored as given; the query key is set afterwards and nothing else changes |
| Url.AddQuery | src/Url.php:279-285 | with a query key set, every added key takes its last added value, every other key keeps its value, and distinct keys stay distinct; with none set (PHP 7's `array_merge(null, …)` gives null), the URL is unchanged |
| Url.AddQueryNeedsKey | src/Url.php:279-285 | pairs added to a URL built from a falsy string leave its composed text unchanged; added to one built from a URL string, they give a non-empty query |
| HttpHeader.CanonicalKeyPointwise | src/PhpGrab/Connection/Http.php:89-94 | a key starting with `X-` is kept; otherwise each character is lower-cased, except that the first character and each character after a '-' is upper-cased; hyphens stay where they are |
| HttpHeader.CanonicalKeyIdempotent | src/PhpGrab/Connection/Http.php:89-94 | canonicalising a canonical key changes nothing |
| HttpHeader.CanonicalKeyCaseInsensitive | src/PhpGrab/Connection/Http.php:89-94 | two non-`X-` keys that differ only in case get the same canonical key |
| HttpHeader.CapitalizePointwise | src/PhpGrab/Connection/Http.php:93 | ucfirst over the '-'-separated parts keeps the length and upper-cases exactly the segment starts |
| HttpHeader.ResponseHeader | src/PhpGrab/Connection/Http.php:143-153 | without a name, all headers are returned; with a name, a value is returned exactly when its canonical key is stored |
| HttpHeader.ResponseHeaderAnyCase | src/PhpGrab/Connection/Http.php:143-153 | a header stored under one spelling is found when it is asked for with any other casing |
| HttpHeader.SetHeader | src/PhpGrab/Connection/Http.php:73-75 | given keys take their last given value, other default headers are kept, and distinct keys stay distinct |
| HttpHeader.UnsetHeader | src/PhpGrab/Connection/Http.php:77-87 | every named header is gone, every other header is unchanged, and nothing new appears |
| HttpHeader.AjaxBegin | src/PhpGrab/Connection/Http.php:441-449 | during an ajax call `X-Requested-With` is `XMLHttpRequest`; `Accept` is the given one when it is truthy; all other headers are unchanged |
| HttpHeader.AjaxRestores | src/PhpGrab/Connection/Http.php:438-465 | after the call, if `Accept` was set before, every header except `X-Requested-With` is restored and `X-Requested-With` is gone |
| HttpHeader.AjaxRestoresExactly | src/PhpGrab/Connection/Http.php:438-465 | if `Accept` was set and `X-Requested-With` was not, the header table after the call is identical to the one before |
| OrderedMap.Upsert | src/Url.php:41 | assigning a key gives it the new value, leaves every other key alone, appends a new key at the end and keeps an existing key's position |
| OrderedMap.UpsertDistinct | src/Url.php:41 | assignment keeps keys distinct |
| OrderedMap.Remove | src/PhpGrab/Connection/Http.php:84 | `unset` removes the key and nothing else |
| OrderedMap.MergeLookup | src/Url.php:281-283 | in `array_merge(m, n)` a key of n takes n's last value; any other key keeps m's value |
| OrderedMap.MergeDistinct | src/Url.php:281-283 | merging into a table with distinct keys keeps the keys distinct |
| OrderedMap.FromDistinctPairs | src/Url.php:38-42 | building a table from pairs whose keys are already distinct gives back the same pairs |
| PhpString.Cut | src/Url.php:183 | `explode(c, s, 2)` gives either s unsplit (when c is absent) or a head without c and the rest, which rejoin to s |
| PhpString.ImplodeExplode | src/Url.php:249-250 | implode after explode on the same character gives back the string |
| PhpString.ExplodeImplode | src/Url.php:249-250 | explode after implode gives back the parts when no part contains the separator |
| PhpString.DecimalRoundTrip | src/Url.php:222 | the decimal digits written for a port read back as the same number |
| PhpString.StripSnoc | src/PhpGrab/Html/Form.php:375-379 | removing the blanks reads the string left to right: an appended character is dropped exactly when it is one of the blanks |
| PhpString.ReplaceLastSegmentDir | src/PhpGrab/Connection/Http.php:260-263 | replacing the last '/'-segment keeps everything up to and including the last '/' and appends the new segment |
| CookieJar.DropCookie | src/PhpGrab/Connection/Http.php:121-122 | the (name, domain) entry is gone and every other entry is unchanged |
| CookieJar.PutCookie | src/PhpGrab/Connection/Http.php:123-127 | the (name, domain) entry holds the new cookie and every other entry is unchanged |
| CookieJar.ReadSetCookie | src/PhpGrab/Connection/Http.php:110-120 | the cookie's name is the first crumb's key and its value is that key's last value; the domain is the last `domain` crumb when it is truthy, else the last URL's host; the expiry text is the last lower-case `expires` crumb, or "" without one |
| CookieJar.ApplySetCookie | src/PhpGrab/Connection/Http.php:109-128 | a `deleted` value removes the (name, domain) entry, any other value stores the value and its parsed expiry, and all other entries are unchanged |
| CookieJar.ExactIsEligible | src/PhpGrab/Connection/Http.php:179-182 | a cookie's own domain always matches the host it was set for |
| CookieJar.ScanDomains | src/PhpGrab/Connection/Http.php:176-188 | a value is chosen exactly when some live, matching domain is scanned before the scan stops, and the chosen value comes from such a domain |
| CookieJar.ScanKeepsLive | src/PhpGrab/Connection/Http.php:176-188 | the scan keeps every unexpired domain entry |
| CookieJar.ScanDomainsReference | src/PhpGrab/Connection/Http.php:176-188 | the scan equals a reference definition: if a live domain equals the host, the scan stops there with that domain's value, pruning only the expired entries before it; otherwise the last live matching value wins |
| CookieJar.SelectCookiesSound | src/PhpGrab/Connection/Http.php:175-192 | every cookie sent comes from a usable entry of that name, and every name with a usable entry is sent |
| CookieJar.SelectCookiesPurge | src/PhpGrab/Connection/Http.php:175-192 | the pruned jar holds only entries it held before and no empty cookie name |
| CookieJar.SelectCookiesKeepsLive | src/PhpGrab/Connection/Http.php:175-192 | no unexpired entry is pruned |
| CookieJar.SelectCookies | src/PhpGrab/Connection/Http.php:175-192 | the cookies chosen for the request have distinct names |
| HttpConnection.SplitHeaderLine | src/PhpGrab/Connection/Http.php:105-107 | a header line has a value exactly when it contains ':'; the key is the canonical form of the trimmed part before it |
| HttpConnection.SplitHeaderLineOf | src/PhpGrab/Connection/Http.php:105-107 | "name:value" splits into the canonical trimmed name and the trimmed value, even when the value contains ':' |
| HttpConnection.ParseHeaderLine | src/PhpGrab/Connection/Http.php:103-135 | `parse_hdr` always reports the line's length; a line without ':' changes nothing; a non-cookie header records its value under its key, touching no other header and not the jar |
| HttpConnection.HeaderLineThenLookup | src/PhpGrab/Connection/Http.php:103-153 | after a non-cookie header line, `get_response_header` with the name in any casing returns its trimmed value |
| HttpConnection.SetCookieLine | src/PhpGrab/Connection/Http.php:103-128 | a `Set-Cookie` line (in any casing) updates only the jar, exactly as the cookie value says |
| HttpConnection.SetCookies | src/PhpGrab/Connection/Http.php:169-207 | no Cookie header is set exactly when no stored cookie is usable for the request's host; the handle's cookie option is then the previous one, and otherwise the new header |
| HttpConnection.ExpiredCookieResent | src/PhpGrab/Connection/Http.php:169-207 | a cookie selected for one request and purged as expired before the next one stays on the handle for that next request |
| HttpConnection.NothingChosen | src/PhpGrab/Connection/Http.php:169-200 | the selection is empty exactly when no stored cookie is usable for the host |
| HttpConnection.PostString | src/PhpGrab/Connection/Http.php:209-220 | the POST string is empty exactly when there are no fields |
| HttpConnection.PostStringRoundTrip | src/PhpGrab/Connection/Http.php:209-220 | `parse_query` of the encoded POST string gives back the fields when decoding inverts `rawurlencode` and `&`, `=` and `?` are escaped |
| HttpConnection.GetRequest | src/PhpGrab/Connection/Http.php:370-380 | `get` requests the given URL without a body |
| HttpConnection.PostRequest | src/PhpGrab/Connection/Http.php:393-410 | `post` sends the data as is when multipart, otherwise as a urlencoded string that is empty exactly when there is no data |
| HttpConnection.IsRedirectRange | src/PhpGrab/Connection/Http.php:254 | the integer status test is exactly 300 <= status < 400 |
| HttpConnection.LocationIsCanonical | src/PhpGrab/Connection/Http.php:256 | asking for `Location` reads the entry stored under exactly that key |
| HttpConnection.RedirectTarget | src/PhpGrab/Connection/Http.php:254-268 | a follow-up URL exists exactly for a 3xx status with a truthy Location header |
| HttpConnection.RedirectRequest | src/PhpGrab/Connection/Http.php:254-268 | the follow-up is a GET of that URL, without a new referer |
| HttpConnection.RedirectTargetShape | src/PhpGrab/Connection/Http.php:254-268 | the follow-up URL is the last URL's scheme, `://`, host, then its path's directory prefix followed by the Location value |
| HttpConnection.RedirectKeepsDirectory | src/PhpGrab/Connection/Http.php:259-263 | an absolute Location is still appended to the directory: `/p/q` with `/next` gives `/p//next` |
| HttpConnection.Ajax | src/PhpGrab/Connection/Http.php:438-465 | the ajax request's table holds `X-Requested-With` set to `XMLHttpRequest`, the given Accept when it is truthy and the default Accept otherwise; it is a POST of the encoded data exactly when data is given; afterwards, if Accept was set before, the defaults are restored except that `X-Requested-With` is gone; the handle keeps the call's table, with `X-Requested-With` and the truthy Accept |
| HttpConnection.HandleOutlivesAjax | src/PhpGrab/Connection/Http.php:438-465 | after an `ajax` call the restored defaults lack `X-Requested-With`, yet the table of a following `get` still holds it, because it is the handle's table |
| HttpConnection.AjaxFromDefaults | src/PhpGrab/Connection/Http.php:438-465 | on a fresh connection an `ajax` call with the default Accept gives its table that Accept and `X-Requested-With`, and leaves `default_header` exactly as `init` set it |
| HttpHeader.DefaultHeadersShape | src/PhpGrab/Connection/Http.php:21-29 | the initial header table has `Accept` and no `X-Requested-With` |
| HttpConnection.AjaxRestoresWhenSet | src/PhpGrab/Connection/Http.php:438-465 | when the defaults held an Accept header, the headers after the call equal the defaults without `X-Requested-With` |
| Dom.ElementsByTag | src/PhpGrab/Html/Form.php:96 | `getElementsByTagName` returns exactly the descendants with that tag |
| Dom.WithTagAppend | src/PhpGrab/Html/Form.php:228 | filtering by tag distributes over concatenation, so document order is kept |
| Dom.FirstChildMatch | src/PhpGrab/Html/Form.php:228 | a matching first child is the first element found |
| FormFields.UsableElements | src/PhpGrab/Html/Form.php:224-238 | the usable elements are exactly the descendants with the tag, a truthy `name` and no `disabled` attribute |
| FormFields.InputValue | src/PhpGrab/Html/Form.php:254-271 | an input contributes nothing exactly when its type is `button` or `reset`, or it is an unchecked radio or checkbox; otherwise a checked radio or checkbox contributes its value attribute, or `on` without one, and any other input its value attribute ("" when absent) |
| FormFields.SingleValueReference | src/PhpGrab/Html/Form.php:296-312 | a single select takes the first selected option's value, or the first option's value when none is selected |
| FormFields.MultiValues | src/PhpGrab/Html/Form.php:292-305 | a multiple select lists the first option's value, then the values of the later selected options |
| FormFields.SelectValue | src/PhpGrab/Html/Form.php:284-316 | a multiple select yields the list `MultiValues` gives for its options; a single select yields the value of its first selected option, else of its first option, and nothing when it has no option |
| FormFields.ButtonValue | src/PhpGrab/Html/Form.php:325-340 | a button contributes its `value` exactly when it has one and its type is absent or `submit` |
| FormFields.Writes | src/PhpGrab/Html/Form.php:224-359 | every assignment comes from a usable element with that name and value, and every usable element with a value assigns its name |
| FormFields.WritesLast | src/PhpGrab/Html/Form.php:254-272 | the assignments follow document order: a name ends with the value of the last element with that name that contributes one |
| FormFields.ExtractLastWins | src/PhpGrab/Html/Form.php:247-275 | in an extracted table a later same-named element overwrites an earlier one: the name holds the value of the last usable element with the name that contributes one |
| FormFields.ExtractLookup | src/PhpGrab/Html/Form.php:224-359 | a field's extracted value is the last value written under its name, and a name is present exactly when some usable element with that name has a value |
| FormFields.FileNames | src/PhpGrab/Html/Form.php:266-270 | the recorded file fields are exactly the names of usable inputs whose type is `file` |
| FormFields.FileNamesOne | src/PhpGrab/Html/Form.php:266-270 | one input contributes its name when its type is `file`, and nothing otherwise |
| FormFields.FileNamesAppend | src/PhpGrab/Html/Form.php:266-270 | the file names of two runs of inputs are those of the first then those of the second, so document order and repeated names are kept |
| FormFields.FormDataPrecedence | src/PhpGrab/Html/Form.php:383-389 | a name's form value comes from the textareas if present, else the buttons, else the selects, else the inputs |
| HtmlForm.ConstantsLower | src/PhpGrab/Html/Form.php:23-30 | the method and content-type constants are already lower-case |
| HtmlForm.SetMethod | src/PhpGrab/Html/Form.php:447-458 | only `get` and `post` (in any casing) are accepted, and they are stored lower-cased; anything else leaves the form unchanged |
| HtmlForm.SetContentType | src/PhpGrab/Html/Form.php:475-506 | only the two content types are accepted, and multipart also forces the `post` method; anything else leaves the form unchanged |
| HtmlForm.Defaults | src/PhpGrab/Html/Form.php:192-195 | a new form uses `get` and urlencoded, with no data, no file fields and no URLs |
| HtmlForm.Apply | src/PhpGrab/Html/Form.php:158-176 | resolution keeps scheme, credentials, host and port and drops the fragment; an absolute path replaces the path and clears the query; a relative URL takes its query from the text after '?' |
| HtmlForm.GetAbsoluteUrl | src/PhpGrab/Html/Form.php:139-178 | a falsy URL gives the reference URL; a URL with `://` is returned as is; otherwise the call throws exactly when the reference URL is invalid |
| HtmlForm.AbsolutePathResolves | src/PhpGrab/Html/Form.php:158-162 | an absolute path resolves to the reference's scheme, its `userpass@` when the user is truthy, and host-and-port, followed by that path |
| HtmlForm.RelativePathResolves | src/PhpGrab/Html/Form.php:163-177 | the part of a relative URL before its first `?`, when its first segment is truthy, replaces the last segment of the reference path; the part after `?` becomes the query; scheme, credentials and host-and-port are kept |
| HtmlForm.ApplyRelative | src/PhpGrab/Html/Form.php:158-175 | the relative branch drops the reference query and fragment, stores the computed path and sets the query from the part after `?`; every other component is kept |
| HtmlForm.RelativeApplied | src/PhpGrab/Html/Form.php:158-176 | the relative branch's result is scheme, credentials, host-and-port, the normalised path, then `?` and the built query exactly when the part after `?` parses to a non-empty query |
| HtmlForm.FalsySegmentIgnored | src/PhpGrab/Html/Form.php:163-177 | a relative URL whose part before `?` has a falsy first segment leaves the reference path (trimmed) unchanged and takes the part after `?` as the query; scheme, credentials and host-and-port are kept |
| HtmlForm.QueryOnlyKeepsPath | src/PhpGrab/Html/Form.php:163-176 | a relative URL made only of a query keeps the reference path and takes the new query |
| HtmlForm.ZeroSegmentIsFalsy | src/PhpGrab/Html/Form.php:169-170 | `0/next` has a falsy first segment |
| HtmlForm.SetAction | src/PhpGrab/Html/Form.php:424-430 | without a reference URL the action is stored verbatim; with one it is resolved, and an invalid reference URL throws and leaves the form unchanged |
| HtmlForm.Load | src/PhpGrab/Html/Form.php:369-392 | on success the data is the merged field extraction, the file fields are the file inputs, the reference URL is replaced only by a truthy one, and multipart forces `post`; the action is the `action` attribute without spaces, CR, LF and TAB, stored as is without a reference URL and resolved against it otherwise; an invalid reference URL throws before any data is replaced |
| HtmlForm.LoadKeepsWellFormed | src/PhpGrab/Html/Form.php:369-392 | loading keeps the method in {get, post} and the content type in {urlencoded, multipart} |
| HtmlForm.NewForm | src/PhpGrab/Html/Form.php:192-215 | a constructed form is well formed; without a source it has no data and records a truthy reference URL |
| HtmlForm.WriteFiles | src/PhpGrab/Html/Form.php:529-536 | writing succeeds exactly when every path is a readable file, and each field then holds its `@`-path; other fields are unchanged; on failure the files before the first bad one stay written, nothing from it on is written, and the error names the bad file's real path ("" when it has none) |
| HtmlForm.AddFile | src/PhpGrab/Html/Form.php:524-540 | on success the form becomes multipart `post` and every given field holds its file; on failure method and content type are kept and the files before the first bad one stay written; file fields, URLs and untouched fields never change |
| HtmlForm.FileFieldsAmong | src/PhpGrab/Html/Form.php:548-553 | `is_file` on a list keeps exactly the names that are file fields |
| HtmlForm.OffsetSet | src/PhpGrab/Html/Form.php:614-621 | a non-file field is set to the value; a file field goes through `add_file` and succeeds exactly when the path is readable; no other field changes |
| HtmlForm.RemoveFirst | src/PhpGrab/Html/Form.php:601-602 | removing a present name drops exactly one occurrence of it |
| HtmlForm.OffsetUnset | src/PhpGrab/Html/Form.php:599-605 | the field is gone, other fields are unchanged, and one occurrence of the name leaves the file-field list |
| HtmlForm.UnsetKeepsRepeatedFileField | src/PhpGrab/Html/Form.php:599-605 | a name listed twice as a file field is still a file field after one unset |
| HtmlForm.SetThenUnset | src/PhpGrab/Html/Form.php:599-621 | for a non-file field, setting then unsetting leaves the same data as unsetting alone |
| HtmlForm.Flatten | src/PhpGrab/Html/Form.php:652-655 | a form whose fields all hold single values is encoded as those name-value pairs, in order |
| HtmlForm.ScalarsMembers | src/PhpGrab/Html/Form.php:679-688 | `from_array` keeps exactly the scalar entries and drops the array-valued ones |
| HtmlForm.RouteFiles | src/PhpGrab/Html/Form.php:689-696 | in a multipart form every `@`-valued entry is removed from the merge, and a table without one passes through unchanged |
| HtmlForm.FromArray | src/PhpGrab/Html/Form.php:677-699 | for a non-multipart form, or a multipart one with no `@`-value, every scalar key takes its last value, and every other field keeps its value |
| HtmlForm.AtValueBecomesFieldName | src/PhpGrab/Html/Form.php:689-696 | in a multipart form an `@`-value creates a data entry named by the value itself (with the upload text of a null path), and the original key is not set |
| HtmlForm.FromString | src/PhpGrab/Html/Form.php:707-713 | for a non-multipart form, or a multipart one whose parsed values do not start with `@`, every key of the parsed query is set to its parsed value and every other field is kept; the file fields are kept and a well-formed form stays well formed |
| HtmlForm.ToStringFromString | src/PhpGrab/Html/Form.php:652-713 | `from_string(to_string())` copies a form's single-valued fields into another non-multipart form when the query encoding round-trips |
| HtmlForm.Submit | src/PhpGrab/Html/Form.php:563-594 | a call is made exactly for get, post and ajax; its arguments are the action, then the query string for get or the payload and null for post/ajax (the data table when multipart), then the referer (defaulting to the reference URL) and the headers |
| HtmlForm.SubmitWellFormed | src/PhpGrab/Html/Form.php:563-594 | a well-formed form always submits, as get or post, with a data table exactly when it is a multipart post |
| HtmlForm.MultipartLoadPosts | src/PhpGrab/Html/Form.php:369-392 | a form loaded with a multipart enctype is submitted as a post of its extracted data |
| HtmlForm.CriteriaMembers | src/PhpGrab/Html/Form.php:87-89 | the criteria are exactly the attributes whose lower-cased value is truthy, with that value |
| HtmlForm.CriteriaOf | src/PhpGrab/Html/Form.php:84-90 | no selector gives no criteria; a name and a value give that name with the lower-cased value, unless the value is falsy |
| HtmlForm.FirstMatch | src/PhpGrab/Html/Form.php:99-111 | the match found is the first form that satisfies the criteria |
| HtmlForm.BuildAll | src/PhpGrab/Html/Form.php:99-115 | building every form gives one form per node in order, or the first exception raised |
| HtmlForm.Pick | src/PhpGrab/Html/Form.php:84-122 | an index selector clamps negatives to 0 and picks that form or none; any form returned was built from a form in the document; the unfiltered list holds every form in order; with no selector (or only falsy values) the result is every form built in order, or false when there is none |
| HtmlForm.GetForms | src/PhpGrab/Html/Form.php:82-128 | an unparseable document gives no form; an index picks that form; with no selector, every form built in order, or false for none; with criteria, the first matching form, or false; every form returned is well formed |
| HtmlForm.AttributeSelection | src/PhpGrab/Html/Form.php:100-111 | with criteria, the first form matching them all is the one returned |
| HtmlForm.AttributeSelectionNone | src/PhpGrab/Html/Form.php:99-118 | with criteria, no form is returned exactly when no form matches |
| HtmlForm.FalsyValueSelectsAll | src/PhpGrab/Html/Form.php:87-100 | a name with a falsy value filters nothing and selects as if no selector were given |
| HtmlForm.NegativeIndexIsFirst | src/PhpGrab/Html/Form.php:85-86 | a negative index selects the first form |
| HtmlForm.AllFormsStartWithFirst | src/PhpGrab/Html/Form.php:97-122 | the first form of the unfiltered list is the one index 0 selects |
| HtmlForm.FromHtml | src/PhpGrab/Html/Form.php:192-210 | an empty source gives an empty form; the constructor throws the unparseable-HTML error exactly when the source does not parse or holds no form; the result is well formed |
| HtmlForm.FromHtmlIsIndexZero | src/PhpGrab/Html/Form.php:192-210 | constructing from HTML gives the same form as `Form::get` with index 0, and fails where it finds nothing or raises |

## Left out

- The cURL transport and its options are not modelled: `curl_exec`, `init`, `reset`, `close`, `assing_opt`, `get_info` and `get_error`. A request is modelled only as the URL, body, referer and headers it would send.
- `snooze`, `set_sleep_range`, `dump`, `set_proxy` and `set_user_agent` are not modelled: they only configure the transport or produce output.
- The recursion in `get_result` is not modelled: only the next URL and the request that follows are. A redirect loop would need the network.
- `postForm` is not modelled: it reads members that `Http` does not have.
- `parse_url`, `urlencode`, `urldecode`, `rawurlencode`, `http_build_query` and `strtotime` are `Runtime` parameters. Properties that need facts about them state those facts as preconditions. As a result, `compose(parse(u)) == u` is not stated.
- The DOM parser (`loadHTML`) is a `parse` parameter. The model works on the tree it returns.
- The clock (`time()`) is the `now` parameter.
- PHP's loose `==` and `!=` are not modelled, neither between numbers and strings nor between two numeric strings, which PHP compares as numbers. `Form::get` compares wanted attribute values with `!=` (`src/PhpGrab/Html/Form.php:103`), so a wanted `1.0` matches `id="1"` in PHP but not in `HtmlForm.MatchesAll`; `array_search` in `is_file` (line 552, which `offsetSet` uses) and in `offsetUnset` (line 601) compares the same way. The renumbering of integer keys by `array_merge` is not modelled either: field, header and cookie names are treated as non-numeric strings.
- `Form::get` with a numeric string selector is not modelled separately: a caller passes its integer value as `Index`. `is_numeric` itself is not modelled.
- `count()` on a single found form in `Form::get` is not modelled: it depends on the unseen Container parent. A found form is returned as found.
- A reference URL given as a connection object (`last_url`) is not modelled, and neither are `set_ref_url` and the `get_*` getters: only string reference URLs are.
- `get_cookies`, `load_cookies` and `delete_cookies_all` are not modelled: they are plain reads and writes of the jar.
- `src/PhpGrab/Html/Page.php`, `src/PhpGrab/Base/PhpGrab.php` and the Container base class are not part of this model.
- `add_query` with a null value is not modelled: values are strings.
- When `ajax` restores a missing saved Accept header (PHP null), the model writes it back as "".
- Objects converted with `__toString` in `compose` and `from_array` are not modelled: values are strings.
- HtmlForm.FromArray: for a multipart form with an `@`-value, the contract states only that the file fields are kept and the form stays well formed, not the final data; `HtmlForm.AtValueBecomesFieldName` covers one such value.
- HtmlForm.FromString: for a multipart form with a parsed value starting with `@`, the final data is not stated; those values go through `add_file` as in `from_array`.
- Url.SetPort: the argument is an integer; PHP's `(int)` cast of a string (`"8080x"` gives 8080, `"abc"` gives 0, oversized values saturate) happens before the modelled function.
- The default header table that `get` and `post` would send if they passed `default_header` is not modelled as a separate effect of `set_header` and `unset_header`: requests carry the handle's table, as the code does.
- The Container parent class is not part of this model. The model assumes that its `offsetSet` and `offsetUnset` write and remove entries of `_data`, and that assigning `$form->action` or `$url->path` goes through `set_action` or `set_path`.
- Name resolution in `src/PhpGrab/Html/Form.php` is not modelled. The file declares `namespace PhpGrab\Html` and imports only `DOMDocument` (lines 2-4), so `new Url` and `instanceof Url` (lines 149-150) name `PhpGrab\Html\Url`, and `new InvalidArgumentException` (lines 153, 206, 531) names `PhpGrab\Html\InvalidArgumentException`; no file of this model defines either. The model assumes they mean the global `Url` of `src/Url.php` and PHP's `InvalidArgumentException`. It records which error is thrown and with what message, not the class of the thrown object.
- HtmlForm.Flatten: the `name[i]` expansion `http_build_query` applies to list values (from multiple selects) is not stated.
- CookieJar.CookieHeader: states only that no header is produced exactly when no cookie is chosen, not the `k=v; ` layout.
- CookieJar.Crumbs: states only that the first crumb's key is kept; `CookieJar.ReadSetCookie` carries the meaning.
- HttpConnection.SetCookies: states when a Cookie header is produced and which cookie option the handle keeps, not the header text; `CookieJar.SelectCookiesSound` states which cookies go in it.

=== FILE: base.dfy ===
/** Failure-carrying values shared by every module of the model. */
module Base {

  /** A PHP value that may be missing (null / false / an unset key). */
  datatype Option<T> = None | Some(value: T) {
    /** The held value, or `default` when there is none. */
    function GetOr(default: T): T {
      match this
      case Some(v) => v
      case None => default
    }
  }

  /** Exceptions the modelled PHP code throws. */
  datatype Error =
    | InvalidReferenceUrl(url: string)
    | FileNotReadable(path: string)
    | UnparseableHtml

  /**
   * Outcome of a PHP method that mutates an object and may throw: the
   * `Threw` case carries the object as the exception left it, since
   * writes made before the throw are not undone.
   */
  datatype Step<S> = Ok(state: S) | Threw(partial: S, error: Error) {
    /** The object after the call, whether it returned or threw. */
    function Current(): S {
      match this
      case Ok(s) => s
      case Threw(s, _) => s
    }
  }
}

=== FILE: cookie_jar.dfy ===
/**
 * The connection's cookie jar: name -> domain -> {value, expires}, as
 * nested PHP arrays. `Set-Cookie` lines write into it and `set_cookies`
 * selects the values to send, purging expired entries as it scans. The
 * domain test is a plain substring test, not the domain-match of section
 * 5.1.3 of RFC 6265.
 */
module CookieJar {
  import opened Base
  import opened PhpString
  import opened OrderedMap

  /** `expires` is `strtotime`'s result; 0 (PHP's false) never expires. */
  datatype Cookie = Cookie(value: string, expires: int)

  type Domains = Assoc<Cookie>
  type Jar = Assoc<Domains>

  /** `$cookies[$name][$domain]`. */
  function CookieAt(jar: Jar, name: string, domain: string): Option<Cookie> {
    match Lookup(jar, name)
    case Some(ds) => Lookup(ds, domain)
    case None => None
  }

  /** `unset($cookies[$name][$domain])`: removes exactly that entry; a
      name left without domains stays until the next selection. */
  function DropCookie(jar: Jar, name: string, domain: string): (r: Jar)
    ensures CookieAt(r, name, domain) == None
    ensures forall n, d :: n != name || d != domain ==> CookieAt(r, n, d) == CookieAt(jar, n, d)
  {
    match Lookup(jar, name)
    case None => jar
    case Some(ds) => Upsert(jar, name, Remove(ds, domain))
  }

  /** `$cookies[$name][$domain] = $cookie`. */
  function PutCookie(jar: Jar, name: string, domain: string, c: Cookie): (r: Jar)
    ensures CookieAt(r, name, domain) == Some(c)
    ensures forall n, d :: n != name || d != domain ==> CookieAt(r, n, d) == CookieAt(jar, n, d)
  {
    var ds := Lookup(jar, name).GetOr([]);
    Upsert(jar, name, Upsert(ds, domain, c))
  }

  /** One attribute of a Set-Cookie value: split on the first '=', both
      halves trimmed; without '=' the value is null, read as "". */
  function Crumb(piece: string): (string, string) {
    var h := Cut(piece, '=');
    (Trim(h.head, Blank), if h.tail.Some? then Trim(h.tail.value, Blank) else "")
  }

  function CrumbPairs(pieces: seq<string>): (ps: Assoc<string>)
    ensures |ps| == |pieces|
    ensures forall i :: 0 <= i < |ps| ==> ps[i] == Crumb(pieces[i])
  {
    seq(|pieces|, i requires 0 <= i < |pieces| => Crumb(pieces[i]))
  }

  /** The `$crumbs` array: attributes in order, a repeated name keeping
      its first position and its last value. */
  function Crumbs(value: string): (r: Assoc<string>)
    ensures |r| >= 1
    ensures r[0].0 == Crumb(Explode(value, ';')[0]).0
  {
    var ps := CrumbPairs(Explode(value, ';'));
    FromPairsKeys(ps);
    FromPairs(ps)
  }

  /** What one Set-Cookie line asks of the jar. */
  datatype SetCookie = SetCookie(name: string, value: string, domain: string, expiresText: string)

  /** The first attribute gives the name and value (`reset`/`each`), the
      lower-case `domain` attribute the domain when truthy, otherwise the
      host of the last URL; the lower-case `expires` attribute the expiry
      text, "" when absent (a capitalised `Expires` is not read). */
  function ReadSetCookie(value: string, lastHost: string): (r: SetCookie)
    ensures var ps := CrumbPairs(Explode(value, ';'));
      && r.name == ps[0].0
      && Some(r.value) == Last(ps, r.name)
      && (Truthy(Last(ps, "domain").GetOr("")) ==> r.domain == Last(ps, "domain").value)
      && (!Truthy(Last(ps, "domain").GetOr("")) ==> r.domain == lastHost)
      && r.expiresText == Last(ps, "expires").GetOr("")
  {
    var ps := CrumbPairs(Explode(value, ';'));
    var crumbs := Crumbs(value);
    MergeLookup([], ps, crumbs[0].0);
    MergeLookup([], ps, "domain");
    MergeLookup([], ps, "expires");
    assert HasKey(ps, ps[0].0);
    assert Lookup(crumbs, crumbs[0].0) == Some(crumbs[0].1);
    var domain := Lookup(crumbs, "domain").GetOr("");
    SetCookie(crumbs[0].0, crumbs[0].1, if Truthy(domain) then domain else lastHost,
              Lookup(crumbs, "expires").GetOr(""))
  }

  /** The Set-Cookie branch of `parse_hdr`: the value "deleted" removes the
      (name, domain) entry, any other value stores {value, expires} there;
      every other entry is left as it was. */
  function ApplySetCookie(jar: Jar, value: string, lastHost: string, strtotime: string -> int): (r: Jar)
    ensures var sc := ReadSetCookie(value, lastHost);
      && (sc.value == "deleted" ==> CookieAt(r, sc.name, sc.domain) == None)
      && (sc.value != "deleted" ==>
            CookieAt(r, sc.name, sc.domain) == Some(Cookie(sc.value, strtotime(sc.expiresText))))
      && forall n, d :: n != sc.name || d != sc.domain ==> CookieAt(r, n, d) == CookieAt(jar, n, d)
  {
    var sc := ReadSetCookie(value, lastHost);
    if sc.value == "deleted" then DropCookie(jar, sc.name, sc.domain)
    else PutCookie(jar, sc.name, sc.domain, Cookie(sc.value, strtotime(sc.expiresText)))
  }

  /** Whether `set_cookies` purges an entry: a non-zero expiry before now. */
  predicate Expired(c: Cookie, now: int) {
    c.expires != 0 && now > c.expires
  }

  /** The loose domain test: an empty domain, or a substring of "." + host. */
  predicate Eligible(domain: string, host: string) {
    !Truthy(domain) || Contains("." + host, domain)
  }

  predicate Usable(e: (string, Cookie), host: string, now: int) {
    !Expired(e.1, now) && Eligible(e.0, host)
  }

  /** A live entry for exactly the host stops the scan. */
  predicate StopsScan(e: (string, Cookie), host: string, now: int) {
    !Expired(e.1, now) && e.0 == host
  }

  /** An exact host match always passes the domain test. */
  lemma ExactIsEligible(host: string)
    ensures Eligible(host, host)
  {
    if Truthy(host) {
      ContainsAt("." + host, host, 1);
    }
  }

  /** What the scan of one name's domains leaves and selects. */
  datatype Scan = Scan(kept: Domains, chosen: Option<string>)

  /** No entry is both live and for a matching domain. */
  predicate NoneUsable(ds: Domains, host: string, now: int) {
    forall j :: 0 <= j < |ds| ==> !Usable(ds[j], host, now)
  }

  /** Some live entry for a matching domain carries the value `v`. */
  predicate UsableWith(ds: Domains, host: string, now: int, v: string) {
    exists j :: 0 <= j < |ds| && Usable(ds[j], host, now) && ds[j].1.value == v
  }

  /** `kept` holds only entries of `ds` and every one that has not expired. */
  predicate KeepsLive(ds: Domains, kept: Domains, now: int) {
    && (forall e :: e in kept ==> e in ds)
    && (forall e :: e in ds && !Expired(e.1, now) ==> e in kept)
  }

  /** The inner loop of `set_cookies` for one cookie name, in domain order. */
  function ScanDomains(ds: Domains, host: string, now: int): (r: Scan)
    ensures r.chosen.None? <==> NoneUsable(ds, host, now)
    ensures r.chosen.Some? ==> UsableWith(ds, host, now, r.chosen.value)
  {
    if |ds| == 0 then Scan([], None)
    else
      var e := ds[0];
      if Expired(e.1, now) then
        var rest := ScanDomains(ds[1..], host, now);
        Scan(rest.kept, rest.chosen)
      else if Eligible(e.0, host) && host == e.0 then
        Scan(ds, Some(e.1.value))
      else
        var rest := ScanDomains(ds[1..], host, now);
        Scan([e] + rest.kept,
             if rest.chosen.Some? then rest.chosen
             else if Eligible(e.0, host) then Some(e.1.value) else None)
  }

  /** The scan purges expired entries only: what it keeps comes from
      the list, and nothing live is lost. */
  lemma {:induction false} ScanKeepsLive(ds: Domains, host: string, now: int)
    ensures KeepsLive(ds, ScanDomains(ds, host, now).kept, now)
    decreases |ds|
  {
    if |ds| > 0 && !StopsScan(ds[0], host, now) {
      ScanKeepsLive(ds[1..], host, now);
      ScanStep(ds, host, now);
      assert forall e :: e in ds ==> e == ds[0] || e in ds[1..];
    } else if |ds| > 0 {
      ExactIsEligible(host);
    }
  }

  /** Index of the first live entry for exactly the host. */
  function FirstStop(ds: Domains, host: string, now: int): (r: Option<nat>)
    ensures r.Some? ==> r.value < |ds| && StopsScan(ds[r.value], host, now)
    ensures r.Some? ==> forall j :: 0 <= j < r.value ==> !StopsScan(ds[j], host, now)
    ensures r.None? ==> forall j :: 0 <= j < |ds| ==> !StopsScan(ds[j], host, now)
  {
    if |ds| == 0 then None
    else if StopsScan(ds[0], host, now) then Some(0)
    else
      match FirstStop(ds[1..], host, now)
      case Some(i) => Some(i + 1)
      case None => None
  }

  /** The entries that have not expired, in order. */
  function Live(ds: Domains, now: int): (r: Domains) {
    if |ds| == 0 then []
    else if Expired(ds[|ds| - 1].1, now) then Live(ds[..|ds| - 1], now)
    else Live(ds[..|ds| - 1], now) + [ds[|ds| - 1]]
  }

  /** The value of the last usable entry. */
  function LastUsable(ds: Domains, host: string, now: int): Option<string> {
    if |ds| == 0 then None
    else if Usable(ds[|ds| - 1], host, now) then Some(ds[|ds| - 1].1.value)
    else LastUsable(ds[..|ds| - 1], host, now)
  }

  /** Live seen from the front. */
  lemma {:induction false} LiveFront(ds: Domains, now: int)
    requires |ds| > 0
    ensures Live(ds, now) == (if Expired(ds[0].1, now) then [] else [ds[0]]) + Live(ds[1..], now)
    decreases |ds|
  {
    if |ds| > 1 {
      var init := ds[..|ds| - 1];
      LiveFront(init, now);
      assert init[0] == ds[0];
      assert init[1..] == ds[1..][..|ds[1..]| - 1];
    }
  }

  /** LastUsable seen from the front: the rest's answer, if any, else the
      first entry when usable. */
  lemma {:induction false} LastUsableFront(ds: Domains, host: string, now: int)
    requires |ds| > 0
    ensures LastUsable(ds, host, now) ==
      (if LastUsable(ds[1..], host, now).Some? then LastUsable(ds[1..], host, now)
       else if Usable(ds[0], host, now) then Some(ds[0].1.value) else None)
    decreases |ds|
  {
    if |ds| > 1 {
      var init := ds[..|ds| - 1];
      LastUsableFront(init, host, now);
      assert init[0] == ds[0];
      assert init[1..] == ds[1..][..|ds[1..]| - 1];
    }
  }

  /** One step of the scan past an entry that does not stop it. */
  lemma ScanStep(ds: Domains, host: string, now: int)
    requires |ds| > 0 && !StopsScan(ds[0], host, now)
    ensures var rest := ScanDomains(ds[1..], host, now);
      ScanDomains(ds, host, now) ==
        if Expired(ds[0].1, now) then rest
        else Scan([ds[0]] + rest.kept,
                  if rest.chosen.Some? then rest.chosen
                  else if Eligible(ds[0].0, host) then Some(ds[0].1.value) else None)
  {
  }

  /** A live exact-host entry in front ends the scan at once. */
  lemma ScanStopsAtHead(ds: Domains, host: string, now: int)
    requires |ds| > 0 && StopsScan(ds[0], host, now)
    ensures ScanDomains(ds, host, now) == Scan(Live(ds[..1], now) + ds[1..], Some(ds[0].1.value))
  {
    ExactIsEligible(host);
    LiveFront(ds[..1], now);
    assert ds[..1][1..] == [];
    assert ds[..1] + ds[1..] == ds;
  }

  /** A step past an entry that does not stop the scan, when the rest
      selects something. */
  lemma ScanStepChosen(ds: Domains, host: string, now: int)
    requires |ds| > 0 && !StopsScan(ds[0], host, now)
    requires ScanDomains(ds[1..], host, now).chosen.Some?
    ensures var rest := ScanDomains(ds[1..], host, now);
      ScanDomains(ds, host, now) ==
        Scan((if Expired(ds[0].1, now) then [] else [ds[0]]) + rest.kept, rest.chosen)
  {
    ScanStep(ds, host, now);
  }

  /** With a live exact-host entry at `i` and none before, the scan
      selects it and purges only the expired entries before it. */
  lemma {:induction false} ScanStopsAt(ds: Domains, host: string, now: int, i: nat)
    requires i < |ds| && StopsScan(ds[i], host, now)
    requires forall j :: 0 <= j < i ==> !StopsScan(ds[j], host, now)
    ensures ScanDomains(ds, host, now) == Scan(Live(ds[..i + 1], now) + ds[i + 1..], Some(ds[i].1.value))
    decreases i
  {
    if i == 0 {
      ScanStopsAtHead(ds, host, now);
    } else {
      var tail := ds[1..];
      var front := ds[..i + 1];
      assert front[1..] == tail[..i];
      assert ds[i + 1..] == tail[i..];
      assert tail[i - 1] == ds[i];
      assert forall j :: 0 <= j < i - 1 ==> tail[j] == ds[j + 1];
      ScanStopsAt(tail, host, now, i - 1);
      var live := Live(tail[..i], now);
      var rest := ScanDomains(tail, host, now);
      assert rest == Scan(live + tail[i..], Some(ds[i].1.value));
      LiveFront(front, now);
      assert front[0] == ds[0];
      var head: Domains := if Expired(ds[0].1, now) then [] else [ds[0]];
      assert Live(front, now) == head + live;
      ScanStepChosen(ds, host, now);
      assert ScanDomains(ds, host, now) == Scan(head + rest.kept, rest.chosen);
      ConcatAssoc(head, live, tail[i..]);
    }
  }

  /** Concatenation is associative. */
  lemma ConcatAssoc(a: Domains, b: Domains, c: Domains)
    ensures a + (b + c) == (a + b) + c
  {
  }

  /** Without a live exact-host entry, the scan purges every expired
      entry and the last usable entry wins. */
  lemma {:induction false} ScanRunsThrough(ds: Domains, host: string, now: int)
    requires FirstStop(ds, host, now).None?
    ensures ScanDomains(ds, host, now) == Scan(Live(ds, now), LastUsable(ds, host, now))
    decreases |ds|
  {
    if |ds| > 0 {
      LiveFront(ds, now);
      LastUsableFront(ds, host, now);
      assert !StopsScan(ds[0], host, now);
      assert FirstStop(ds[1..], host, now).None?;
      ScanRunsThrough(ds[1..], host, now);
    }
  }

  /** The scan as a definition on its own terms: when a live entry names
      exactly the host, the first one is selected and only the entries
      up to it are purged; otherwise every expired entry is purged and the
      last usable entry wins. */
  lemma ScanDomainsReference(ds: Domains, host: string, now: int)
    ensures ScanDomains(ds, host, now) ==
      match FirstStop(ds, host, now)
      case Some(i) => Scan(Live(ds[..i + 1], now) + ds[i + 1..], Some(ds[i].1.value))
      case None => Scan(Live(ds, now), LastUsable(ds, host, now))
  {
    if FirstStop(ds, host, now).Some? {
      ScanStopsAt(ds, host, now, FirstStop(ds, host, now).value);
    } else {
      ScanRunsThrough(ds, host, now);
    }
  }

  /** The outcome of `set_cookies` on the jar and on the selected values. */
  datatype Selection = Selection(jar: Jar, cookies: Assoc<string>)

  /** `p` is a name of the jar with the domains its scan kept. */
  predicate KeptFrom(p: (string, Domains), jar: Jar, host: string, now: int) {
    exists j :: 0 <= j < |jar| && p.0 == jar[j].0 && p.1 == ScanDomains(jar[j].1, host, now).kept
  }

  /** `p` is a name of the jar with the value its scan selected. */
  predicate ChosenFrom(p: (string, string), jar: Jar, host: string, now: int) {
    exists j :: 0 <= j < |jar| && p.0 == jar[j].0 && Some(p.1) == ScanDomains(jar[j].1, host, now).chosen
  }

  /** The scan of a name selects something. */
  predicate Selects(e: (string, Domains), host: string, now: int) {
    ScanDomains(e.1, host, now).chosen.Some?
  }

  lemma FromTail(jar: Jar, host: string, now: int)
    requires |jar| > 0
    ensures forall p :: KeptFrom(p, jar[1..], host, now) ==> KeptFrom(p, jar, host, now)
    ensures forall p :: ChosenFrom(p, jar[1..], host, now) ==> ChosenFrom(p, jar, host, now)
  {
    forall p | KeptFrom(p, jar[1..], host, now)
      ensures KeptFrom(p, jar, host, now)
    {
      var j :| 0 <= j < |jar[1..]| && p.0 == jar[1..][j].0 && p.1 == ScanDomains(jar[1..][j].1, host, now).kept;
      assert jar[j + 1] == jar[1..][j];
    }
    forall p | ChosenFrom(p, jar[1..], host, now)
      ensures ChosenFrom(p, jar, host, now)
    {
      var j :| 0 <= j < |jar[1..]| && p.0 == jar[1..][j].0 && Some(p.1) == ScanDomains(jar[1..][j].1, host, now).chosen;
      assert jar[j + 1] == jar[1..][j];
    }
  }

  /** The jar after the scan: kept domains per name, names left without
      domains removed. */
  function Pruned(jar: Jar, host: string, now: int): (r: Jar)
    ensures forall p :: p in r ==> |p.1| > 0 && KeptFrom(p, jar, host, now)
  {
    if |jar| == 0 then []
    else
      var kept := ScanDomains(jar[0].1, host, now).kept;
      var rest := Pruned(jar[1..], host, now);
      FromTail(jar, host, now);
      assert |kept| > 0 ==> KeptFrom((jar[0].0, kept), jar, host, now);
      (if |kept| > 0 then [(jar[0].0, kept)] else []) + rest
  }

  /** (name, value) for every name whose scan selected a value, in jar order. */
  function Chosen(jar: Jar, host: string, now: int): (r: Assoc<string>)
    ensures forall p :: p in r ==> ChosenFrom(p, jar, host, now)
    ensures forall j :: 0 <= j < |jar| && Selects(jar[j], host, now) ==> HasKey(r, jar[j].0)
  {
    if |jar| == 0 then []
    else
      var chosen := ScanDomains(jar[0].1, host, now).chosen;
      var rest := Chosen(jar[1..], host, now);
      var head := if chosen.Some? then [(jar[0].0, chosen.value)] else [];
      FromTail(jar, host, now);
      assert chosen.Some? ==> ChosenFrom((jar[0].0, chosen.value), jar, host, now);
      var r := head + rest;
      assert forall j :: 1 <= j < |jar| && Selects(jar[j], host, now) ==> HasKey(r, jar[j].0) by {
        forall j | 1 <= j < |jar| && Selects(jar[j], host, now)
          ensures HasKey(r, jar[j].0)
        {
          assert jar[1..][j - 1] == jar[j];
          var i :| 0 <= i < |rest| && rest[i].0 == jar[j].0;
          assert r[|head| + i] == rest[i];
        }
      }
      assert Selects(jar[0], host, now) ==> r[0].0 == jar[0].0;
      r
  }

  /** `set_cookies` on the jar: per name, the scan of its domains. */
  function SelectCookies(jar: Jar, host: string, now: int): (r: Selection)
    ensures Distinct(r.cookies)
  {
    Selection(Pruned(jar, host, now), FromPairs(Chosen(jar, host, now)))
  }

  /** Selection never sends an expired cookie: every selected value is
      that of a live entry of the same name whose domain passes the test,
      and one is selected for every name that has such an entry. */
  lemma SelectCookiesSound(jar: Jar, host: string, now: int, name: string)
    ensures var r := SelectCookies(jar, host, now);
      && (forall v :: Lookup(r.cookies, name) == Some(v) ==>
            exists j, k :: 0 <= j < |jar| && jar[j].0 == name && 0 <= k < |jar[j].1|
              && Usable(jar[j].1[k], host, now) && jar[j].1[k].1.value == v)
      && ((exists j, k :: 0 <= j < |jar| && jar[j].0 == name && 0 <= k < |jar[j].1|
              && Usable(jar[j].1[k], host, now)) ==> HasKey(r.cookies, name))
  {
    var ps := Chosen(jar, host, now);
    var r := SelectCookies(jar, host, now);
    MergeLookup([], ps, name);
    if Lookup(r.cookies, name).Some? {
      var v := Lookup(r.cookies, name).value;
      LastIn(ps, name);
      assert ChosenFrom((name, v), jar, host, now);
      var j :| 0 <= j < |jar| && name == jar[j].0 && Some(v) == ScanDomains(jar[j].1, host, now).chosen;
      var k :| 0 <= k < |jar[j].1| && Usable(jar[j].1[k], host, now) && jar[j].1[k].1.value == v;
    }
    if exists j, k :: 0 <= j < |jar| && jar[j].0 == name && 0 <= k < |jar[j].1| && Usable(jar[j].1[k], host, now) {
      var j, k :| 0 <= j < |jar| && jar[j].0 == name && 0 <= k < |jar[j].1| && Usable(jar[j].1[k], host, now);
      assert Selects(jar[j], host, now);
      FromPairsHasKey(ps, name);
    }
  }

  /** The pair Last reports is in the list. */
  lemma {:induction false} LastIn<V>(ps: Assoc<V>, k: string)
    requires HasKey(ps, k)
    ensures (k, Last(ps, k).value) in ps
    decreases |ps|
  {
    if ps[|ps| - 1].0 != k {
      HasKeySnoc(ps, k);
      LastIn(ps[..|ps| - 1], k);
    }
  }

  /** The pruned jar keeps only entries it was given under the same name
      and leaves no name without domains. */
  lemma SelectCookiesPurge(jar: Jar, host: string, now: int)
    ensures forall p, e :: p in SelectCookies(jar, host, now).jar && e in p.1 ==>
      exists j :: 0 <= j < |jar| && jar[j].0 == p.0 && e in jar[j].1
    ensures forall p :: p in SelectCookies(jar, host, now).jar ==> |p.1| > 0
  {
    forall p, e | p in SelectCookies(jar, host, now).jar && e in p.1
      ensures exists j :: 0 <= j < |jar| && jar[j].0 == p.0 && e in jar[j].1
    {
      assert KeptFrom(p, jar, host, now);
      var j :| 0 <= j < |jar| && p.0 == jar[j].0 && p.1 == ScanDomains(jar[j].1, host, now).kept;
      ScanKeepsLive(jar[j].1, host, now);
    }
  }

  /** No live entry is lost: each stays under its name in the pruned jar. */
  lemma {:induction false} SelectCookiesKeepsLive(jar: Jar, host: string, now: int, j: nat, e: (string, Cookie))
    requires j < |jar| && e in jar[j].1 && !Expired(e.1, now)
    ensures exists p :: p in SelectCookies(jar, host, now).jar && p.0 == jar[j].0 && e in p.1
    decreases j
  {
    var kept := ScanDomains(jar[0].1, host, now).kept;
    var rest := Pruned(jar[1..], host, now);
    assert Pruned(jar, host, now) == (if |kept| > 0 then [(jar[0].0, kept)] else []) + rest;
    if j == 0 {
      ScanKeepsLive(jar[0].1, host, now);
      assert (jar[0].0, kept) in Pruned(jar, host, now);
    } else {
      assert jar[1..][j - 1] == jar[j];
      SelectCookiesKeepsLive(jar[1..], host, now, j - 1, e);
      var p :| p in rest && p.0 == jar[j].0 && e in p.1;
      assert p in Pruned(jar, host, now);
    }
  }

  /** The outgoing `Cookie` header: "k=v" pairs joined by "; ", none when
      nothing is selected. */
  function CookieHeader(cookies: Assoc<string>): (r: Option<string>)
    ensures r.None? <==> |cookies| == 0
  {
    if |cookies| == 0 then None
    else Some(Implode(seq(|cookies|, i requires 0 <= i < |cookies| => cookies[i].0 + "=" + cookies[i].1), "; "))
  }
}

=== FILE: dom.dfy ===
/**
 * The part of PHP's DOM the form extractor reads: element trees,
 * `getAttribute` / `hasAttribute`, `textContent` and
 * `getElementsByTagName`, which lists matching descendants in document
 * order. Parsing HTML into this tree is not modelled.
 */
module Dom {
  import opened Base
  import opened OrderedMap

  /** An element (tag name in lower case, attributes in source order) or
      a text node. */
  datatype Node = Element(tag: string, attrs: Assoc<string>, children: seq<Node>) | Text(content: string)

  /** `hasAttribute`. */
  predicate HasAttr(n: Node, name: string) {
    n.Element? && HasKey(n.attrs, name)
  }

  /** `getAttribute`: the attribute's value, "" when it is absent. */
  function Attr(n: Node, name: string): (r: string)
    ensures !HasAttr(n, name) ==> r == ""
    ensures HasAttr(n, name) ==> (name, r) in n.attrs
  {
    if n.Element? then Lookup(n.attrs, name).GetOr("") else ""
  }

  /** `textContent`: the text of every text node below, in order. */
  function TextContent(n: Node): string {
    match n
    case Text(s) => s
    case Element(_, _, cs) => TextOf(cs)
  }

  function TextOf(cs: seq<Node>): string
    decreases cs
  {
    if |cs| == 0 then "" else TextContent(cs[0]) + TextOf(cs[1..])
  }

  /** Every node below `n`, in document (pre-)order, `n` itself excluded. */
  function Descendants(n: Node): seq<Node> {
    match n
    case Text(_) => []
    case Element(_, _, cs) => DescendantsOf(cs)
  }

  function DescendantsOf(cs: seq<Node>): seq<Node>
    decreases cs
  {
    if |cs| == 0 then [] else [cs[0]] + Descendants(cs[0]) + DescendantsOf(cs[1..])
  }

  predicate IsTag(n: Node, tag: string) {
    n.Element? && n.tag == tag
  }

  /** The elements of a list with the given tag, in order. */
  function WithTag(ns: seq<Node>, tag: string): (r: seq<Node>)
    ensures forall i :: 0 <= i < |r| ==> IsTag(r[i], tag)
    ensures forall x :: x in r <==> x in ns && IsTag(x, tag)
    ensures |r| <= |ns|
  {
    if |ns| == 0 then []
    else
      var rest := WithTag(ns[1..], tag);
      assert forall x :: x in ns <==> x == ns[0] || x in ns[1..];
      if IsTag(ns[0], tag) then [ns[0]] + rest else rest
  }

  /** `getElementsByTagName`: the descendants with the tag, in document
      order. */
  function ElementsByTag(n: Node, tag: string): (r: seq<Node>)
    ensures forall i :: 0 <= i < |r| ==> IsTag(r[i], tag)
    ensures forall x :: x in r <==> x in Descendants(n) && IsTag(x, tag)
  {
    WithTag(Descendants(n), tag)
  }

  /** Filtering by tag keeps order: the matches of a concatenation are the
      matches of each part, concatenated. */
  lemma {:induction false} WithTagAppend(xs: seq<Node>, ys: seq<Node>, tag: string)
    ensures WithTag(xs + ys, tag) == WithTag(xs, tag) + WithTag(ys, tag)
    decreases |xs|
  {
    if |xs| > 0 {
      assert (xs + ys)[0] == xs[0];
      assert (xs + ys)[1..] == xs[1..] + ys;
      WithTagAppend(xs[1..], ys, tag);
    } else {
      assert xs + ys == ys;
    }
  }

  /** A child element with the tag comes first among the matches below a
      parent whose earlier children hold none. */
  lemma FirstChildMatch(tag: string, attrs: Assoc<string>, child: Node, later: seq<Node>)
    requires IsTag(child, tag)
    ensures var r := ElementsByTag(Element("div", attrs, [child] + later), tag);
      |r| > 0 && r[0] == child
  {
    var cs := [child] + later;
    var below := Descendants(child) + DescendantsOf(later);
    assert cs[0] == child && cs[1..] == later;
    assert DescendantsOf(cs) == [child] + Descendants(child) + DescendantsOf(later);
    assert DescendantsOf(cs) == [child] + below;
    assert Descendants(Element("div", attrs, cs)) == [child] + below;
    assert WithTag([child], tag) == [child] by {
      assert [child][1..] == [];
    }
    WithTagAppend([child], below, tag);
  }
}

=== FILE: form_fields.dfy ===
/**
 * How `PhpGrab\Html\Form` reads the successful controls of a form node:
 * usable elements, then per-tag rules for <input>, <select>, <button> and
 * <textarea>, merged into the form's data in that order.
 */
module FormFields {
  import opened Base
  import opened PhpString
  import opened OrderedMap
  import opened Dom

  /** A field's value: a string, or the list a multiple select yields. */
  datatype FieldValue = Single(s: string) | Multi(vs: seq<string>)

  type Fields = Assoc<FieldValue>

  /** `_extract_usable_elements`: a truthy name and no `disabled`. */
  predicate Usable(e: Node) {
    Truthy(Attr(e, "name")) && !HasAttr(e, "disabled")
  }

  function UsableOf(es: seq<Node>): (r: seq<Node>)
    ensures forall x :: x in r <==> x in es && Usable(x)
  {
    if |es| == 0 then []
    else
      var rest := UsableOf(es[1..]);
      assert forall x :: x in es <==> x == es[0] || x in es[1..];
      if Usable(es[0]) then [es[0]] + rest else rest
  }

  /** The usable descendants of the form with the tag, in document order. */
  function UsableElements(form: Node, tag: string): (r: seq<Node>)
    ensures forall x :: x in r <==> x in Descendants(form) && IsTag(x, tag) && Usable(x)
  {
    UsableOf(ElementsByTag(form, tag))
  }

  /** The kinds of control the extractor reads, and their tags. */
  datatype Kind = InputKind | SelectKind | ButtonKind | TextareaKind

  function TagOf(k: Kind): string {
    match k
    case InputKind => "input"
    case SelectKind => "select"
    case ButtonKind => "button"
    case TextareaKind => "textarea"
  }

  /** An input's type, lower-cased, "text" when absent. */
  function InputType(e: Node): string {
    if HasAttr(e, "type") then Lower(Attr(e, "type")) else "text"
  }

  predicate Checkable(t: string) { t == "radio" || t == "checkbox" }

  predicate Skippable(t: string) { t == "button" || t == "reset" }

  /** `_extract_inputs` for one element: radios and checkboxes count only
      when checked (value, else "on"); buttons and resets never; any other
      type gives its value attribute. */
  function InputValue(e: Node): (r: Option<FieldValue>)
    ensures r.Some? ==> r.value.Single?
    ensures r.None? <==> Skippable(InputType(e)) || (Checkable(InputType(e)) && !HasAttr(e, "checked"))
    ensures r.Some? && Checkable(InputType(e)) ==>
      r.value == Single(if HasAttr(e, "value") then Attr(e, "value") else "on")
    ensures r.Some? && !Checkable(InputType(e)) ==> r.value == Single(Attr(e, "value"))
  {
    var t := InputType(e);
    if Checkable(t) then
      if HasAttr(e, "checked") then Some(Single(if HasAttr(e, "value") then Attr(e, "value") else "on"))
      else None
    else if Skippable(t) then None
    else Some(Single(Attr(e, "value")))
  }

  predicate Selected(o: Node) { HasAttr(o, "selected") }

  /** An option's value attribute, else its text. */
  function OptionValue(o: Node): string {
    if HasAttr(o, "value") then Attr(o, "value") else TextContent(o)
  }

  /** The option loop of `_extract_selects` for a single select, from
      option `i` with the value held so far: option 0 is taken, a selected
      option is taken and ends the loop. */
  function SingleScan(opts: seq<Node>, i: nat, held: Option<string>): Option<string>
    requires i <= |opts|
    decreases |opts| - i
  {
    if i == |opts| then held
    else if Selected(opts[i]) then Some(OptionValue(opts[i]))
    else if i == 0 then SingleScan(opts, i + 1, Some(OptionValue(opts[i])))
    else SingleScan(opts, i + 1, held)
  }

  /** Index of the first selected option. */
  function FirstSelected(opts: seq<Node>): (r: Option<nat>)
    ensures r.Some? ==> r.value < |opts| && Selected(opts[r.value])
    ensures r.Some? ==> forall j :: 0 <= j < r.value ==> !Selected(opts[j])
    ensures r.None? ==> forall j :: 0 <= j < |opts| ==> !Selected(opts[j])
  {
    if |opts| == 0 then None
    else if Selected(opts[0]) then Some(0)
    else
      match FirstSelected(opts[1..])
      case Some(i) => Some(i + 1)
      case None => None
  }

  /** What a single select submits: its first selected option, else its
      first option, else nothing. */
  function SingleValue(opts: seq<Node>): (r: Option<string>)
  {
    SingleScan(opts, 0, None)
  }

  lemma {:induction false} SingleScanFrom(opts: seq<Node>, i: nat, held: Option<string>)
    requires 1 <= i <= |opts|
    requires forall j :: 0 <= j < i ==> !Selected(opts[j])
    ensures SingleScan(opts, i, held) ==
      match FirstSelected(opts)
      case Some(j) => Some(OptionValue(opts[j]))
      case None => held
    decreases |opts| - i
  {
    if i < |opts| && !Selected(opts[i]) {
      SingleScanFrom(opts, i + 1, held);
    }
  }

  /** The single-select rule as a definition of its own: the first
      selected option wins; with none selected, the first option. */
  lemma SingleValueReference(opts: seq<Node>)
    ensures SingleValue(opts) ==
      if |opts| == 0 then None
      else match FirstSelected(opts)
        case Some(j) => Some(OptionValue(opts[j]))
        case None => Some(OptionValue(opts[0]))
  {
    if |opts| > 0 && !Selected(opts[0]) {
      SingleScanFrom(opts, 1, Some(OptionValue(opts[0])));
    }
  }

  /** Some selected option carries the value `v`. */
  predicate SelectedWith(opts: seq<Node>, v: string) {
    exists j :: 0 <= j < |opts| && Selected(opts[j]) && OptionValue(opts[j]) == v
  }

  lemma SelectedWithCons(opts: seq<Node>, v: string)
    requires |opts| > 0
    ensures SelectedWith(opts, v) <==>
      (Selected(opts[0]) && OptionValue(opts[0]) == v) || SelectedWith(opts[1..], v)
  {
    if SelectedWith(opts, v) {
      var j :| 0 <= j < |opts| && Selected(opts[j]) && OptionValue(opts[j]) == v;
      if j > 0 {
        assert opts[1..][j - 1] == opts[j];
      }
    }
    if SelectedWith(opts[1..], v) {
      var j :| 0 <= j < |opts[1..]| && Selected(opts[1..][j]) && OptionValue(opts[1..][j]) == v;
      assert opts[j + 1] == opts[1..][j];
    }
  }

  /** The values of the selected options, in order. */
  function SelectedValues(opts: seq<Node>): (r: seq<string>)
    ensures forall v :: v in r <==> SelectedWith(opts, v)
  {
    if |opts| == 0 then []
    else
      var rest := SelectedValues(opts[1..]);
      assert forall v :: SelectedWith(opts, v) <==>
        (Selected(opts[0]) && OptionValue(opts[0]) == v) || SelectedWith(opts[1..], v) by {
        forall v ensures SelectedWith(opts, v) <==>
          (Selected(opts[0]) && OptionValue(opts[0]) == v) || SelectedWith(opts[1..], v)
        {
          SelectedWithCons(opts, v);
        }
      }
      if Selected(opts[0]) then [OptionValue(opts[0])] + rest else rest
  }

  /** What a multiple select submits: the first option's value, then the
      value of every later selected option (the first option is always
      included, selected or not). */
  function MultiValues(opts: seq<Node>): (r: seq<string>)
    ensures |opts| == 0 <==> |r| == 0
    ensures |opts| > 0 ==> r[0] == OptionValue(opts[0]) && r[1..] == SelectedValues(opts[1..])
  {
    if |opts| == 0 then [] else [OptionValue(opts[0])] + SelectedValues(opts[1..])
  }

  /** `_extract_selects` for one element. */
  function SelectValue(e: Node): (r: Option<FieldValue>)
    ensures HasAttr(e, "multiple") ==> r.Some? && r.value.Multi?
    ensures !HasAttr(e, "multiple") ==> (r.Some? <==> |ElementsByTag(e, "option")| > 0) && (r.Some? ==> r.value.Single?)
    ensures HasAttr(e, "multiple") ==> r == Some(Multi(MultiValues(ElementsByTag(e, "option"))))
    ensures !HasAttr(e, "multiple") ==> var opts := ElementsByTag(e, "option");
      r == if |opts| == 0 then None
        else match FirstSelected(opts)
          case Some(j) => Some(Single(OptionValue(opts[j])))
          case None => Some(Single(OptionValue(opts[0])))
  {
    var opts := ElementsByTag(e, "option");
    if HasAttr(e, "multiple") then Some(Multi(MultiValues(opts)))
    else
      SingleValueReference(opts);
      match SingleValue(opts)
      case Some(v) => Some(Single(v))
      case None => None
  }

  /** `_extract_buttons` for one element: a value and a type that is
      absent or exactly "submit". */
  function ButtonValue(e: Node): (r: Option<FieldValue>)
    ensures r.Some? <==> HasAttr(e, "value") && (!HasAttr(e, "type") || Attr(e, "type") == "submit")
    ensures r.Some? ==> r.value == Single(Attr(e, "value"))
  {
    if HasAttr(e, "value") && (!HasAttr(e, "type") || Attr(e, "type") == "submit") then Some(Single(Attr(e, "value")))
    else None
  }

  /** What one usable element of a kind contributes, if anything. */
  function ValueOf(k: Kind, e: Node): Option<FieldValue> {
    match k
    case InputKind => InputValue(e)
    case SelectKind => SelectValue(e)
    case ButtonKind => ButtonValue(e)
    case TextareaKind => Some(Single(TextContent(e)))
  }

  /** What each usable element of a kind contributes, as a function. */
  function Contribution(k: Kind): Node -> Option<FieldValue> {
    e => ValueOf(k, e)
  }

  /** `p` comes from an element of `es` with that name and value. */
  predicate FromElement(p: (string, FieldValue), value: Node -> Option<FieldValue>, es: seq<Node>) {
    exists e :: e in es && Attr(e, "name") == p.0 && value(e) == Some(p.1)
  }

  /** The (name, value) writes the extractor's loop makes, in order. */
  function Writes(k: Kind, es: seq<Node>): (r: Fields)
    ensures WritesFrom(r, Contribution(k), es)
  {
    WritesBy(Contribution(k), es)
  }

  /** The writes for any contribution rule. */
  function WritesBy(value: Node -> Option<FieldValue>, es: seq<Node>): (r: Fields)
    ensures WritesFrom(r, value, es)
  {
    if |es| == 0 then []
    else
      var rest := WritesBy(value, es[1..]);
      WritesStep(value, es, rest);
      var v := value(es[0]);
      (if v.Some? then [(Attr(es[0], "name"), v.value)] else []) + rest
  }

  /** Every write comes from an element, and every contributing element
      writes its name. */
  ghost predicate WritesFrom(r: Fields, value: Node -> Option<FieldValue>, es: seq<Node>) {
    && (forall p :: p in r ==> FromElement(p, value, es))
    && (forall e :: e in es && value(e).Some? ==> HasKey(r, Attr(e, "name")))
  }

  /** The first element's write in front of the later elements' writes. */
  lemma WritesStep(value: Node -> Option<FieldValue>, es: seq<Node>, rest: Fields)
    requires |es| > 0 && WritesFrom(rest, value, es[1..])
    ensures var v := value(es[0]);
      WritesFrom((if v.Some? then [(Attr(es[0], "name"), v.value)] else []) + rest, value, es)
  {
    var v := value(es[0]);
    var head: Fields := if v.Some? then [(Attr(es[0], "name"), v.value)] else [];
    var r := head + rest;
    forall p | p in r ensures FromElement(p, value, es) {
      if p in rest {
        var e :| e in es[1..] && Attr(e, "name") == p.0 && value(e) == Some(p.1);
        assert e in es;
      } else {
        assert p in head;
        assert es[0] in es;
      }
    }
    forall e | e in es && value(e).Some? ensures HasKey(r, Attr(e, "name")) {
      if e == es[0] {
        assert r[0].0 == Attr(e, "name");
      } else {
        assert e in es[1..] by {
          var i :| 0 <= i < |es| && es[i] == e;
          assert es[1..][i - 1] == e;
        }
        var i :| 0 <= i < |rest| && rest[i].0 == Attr(e, "name");
        assert r[|head| + i] == rest[i];
      }
    }
  }

  /** The writes follow document order: the value a name ends with is
      that of the last element with the name that contributes one. */
  lemma {:induction false} WritesLast(value: Node -> Option<FieldValue>, es: seq<Node>, name: string, i: nat)
    requires i < |es| && Attr(es[i], "name") == name && value(es[i]).Some?
    requires forall j :: i < j < |es| && Attr(es[j], "name") == name ==> value(es[j]).None?
    ensures Last(WritesBy(value, es), name) == value(es[i])
    decreases |es|
  {
    var rest := WritesBy(value, es[1..]);
    var v := value(es[0]);
    var head: Fields := if v.Some? then [(Attr(es[0], "name"), v.value)] else [];
    assert WritesBy(value, es) == head + rest;
    if i == 0 {
      forall k | 0 <= k < |rest| ensures rest[k].0 != name {
        assert rest[k] in rest;
        var e :| e in es[1..] && Attr(e, "name") == rest[k].0 && value(e) == Some(rest[k].1);
        var j :| 0 <= j < |es[1..]| && es[1..][j] == e;
        assert es[j + 1] == e;
      }
      assert head == [(name, v.value)];
      LastCons((name, v.value), rest, name);
    } else {
      forall j | i - 1 < j < |es[1..]| && Attr(es[1..][j], "name") == name
        ensures value(es[1..][j]).None?
      {
        assert es[1..][j] == es[j + 1];
      }
      assert es[1..][i - 1] == es[i];
      WritesLast(value, es[1..], name, i - 1);
      if v.Some? {
        LastCons(head[0], rest, name);
        assert head == [head[0]];
      } else {
        assert head + rest == rest;
      }
    }
  }

  /** The hash table one `_extract_*` method returns: a later element with
      the same name overwrites an earlier one. */
  function Extract(form: Node, k: Kind): (r: Fields)
    ensures Distinct(r)
  {
    FromPairs(Writes(k, UsableElements(form, TagOf(k))))
  }

  /** A name is in an extracted table exactly when a usable element of that
      kind with the name contributes, and its value is the last such
      element's. */
  lemma ExtractLookup(form: Node, k: Kind, name: string)
    ensures var ws := Writes(k, UsableElements(form, TagOf(k)));
      && Lookup(Extract(form, k), name) == Last(ws, name)
      && (HasKey(Extract(form, k), name) <==>
            exists e :: e in UsableElements(form, TagOf(k)) && Attr(e, "name") == name && ValueOf(k, e).Some?)
  {
    var es := UsableElements(form, TagOf(k));
    var ws := Writes(k, es);
    MergeLookup([], ws, name);
    if HasKey(ws, name) {
      var i :| 0 <= i < |ws| && ws[i].0 == name;
      assert ws[i] in ws;
      assert FromElement(ws[i], Contribution(k), es);
    }
  }

  /** A later same-named element overwrites an earlier one: the table
      holds the value of the last usable element with the name that
      contributes one. */
  lemma ExtractLastWins(form: Node, k: Kind, name: string, i: nat)
    requires var es := UsableElements(form, TagOf(k));
      && i < |es| && Attr(es[i], "name") == name && ValueOf(k, es[i]).Some?
      && forall j :: i < j < |es| && Attr(es[j], "name") == name ==> ValueOf(k, es[j]).None?
    ensures Lookup(Extract(form, k), name) == ValueOf(k, UsableElements(form, TagOf(k))[i])
  {
    var es := UsableElements(form, TagOf(k));
    ExtractLookup(form, k, name);
    assert forall e :: Contribution(k)(e) == ValueOf(k, e);
    WritesLast(Contribution(k), es, name, i);
  }

  /** `_file_fields` after `_extract_inputs`: the name of every usable
      input of type "file", in document order, repeats kept. */
  function FileNames(es: seq<Node>): (r: seq<string>)
    ensures forall n :: n in r <==> exists e :: e in es && InputType(e) == "file" && Attr(e, "name") == n
  {
    if |es| == 0 then []
    else
      var rest := FileNames(es[1..]);
      assert forall e :: e in es <==> e == es[0] || e in es[1..];
      if InputType(es[0]) == "file" then [Attr(es[0], "name")] + rest else rest
  }

  /** One element contributes its name when it is a file input, and
      nothing otherwise. */
  lemma FileNamesOne(e: Node)
    ensures FileNames([e]) == if InputType(e) == "file" then [Attr(e, "name")] else []
  {
    assert [e][1..] == [];
  }

  /** The file names of a concatenation are those of each part, in order:
      document order and repeated names are kept. */
  lemma {:induction false} FileNamesAppend(xs: seq<Node>, ys: seq<Node>)
    ensures FileNames(xs + ys) == FileNames(xs) + FileNames(ys)
    decreases |xs|
  {
    if |xs| > 0 {
      assert (xs + ys)[0] == xs[0];
      assert (xs + ys)[1..] == xs[1..] + ys;
      FileNamesAppend(xs[1..], ys);
    } else {
      assert xs + ys == ys;
    }
  }

  /** The `array_merge` in `load`: inputs, then selects, buttons and
      textareas, a later table winning on a shared name. */
  function FormData(form: Node): (r: Fields)
    ensures Distinct(r)
  {
    var d1 := Merge(Extract(form, InputKind), Extract(form, SelectKind));
    var d2 := Merge(d1, Extract(form, ButtonKind));
    MergeDistinct(Extract(form, InputKind), Extract(form, SelectKind));
    MergeDistinct(d1, Extract(form, ButtonKind));
    MergeDistinct(d2, Extract(form, TextareaKind));
    Merge(d2, Extract(form, TextareaKind))
  }

  /** Which control a name's value comes from: a textarea over a button
      over a select over an input. */
  lemma FormDataPrecedence(form: Node, name: string)
    ensures Lookup(FormData(form), name) ==
      if HasKey(Extract(form, TextareaKind), name) then Lookup(Extract(form, TextareaKind), name)
      else if HasKey(Extract(form, ButtonKind), name) then Lookup(Extract(form, ButtonKind), name)
      else if HasKey(Extract(form, SelectKind), name) then Lookup(Extract(form, SelectKind), name)
      else Lookup(Extract(form, InputKind), name)
  {
    var i := Extract(form, InputKind);
    var s := Extract(form, SelectKind);
    var b := Extract(form, ButtonKind);
    var t := Extract(form, TextareaKind);
    var d1 := Merge(i, s);
    var d2 := Merge(d1, b);
    MergeLookup(i, s, name);
    MergeLookup(d1, b, name);
    MergeLookup(d2, t, name);
    LastDistinct(s, name);
    LastDistinct(b, name);
    LastDistinct(t, name);
  }
}

=== FILE: html_form.dfy ===
/**
 * `PhpGrab\Html\Form`: a form's reference URL, action, method, content
 * type, field data and file fields; loading them from a form node;
 * resolving the action against the reference URL; file uploads; filling
 * fields from arrays and query strings; and the call `submit` makes.
 */
module HtmlForm {
  import opened Base
  import opened PhpString
  import opened OrderedMap
  import opened PhpLib
  import opened Dom
  import opened FormFields
  import Url

  const UrlEncodedType: string := "application/x-www-form-urlencoded"
  const MultipartType: string := "multipart/form-data"
  const MethodGet: string := "get"
  const MethodPost: string := "post"

  /** Example: the method and content type names are lower case. */
  lemma ConstantsLower()
    ensures Lower(MethodGet) == MethodGet && Lower(MethodPost) == MethodPost
    ensures Lower(UrlEncodedType) == UrlEncodedType && Lower(MultipartType) == MultipartType
  {
    LowerNoUpper(MethodGet);
    LowerNoUpper(MethodPost);
    LowerNoUpper(UrlEncodedType);
    LowerNoUpper(MultipartType);
  }

  /** A form object's state (`_data` is `data`). */
  datatype Form = Form(
    refUrl: string,
    action: string,
    httpMethod: string,
    contentType: string,
    data: Fields,
    fileFields: seq<string>)

  /** What every reachable form satisfies: one of the two methods and one
      of the two content types. */
  predicate WellFormed(f: Form) {
    (f.httpMethod == MethodGet || f.httpMethod == MethodPost)
    && (f.contentType == UrlEncodedType || f.contentType == MultipartType)
  }

  /** `set_method`: a lower-cased "get" or "post" is stored, anything else
      ignored. */
  function SetMethod(f: Form, m: string): (r: Form)
    ensures r == f.(httpMethod := r.httpMethod)
    ensures Lower(m) == MethodGet || Lower(m) == MethodPost ==> r.httpMethod == Lower(m)
    ensures !(Lower(m) == MethodGet || Lower(m) == MethodPost) ==> r.httpMethod == f.httpMethod
    ensures WellFormed(f) ==> WellFormed(r)
  {
    var lower := Lower(m);
    if Truthy(lower) && (lower == MethodGet || lower == MethodPost) then f.(httpMethod := lower) else f
  }

  /** `set_content_type` (and `set_enctype`, its alias): one of the two
      types, lower-cased, is stored, anything else ignored; multipart also
      switches the method to post. */
  function SetContentType(f: Form, ct: string): (r: Form)
    ensures r == f.(contentType := r.contentType, httpMethod := r.httpMethod)
    ensures Lower(ct) == UrlEncodedType ==> r.contentType == UrlEncodedType && r.httpMethod == f.httpMethod
    ensures Lower(ct) == MultipartType ==> r.contentType == MultipartType && r.httpMethod == MethodPost
    ensures Lower(ct) != UrlEncodedType && Lower(ct) != MultipartType ==> r == f
    ensures WellFormed(f) ==> WellFormed(r)
  {
    var lower := Lower(ct);
    if Truthy(lower) && (lower == UrlEncodedType || lower == MultipartType) then
      var g := f.(contentType := lower);
      if lower == MultipartType then g.(httpMethod := MethodPost) else g
    else f
  }

  /** The state before the constructor's body: every property empty. */
  const Unset: Form := Form("", "", "", "", [], [])

  /** The constructor's first two calls: `set_method()` and
      `set_content_type()` with their defaults. */
  function Defaults(): (r: Form)
    ensures WellFormed(r)
    ensures r.httpMethod == MethodGet && r.contentType == UrlEncodedType
    ensures r.data == [] && r.fileFields == [] && r.refUrl == "" && r.action == ""
  {
    ConstantsLower();
    SetContentType(SetMethod(Unset, MethodGet), UrlEncodedType)
  }

  /** The result of `get_absolute_url`: a URL, or the exception for an
      invalid reference URL. */
  datatype Resolved = Resolved(url: string) | Rejected(error: Error)

  /** The path the relative branch builds: the reference path's last
      segment replaced by the relative URL, unless the relative URL's first
      segment is falsy. */
  function RelativePath(refPath: string, rel: string): string {
    var a := Explode(Trim(refPath, Blank), '/');
    var b := Explode(Trim(rel, Blank), '/');
    if Truthy(b[0]) then Implode(a[..|a| - 1] + [rel], "/") else Implode(a, "/")
  }

  /** The reference URL with its query and fragment removed and the
      relative URL applied. */
  function Apply(c: Url.Components, url: string, rt: Runtime): (r: Url.Components)
    requires |url| > 0
    ensures r.scheme == c.scheme && r.user == c.user && r.pass == c.pass
    ensures r.host == c.host && r.port == c.port && r.fragment == ""
    ensures url[0] == '/' ==> r.path == url && r.query == []
    ensures url[0] != '/' ==> var q := Cut(url, '?').tail.GetOr("");
      r.query == (if Truthy(q) then Url.ParseQuery(q, rt.urldecode).value else [])
  {
    var tmp := c.(query := [], hasQuery := false, fragment := "");
    if url[0] == '/' then Url.SetPath(tmp, url)
    else
      var h := Cut(url, '?');
      Url.SetQuery(Url.SetPath(tmp, RelativePath(tmp.path, h.head)), Url.QueryText(h.tail.GetOr("")), rt.urldecode)
  }

  /** `Form::get_absolute_url`. */
  function GetAbsoluteUrl(url: string, ref: string, rt: Runtime): (r: Resolved)
    ensures !Truthy(url) ==> r == Resolved(ref)
    ensures Truthy(url) && Contains(url, "://") ==> r == Resolved(url)
    ensures Truthy(url) && !Contains(url, "://") ==> (r.Rejected? <==> !Url.IsValid(Url.NewUrl(ref, rt)))
    ensures r.Rejected? ==> r.error == InvalidReferenceUrl(ref)
  {
    if !Truthy(url) then Resolved(ref)
    else if Contains(url, "://") then Resolved(url)
    else
      var c := Url.NewUrl(ref, rt);
      if !Url.IsValid(c) then Rejected(InvalidReferenceUrl(ref))
      else Resolved(Url.Get(Apply(c, url, rt), rt).value)
  }

  /** An absolute path replaces the reference URL's path, query and
      fragment and keeps its scheme, credentials, host and port. */
  lemma AbsolutePathResolves(url: string, ref: string, rt: Runtime)
    requires Truthy(url) && url[0] == '/' && !Contains(url, "://")
    requires Url.IsValid(Url.NewUrl(ref, rt))
    ensures var c := Url.NewUrl(ref, rt);
      GetAbsoluteUrl(url, ref, rt) == Resolved(Url.SchemeOf(c) + "://" + Url.Credentials(c, rt.urlencode) + Url.GetHostPort(c) + url)
  {
  }

  /** The query the relative branch sets: the relative URL's part after
      its first '?', parsed when truthy. */
  function RelativeQuery(url: string, rt: Runtime): Url.Query {
    var q := Cut(url, '?').tail.GetOr("");
    if Truthy(q) then Url.ParseQuery(q, rt.urldecode).value else []
  }

  /** What the relative branch writes after the path: '?' and the built
      relative query, when it is non-empty. */
  function QuerySuffix(url: string, rt: Runtime): string {
    var query := RelativeQuery(url, rt);
    if |query| > 0 then "?" + rt.buildQuery(query) else ""
  }

  /** A relative URL whose part before '?' starts with a truthy segment
      replaces the last segment of the reference path with that part: the
      result is the reference directory, the part, and the relative URL's
      query. */
  lemma RelativePathResolves(url: string, ref: string, rt: Runtime)
    requires Truthy(url) && url[0] != '/' && !Contains(url, "://")
    requires Truthy(Explode(Trim(Cut(url, '?').head, Blank), '/')[0])
    requires Url.IsValid(Url.NewUrl(ref, rt))
    ensures var c := Url.NewUrl(ref, rt);
      GetAbsoluteUrl(url, ref, rt) ==
        Resolved(Url.SchemeOf(c) + "://" + Url.Credentials(c, rt.urlencode) + Url.GetHostPort(c)
          + Url.NormalizePath(DirPrefix(Trim(c.path, Blank)) + Cut(url, '?').head) + QuerySuffix(url, rt))
  {
    var c := Url.NewUrl(ref, rt);
    var p := Trim(c.path, Blank);
    var h := Cut(url, '?').head;
    assert RelativePath(c.path, h) == DirPrefix(p) + h by {
      assert RelativePath(c.path, h) == ReplaceLastSegment(p, h);
      ReplaceLastSegmentDir(p, h);
    }
    assert GetAbsoluteUrl(url, ref, rt) == Resolved(Url.Get(Apply(c, url, rt), rt).value);
    RelativeApplied(c, url, RelativePath(c.path, h), rt);
  }

  /** The relative branch with its path computed: the composed URL is the
      scheme, credentials, host and port, the normalised path, and the
      relative URL's query. */
  lemma RelativeApplied(c: Url.Components, url: string, path: string, rt: Runtime)
    requires Truthy(url) && url[0] != '/'
    requires path == RelativePath(c.path, Cut(url, '?').head)
    requires Url.IsValid(c)
    ensures Url.Get(Apply(c, url, rt), rt) ==
      Some(Url.SchemeOf(c) + "://" + Url.Credentials(c, rt.urlencode) + Url.GetHostPort(c) + Url.NormalizePath(path) + QuerySuffix(url, rt))
  {
    var r := Apply(c, url, rt);
    ApplyRelative(c, url, path, rt);
    Url.StemSameOrigin(r, c, rt.urlencode);
    var stem := Url.Stem(r, rt.urlencode);
    assert Url.Compose(r, rt) == stem + QuerySuffix(url, rt);
  }

  /** The relative branch keeps everything of the reference URL but its
      path, query and fragment. */
  lemma ApplyRelative(c: Url.Components, url: string, path: string, rt: Runtime)
    requires Truthy(url) && url[0] != '/'
    requires path == RelativePath(c.path, Cut(url, '?').head)
    ensures Apply(c, url, rt) ==
      c.(path := Url.NormalizePath(path), query := RelativeQuery(url, rt), hasQuery := true, fragment := "")
  {
    var tmp := c.(query := [], hasQuery := false, fragment := "");
    var withPath := Url.SetPath(tmp, path);
    assert withPath == tmp.(path := Url.NormalizePath(path));
    assert Apply(c, url, rt) == Url.SetQuery(withPath, Url.QueryText(Cut(url, '?').tail.GetOr("")), rt.urldecode);
  }

  /** A relative URL whose part before '?' starts with a falsy segment
      ("0/next", one with a leading blank before '/', or a bare query)
      leaves the reference path in place and takes the relative URL's
      query. */
  lemma FalsySegmentIgnored(url: string, ref: string, rt: Runtime)
    requires Truthy(url) && url[0] != '/' && !Contains(url, "://")
    requires !Truthy(Explode(Trim(Cut(url, '?').head, Blank), '/')[0])
    requires Url.IsValid(Url.NewUrl(ref, rt))
    ensures var c := Url.NewUrl(ref, rt);
      GetAbsoluteUrl(url, ref, rt) ==
        Resolved(Url.SchemeOf(c) + "://" + Url.Credentials(c, rt.urlencode) + Url.GetHostPort(c)
          + Url.NormalizePath(Trim(c.path, Blank)) + QuerySuffix(url, rt))
  {
    var c := Url.NewUrl(ref, rt);
    var h := Cut(url, '?').head;
    ImplodeExplode(Trim(c.path, Blank), '/');
    assert RelativePath(c.path, h) == Trim(c.path, Blank);
    RelativeApplied(c, url, RelativePath(c.path, h), rt);
  }

  /** A relative URL that is only a query keeps the reference path, with
      blanks trimmed, and takes its query from the relative URL. */
  lemma QueryOnlyKeepsPath(c: Url.Components, q: string, rt: Runtime)
    ensures var r := Apply(c, "?" + q, rt);
      && r.path == Url.NormalizePath(Trim(c.path, Blank))
      && r.query == (if Truthy(q) then Url.ParseQuery(q, rt.urldecode).value else [])
  {
    var url := "?" + q;
    CutAfterHead("", '?', q);
    assert "" + ['?'] + q == url;
    assert Cut(url, '?') == Halves("", Some(q));
    TrimNoop("", Blank);
    assert Cut("", '/') == Halves("", None);
    assert Explode("", '/') == [""];
    ImplodeExplode(Trim(c.path, Blank), '/');
    assert RelativePath(c.path, "") == Trim(c.path, Blank);
  }

  /** Example: "0/next" is such a URL. */
  lemma ZeroSegmentIsFalsy()
    ensures !Truthy(Explode(Trim("0/next", Blank), '/')[0])
  {
    TrimNoop("0/next", Blank);
    CutAfterHead("0", '/', "next");
    assert "0/next" == "0" + ['/'] + "next";
  }

  /** `set_action`: resolved against a truthy reference URL, stored as
      given otherwise. */
  function SetAction(f: Form, action: string, rt: Runtime): (r: Step<Form>)
    ensures !Truthy(f.refUrl) ==> r == Ok(f.(action := action))
    ensures Truthy(f.refUrl) ==> match GetAbsoluteUrl(action, f.refUrl, rt)
      case Resolved(u) => r == Ok(f.(action := u))
      case Rejected(e) => r == Threw(f, e)
  {
    if Truthy(f.refUrl) then
      match GetAbsoluteUrl(action, f.refUrl, rt)
      case Resolved(u) => Ok(f.(action := u))
      case Rejected(e) => Threw(f, e)
    else Ok(f.(action := action))
  }

  /** The characters `load` deletes from the action attribute. */
  const ActionBlanks: set<char> := {' ', '\r', '\n', '\t'}

  /** `Form::load`: reference URL (when truthy), action with every blank
      removed, method, enctype, then file fields and data from the node. */
  function Load(f: Form, node: Node, ref: string, rt: Runtime): (r: Step<Form>)
    ensures r.Ok? ==> r.state.data == FormData(node)
    ensures r.Ok? ==> r.state.fileFields == FileNames(UsableElements(node, "input"))
    ensures r.Ok? ==> r.state.refUrl == (if Truthy(ref) then ref else f.refUrl)
    ensures r.Ok? && Lower(Attr(node, "enctype")) == MultipartType ==> r.state.httpMethod == MethodPost
    ensures r.Ok? ==> forall c :: c in ActionBlanks && !Truthy(r.state.refUrl) ==> c !in r.state.action
    ensures r.Ok? && !Truthy(r.state.refUrl) ==> r.state.action == Strip(Attr(node, "action"), ActionBlanks)
    ensures r.Ok? && Truthy(r.state.refUrl) ==>
      GetAbsoluteUrl(Strip(Attr(node, "action"), ActionBlanks), r.state.refUrl, rt) == Resolved(r.state.action)
    ensures r.Threw? ==>
      Truthy(r.partial.refUrl) && GetAbsoluteUrl(Strip(Attr(node, "action"), ActionBlanks), r.partial.refUrl, rt).Rejected?
    ensures r.Threw? ==> r.error.InvalidReferenceUrl? && r.partial.data == f.data
    ensures r.Threw? ==> r.partial.httpMethod == f.httpMethod && r.partial.contentType == f.contentType
  {
    var f1 := if Truthy(ref) then f.(refUrl := ref) else f;
    var action := Strip(Attr(node, "action"), ActionBlanks);
    var step := SetAction(f1, action, rt);
    if step.Threw? then step
    else
      var f2 := step.state;
      assert !Truthy(f2.refUrl) ==> f2.action == action;
      assert forall c :: c in ActionBlanks ==> c !in action;
      var f3 := SetContentType(SetMethod(f2, Attr(node, "method")), Attr(node, "enctype"));
      assert f3.action == f2.action && f3.refUrl == f2.refUrl;
      Ok(f3.(fileFields := FileNames(UsableElements(node, "input")), data := FormData(node)))
  }

  /** Loading keeps a form well formed, whether it returns or throws. */
  lemma LoadKeepsWellFormed(f: Form, node: Node, ref: string, rt: Runtime)
    requires WellFormed(f)
    ensures WellFormed(Load(f, node, ref, rt).Current())
  {
    var r := Load(f, node, ref, rt);
    if r.Ok? {
      var f1 := if Truthy(ref) then f.(refUrl := ref) else f;
      var f2 := SetAction(f1, Strip(Attr(node, "action"), ActionBlanks), rt).state;
      assert WellFormed(f2);
      var f3 := SetContentType(SetMethod(f2, Attr(node, "method")), Attr(node, "enctype"));
      assert WellFormed(f3);
      assert r.state.httpMethod == f3.httpMethod && r.state.contentType == f3.contentType;
    }
  }

  /** `new Form($src, $ref_url)` for a form node (or none). */
  function NewForm(src: Option<Node>, ref: string, rt: Runtime): (r: Step<Form>)
    ensures WellFormed(r.Current())
    ensures src.None? ==> r.Ok? && r.state.data == [] && r.state.refUrl == (if Truthy(ref) then ref else "")
  {
    var base := Defaults();
    match src
    case Some(node) =>
      LoadKeepsWellFormed(base, node, ref, rt);
      Load(base, node, ref, rt)
    case None => Ok(if Truthy(ref) then base.(refUrl := ref) else base)
  }

  /** The file system as `add_file` sees it: `realpath` (None is its
      false) and `is_file($p) && is_readable($p)`. */
  datatype FileSystem = FileSystem(realpath: string -> Option<string>, readableFile: string -> bool)

  /** A file name `add_file` accepts. */
  predicate Readable(fs: FileSystem, name: string) {
    fs.realpath(name).Some? && fs.readableFile(fs.realpath(name).value)
  }

  /** The value `add_file` stores for an accepted file: '@' and its real
      path. */
  function Upload(fs: FileSystem, name: string): string {
    "@" + fs.realpath(name).GetOr("")
  }

  /** Every file name of the map is accepted. */
  predicate AllReadable(fs: FileSystem, files: Assoc<string>) {
    forall i :: 0 <= i < |files| ==> Readable(fs, files[i].1)
  }

  /** The position of the first file name not accepted; the length when
      every one is. */
  function FirstUnreadable(fs: FileSystem, files: Assoc<string>): (n: nat)
    ensures n <= |files|
    ensures AllReadable(fs, files[..n])
    ensures n < |files| ==> !Readable(fs, files[n].1)
    ensures n == |files| <==> AllReadable(fs, files)
  {
    if |files| == 0 then 0
    else if !Readable(fs, files[0].1) then 0
    else
      var m := FirstUnreadable(fs, files[1..]);
      assert files[..m + 1] == [files[0]] + files[1..][..m];
      assert forall i :: 0 < i < |files| ==> files[i] == files[1..][i - 1];
      1 + m
  }

  /** `out` is `data` with every file of `done` stored under its field,
      a repeated field keeping its last file, and nothing else changed. */
  ghost predicate Wrote(data: Fields, done: Assoc<string>, fs: FileSystem, out: Fields) {
    && (forall k :: HasKey(done, k) ==> Lookup(out, k) == Some(Single(Upload(fs, Last(done, k).value))))
    && (forall k :: !HasKey(done, k) ==> Lookup(out, k) == Lookup(data, k))
  }

  /** Writing one more file in front: the file's write is overwritten by
      a later one for the same field. */
  lemma WroteCons(data: Fields, p: (string, string), done: Assoc<string>, fs: FileSystem, out: Fields)
    requires Wrote(Upsert(data, p.0, Single(Upload(fs, p.1))), done, fs, out)
    ensures Wrote(data, [p] + done, fs, out)
  {
    forall k | HasKey([p] + done, k)
      ensures Lookup(out, k) == Some(Single(Upload(fs, Last([p] + done, k).value)))
    {
      LastCons(p, done, k);
    }
    forall k | !HasKey([p] + done, k)
      ensures Lookup(out, k) == Lookup(data, k)
    {
      HasKeyCons(p, done, k);
    }
  }

  /** The files written before the first bad one, one accepted file
      followed by the rest of the loop. */
  lemma WrotePrefixStep(data: Fields, files: Assoc<string>, fs: FileSystem, rest: Written)
    requires |files| > 0 && Readable(fs, files[0].1)
    requires var d := Upsert(data, files[0].0, Single(Upload(fs, files[0].1)));
      Wrote(d, files[1..][..FirstUnreadable(fs, files[1..])], fs, rest.data)
    requires var m := FirstUnreadable(fs, files[1..]);
      m < |files[1..]| ==> rest.failed == Some(FileNotReadable(fs.realpath(files[1..][m].1).GetOr("")))
    ensures Wrote(data, files[..FirstUnreadable(fs, files)], fs, rest.data)
    ensures var n := FirstUnreadable(fs, files);
      n < |files| ==> rest.failed == Some(FileNotReadable(fs.realpath(files[n].1).GetOr("")))
  {
    var m := FirstUnreadable(fs, files[1..]);
    assert FirstUnreadable(fs, files) == m + 1;
    PrefixCons(files, m);
    WroteCons(data, files[0], files[1..][..m], fs, rest.data);
  }

  /** A prefix one longer than a prefix of the tail is the head followed
      by that prefix. */
  lemma PrefixCons<T>(s: seq<T>, m: nat)
    requires m < |s|
    ensures s[..m + 1] == [s[0]] + s[1..][..m]
  {
    assert forall i :: 0 <= i < m + 1 ==> s[..m + 1][i] == ([s[0]] + s[1..][..m])[i];
  }

  /** The data after `add_file`'s loop, and the exception that ended it. */
  datatype Written = Written(data: Fields, failed: Option<Error>)

  /** `add_file`'s loop: each file in order is stored under its field, the
      first one not accepted throws. */
  function WriteFiles(data: Fields, files: Assoc<string>, fs: FileSystem): (r: Written)
    ensures r.failed.None? <==> AllReadable(fs, files)
    ensures r.failed.Some? ==> r.failed.value.FileNotReadable?
    ensures forall k :: !HasKey(files, k) ==> Lookup(r.data, k) == Lookup(data, k)
    ensures r.failed.None? ==> forall k :: HasKey(files, k) ==> Lookup(r.data, k) == Some(Single(Upload(fs, Last(files, k).value)))
    ensures Wrote(data, files[..FirstUnreadable(fs, files)], fs, r.data)
    ensures var n := FirstUnreadable(fs, files);
      n < |files| ==> r.failed == Some(FileNotReadable(fs.realpath(files[n].1).GetOr("")))
    decreases |files|
  {
    if |files| == 0 then Written(data, None)
    else
      var name := files[0].1;
      match fs.realpath(name)
      case None => FailedAt(data, files, fs, "")
      case Some(path) =>
        if !fs.readableFile(path) then FailedAt(data, files, fs, path)
        else
          var rest := WriteFiles(Upsert(data, files[0].0, Single("@" + path)), files[1..], fs);
          WriteFilesStep(data, files, fs, rest);
          WrotePrefixStep(data, files, fs, rest);
          rest
  }

  /** The loop stopping at the first file. */
  function FailedAt(data: Fields, files: Assoc<string>, fs: FileSystem, path: string): (r: Written)
    requires |files| > 0 && !Readable(fs, files[0].1)
    ensures r == Written(data, Some(FileNotReadable(path)))
    ensures !AllReadable(fs, files)
  {
    Written(data, Some(FileNotReadable(path)))
  }

  /** One accepted file followed by the rest of the loop. */
  lemma WriteFilesStep(data: Fields, files: Assoc<string>, fs: FileSystem, rest: Written)
    requires |files| > 0 && Readable(fs, files[0].1)
    requires var d := Upsert(data, files[0].0, Single(Upload(fs, files[0].1)));
      && (rest.failed.None? <==> AllReadable(fs, files[1..]))
      && (forall k :: !HasKey(files[1..], k) ==> Lookup(rest.data, k) == Lookup(d, k))
      && (rest.failed.None? ==> forall k :: HasKey(files[1..], k) ==> Lookup(rest.data, k) == Some(Single(Upload(fs, Last(files[1..], k).value))))
    ensures rest.failed.None? <==> AllReadable(fs, files)
    ensures forall k :: !HasKey(files, k) ==> Lookup(rest.data, k) == Lookup(data, k)
    ensures rest.failed.None? ==> forall k :: HasKey(files, k) ==> Lookup(rest.data, k) == Some(Single(Upload(fs, Last(files, k).value)))
  {
    assert files == [files[0]] + files[1..];
    assert AllReadable(fs, files) <==> AllReadable(fs, files[1..]) by {
      if AllReadable(fs, files[1..]) {
        forall i | 0 <= i < |files| ensures Readable(fs, files[i].1) {
          if i > 0 { assert files[i] == files[1..][i - 1]; }
        }
      }
      if AllReadable(fs, files) {
        forall i | 0 <= i < |files[1..]| ensures Readable(fs, files[1..][i].1) {
          assert files[1..][i] == files[i + 1];
        }
      }
    }
    forall k ensures HasKey(files, k) <==> k == files[0].0 || HasKey(files[1..], k) {
      if HasKey(files, k) && k != files[0].0 {
        var i :| 0 <= i < |files| && files[i].0 == k;
        assert files[1..][i - 1].0 == k;
      }
      if HasKey(files[1..], k) {
        var i :| 0 <= i < |files[1..]| && files[1..][i].0 == k;
        assert files[i + 1].0 == k;
      }
    }
    forall k | HasKey(files, k)
      ensures Last(files, k) == if HasKey(files[1..], k) then Last(files[1..], k) else Some(files[0].1)
    {
      LastCons(files[0], files[1..], k);
    }
  }

  /** `add_file` with a map of fields to file names (a single field is the
      one-entry map): every file must resolve to a readable file; each is
      stored as '@' and its real path, and the form switches to a
      multipart post. The first bad file throws, keeping the writes before
      it and the method and content type as they were. */
  function AddFile(f: Form, files: Assoc<string>, fs: FileSystem): (r: Step<Form>)
    ensures r.Ok? <==> AllReadable(fs, files)
    ensures r.Ok? ==> r.state.httpMethod == MethodPost && r.state.contentType == MultipartType
    ensures r.Ok? ==> forall k :: HasKey(files, k) ==> Lookup(r.state.data, k) == Some(Single(Upload(fs, Last(files, k).value)))
    ensures r.Threw? ==> r.error.FileNotReadable? && r.partial.httpMethod == f.httpMethod && r.partial.contentType == f.contentType
    ensures Wrote(f.data, files[..FirstUnreadable(fs, files)], fs, r.Current().data)
    ensures forall k :: !HasKey(files, k) ==> Lookup(r.Current().data, k) == Lookup(f.data, k)
    ensures r.Current().fileFields == f.fileFields && r.Current().refUrl == f.refUrl && r.Current().action == f.action
    ensures WellFormed(f) ==> WellFormed(r.Current())
  {
    var w := WriteFiles(f.data, files, fs);
    var g := f.(data := w.data);
    ConstantsLower();
    if w.failed.Some? then Threw(g, w.failed.value)
    else Ok(SetContentType(SetMethod(g, MethodPost), MultipartType))
  }

  /** `is_file` for one field: it is listed among the file fields. */
  predicate IsFile(f: Form, field: string) {
    field in f.fileFields
  }

  /** `is_file` for a list: the listed names that are file fields. */
  function FileFieldsAmong(f: Form, names: seq<string>): (r: seq<string>)
    ensures forall x :: x in r <==> x in names && IsFile(f, x)
  {
    if |names| == 0 then []
    else
      var rest := FileFieldsAmong(f, names[1..]);
      assert forall x :: x in names <==> x == names[0] || x in names[1..];
      if IsFile(f, names[0]) then [names[0]] + rest else rest
  }

  /** `offsetSet`: a file field takes the value as a file name, through
      `add_file`; any other field stores the value. */
  function OffsetSet(f: Form, offset: string, value: string, fs: FileSystem): (r: Step<Form>)
    ensures !IsFile(f, offset) ==> r.Ok? && Lookup(r.state.data, offset) == Some(Single(value))
    ensures IsFile(f, offset) ==> (r.Ok? <==> Readable(fs, value))
    ensures IsFile(f, offset) && r.Ok? ==>
      (Lookup(r.state.data, offset) == Some(Single(Upload(fs, value))) && r.state.contentType == MultipartType)
    ensures forall k :: k != offset ==> Lookup(r.Current().data, k) == Lookup(f.data, k)
    ensures WellFormed(f) ==> WellFormed(r.Current())
  {
    if IsFile(f, offset) then
      var files := [(offset, value)];
      OneEntry(offset, value);
      assert AllReadable(fs, files) <==> Readable(fs, value);
      AddFile(f, files, fs)
    else Ok(f.(data := Upsert(f.data, offset, Single(value))))
  }

  /** The list without the first occurrence of `x` (PHP's `unset` at the
      index `array_search` finds). */
  function RemoveFirst(xs: seq<string>, x: string): (r: seq<string>)
    ensures x in xs ==> multiset(r) + multiset{x} == multiset(xs)
    ensures x !in xs ==> r == xs
  {
    if |xs| == 0 then []
    else if xs[0] == x then
      assert xs == [xs[0]] + xs[1..];
      xs[1..]
    else
      assert xs == [xs[0]] + xs[1..];
      [xs[0]] + RemoveFirst(xs[1..], x)
  }

  /** `offsetUnset`: the field's first file-field entry and its data go. */
  function OffsetUnset(f: Form, offset: string): (r: Form)
    ensures Lookup(r.data, offset) == None
    ensures forall k :: k != offset ==> Lookup(r.data, k) == Lookup(f.data, k)
    ensures offset in f.fileFields ==> multiset(r.fileFields) + multiset{offset} == multiset(f.fileFields)
    ensures offset !in f.fileFields ==> r.fileFields == f.fileFields
    ensures WellFormed(f) ==> WellFormed(r)
  {
    f.(data := Remove(f.data, offset), fileFields := RemoveFirst(f.fileFields, offset))
  }

  /** Only the first occurrence goes: a field listed twice (two file
      inputs with one name) is still a file field after `offsetUnset`. */
  lemma UnsetKeepsRepeatedFileField(f: Form, offset: string)
    requires multiset(f.fileFields)[offset] >= 2
    ensures IsFile(OffsetUnset(f, offset), offset)
  {
    var r := OffsetUnset(f, offset);
    assert offset in f.fileFields;
    assert multiset(r.fileFields)[offset] >= 1;
  }

  /** `to_array`. */
  function ToArray(f: Form): Fields {
    f.data
  }

  /** The flat pairs `http_build_query` writes for the data: a list value
      becomes name[0], name[1], ... */
  function Flatten(data: Fields): (r: Assoc<string>)
    ensures (forall i :: 0 <= i < |data| ==> data[i].1.Single?) ==>
      |r| == |data| && forall i :: 0 <= i < |data| ==> r[i] == (data[i].0, data[i].1.s)
  {
    if |data| == 0 then []
    else
      var (name, v) := data[0];
      var head := match v
        case Single(s) => [(name, s)]
        case Multi(vs) => seq(|vs|, i requires 0 <= i < |vs| => (name + "[" + Decimal(i) + "]", vs[i]));
      var rest := Flatten(data[1..]);
      assert (forall i :: 0 <= i < |data| ==> data[i].1.Single?) ==>
        forall i :: 0 <= i < |data[1..]| ==> data[1..][i].1.Single? by {
        if forall i :: 0 <= i < |data| ==> data[i].1.Single? {
          forall i | 0 <= i < |data[1..]| ensures data[1..][i].1.Single? {
            assert data[1..][i] == data[i + 1];
          }
        }
      }
      head + rest
  }

  /** `to_string`: `http_build_query` of the data. */
  function ToString(f: Form, rt: Runtime): string {
    rt.buildQuery(Flatten(f.data))
  }

  /** A value given to `from_array`: a scalar (objects arrive as their
      string form) or an array, which is dropped. */
  datatype Incoming = Scalar(s: string) | Nested

  /** The scalar entries, in order, as field values. */
  function Scalars(fields: Assoc<Incoming>): Fields {
    if |fields| == 0 then []
    else
      var rest := Scalars(fields[1..]);
      if fields[0].1.Scalar? then [(fields[0].0, Single(fields[0].1.s))] + rest else rest
  }

  /** Only arrays are dropped: a pair is kept exactly when it was given
      with a scalar value, and every kept value is a single one. */
  lemma {:induction false} ScalarsMembers(fields: Assoc<Incoming>, k: string, v: FieldValue)
    ensures (k, v) in Scalars(fields) <==> v.Single? && (k, Scalar(v.s)) in fields
    decreases |fields|
  {
    if |fields| > 0 {
      ScalarsMembers(fields[1..], k, v);
      assert fields == [fields[0]] + fields[1..];
    }
  }

  /** A value `from_array` routes to `add_file` in a multipart form. */
  predicate AtValue(v: FieldValue) {
    v.Single? && |v.s| > 0 && v.s[0] == '@'
  }

  /** No entry holds an '@' value, so the multipart pass routes nothing. */
  predicate NoAtValues(fields: Fields) {
    forall p :: p in fields ==> !AtValue(p.1)
  }

  /** No string value starts with '@'. */
  predicate NoAtText(pairs: Assoc<string>) {
    forall i :: 0 <= i < |pairs| ==> !(|pairs[i].1| > 0 && pairs[i].1[0] == '@')
  }

  /** The multipart pass of `from_array`: every '@' value is handed to
      `add_file` as a field name without a file name (so `realpath(null)`
      decides) and dropped from the merge; the first failure throws. */
  function RouteFiles(f: Form, fields: Fields, fs: FileSystem): (r: (Step<Form>, Fields))
    ensures forall p :: p in r.1 ==> p in fields && !AtValue(p.1)
    ensures (forall p :: p in fields ==> !AtValue(p.1)) ==> r == (Ok(f), fields)
    ensures r.0.Current().fileFields == f.fileFields
    ensures WellFormed(f) ==> WellFormed(r.0.Current())
    decreases |fields|
  {
    if |fields| == 0 then (Ok(f), [])
    else
      var (k, v) := fields[0];
      assert forall p :: p in fields[1..] ==> p in fields;
      if AtValue(v) then
        match AddFile(f, [(v.s, "")], fs)
        case Threw(g, e) => (Threw(g, e), [])
        case Ok(g) => RouteFiles(g, fields[1..], fs)
      else
        var (step, rest) := RouteFiles(f, fields[1..], fs);
        assert fields == [fields[0]] + fields[1..];
        (step, [fields[0]] + rest)
  }

  /** `from_array`: arrays dropped, '@' values routed to `add_file` in a
      multipart form, the rest merged over the data. */
  function FromArray(f: Form, fields: Assoc<Incoming>, fs: FileSystem): (r: Step<Form>)
    ensures f.contentType != MultipartType || NoAtValues(Scalars(fields)) ==> r.Ok?
    ensures f.contentType != MultipartType || NoAtValues(Scalars(fields)) ==>
      forall k :: Lookup(r.state.data, k) ==
        if HasKey(Scalars(fields), k) then Last(Scalars(fields), k) else Lookup(f.data, k)
    ensures r.Current().fileFields == f.fileFields
    ensures WellFormed(f) ==> WellFormed(r.Current())
  {
    var kept := Scalars(fields);
    MergeFacts(f.data, kept);
    if f.contentType == MultipartType then
      match RouteFiles(f, kept, fs)
      case (Threw(g, e), _) => Threw(g, e)
      case (Ok(g), rest) => Ok(g.(data := Merge(g.data, rest)))
    else Ok(f.(data := Merge(f.data, kept)))
  }

  /** In a multipart form an '@' value is not stored under its own field:
      when `add_file` accepts `realpath(null)`, the field keeps its old
      value and the value itself becomes a field name. */
  lemma AtValueBecomesFieldName(f: Form, k: string, v: string, fs: FileSystem)
    requires f.contentType == MultipartType
    requires |v| > 0 && v[0] == '@' && k != v
    requires Readable(fs, "")
    ensures var r := FromArray(f, [(k, Scalar(v))], fs);
      && r.Ok?
      && Lookup(r.state.data, k) == Lookup(f.data, k)
      && Lookup(r.state.data, v) == Some(Single(Upload(fs, "")))
  {
    var kept := Scalars([(k, Scalar(v))]);
    var fields: Assoc<Incoming> := [(k, Scalar(v))];
    assert fields[1..] == [];
    assert Scalars(fields[1..]) == [];
    assert kept == [(k, Single(v))] + Scalars(fields[1..]);
    var files := [(v, "")];
    OneEntry(v, "");
    assert AllReadable(fs, files);
    assert !HasKey(files, k);
    var g := AddFile(f, files, fs).state;
    assert RouteFiles(f, kept, fs) == RouteFiles(g, [], fs);
    assert Merge(g.data, []) == g.data;
  }

  /** `from_string`: the query string parsed by `Url::parse_query`, then
      `from_array`. */
  function FromString(f: Form, query: string, fs: FileSystem, rt: Runtime): (r: Step<Form>)
    ensures f.contentType != MultipartType || NoAtText(Url.ParseQuery(query, rt.urldecode).value) ==> r.Ok?
    ensures f.contentType != MultipartType || NoAtText(Url.ParseQuery(query, rt.urldecode).value) ==>
      forall k :: HasKey(Url.ParseQuery(query, rt.urldecode).value, k) ==>
        Lookup(r.state.data, k) == Some(Single(Lookup(Url.ParseQuery(query, rt.urldecode).value, k).value))
    ensures f.contentType != MultipartType || NoAtText(Url.ParseQuery(query, rt.urldecode).value) ==>
      forall k :: !HasKey(Url.ParseQuery(query, rt.urldecode).value, k) ==> Lookup(r.state.data, k) == Lookup(f.data, k)
    ensures r.Current().fileFields == f.fileFields
    ensures WellFormed(f) ==> WellFormed(r.Current())
  {
    var parsed := Url.ParseQuery(query, rt.urldecode).value;
    var fields := seq(|parsed|, i requires 0 <= i < |parsed| => (parsed[i].0, Scalar(parsed[i].1)));
    var r := FromArray(f, fields, fs);
    ScalarsOfParsed(parsed, fields);
    r
  }

  /** Wrapping a distinct string map as scalars and unwrapping it again
      gives the same lookups. */
  lemma ScalarsOfParsed(parsed: Assoc<string>, fields: Assoc<Incoming>)
    requires Distinct(parsed)
    requires |fields| == |parsed| && forall i :: 0 <= i < |parsed| ==> fields[i] == (parsed[i].0, Scalar(parsed[i].1))
    ensures forall k :: HasKey(parsed, k) ==>
      (HasKey(Scalars(fields), k) && Last(Scalars(fields), k) == Some(Single(Lookup(parsed, k).value)))
    ensures forall k :: !HasKey(parsed, k) ==> !HasKey(Scalars(fields), k)
    ensures NoAtText(parsed) ==> NoAtValues(Scalars(fields))
  {
    var s := Scalars(fields);
    assert s == seq(|parsed|, i requires 0 <= i < |parsed| => (parsed[i].0, Single(parsed[i].1))) by {
      ScalarsAll(fields);
    }
    if NoAtText(parsed) {
      forall p | p in s ensures !AtValue(p.1) {
        var i :| 0 <= i < |s| && s[i] == p;
        assert p.1 == Single(parsed[i].1);
      }
    }
    forall k | HasKey(s, k) ensures HasKey(parsed, k) {
      var i :| 0 <= i < |s| && s[i].0 == k;
      assert parsed[i].0 == k;
    }
    forall k | HasKey(parsed, k)
      ensures HasKey(s, k) && Last(s, k) == Some(Single(Lookup(parsed, k).value))
    {
      var i :| 0 <= i < |parsed| && parsed[i].0 == k;
      assert s[i].0 == k;
      assert Distinct(s) by {
        forall a, b | 0 <= a < b < |s| ensures s[a].0 != s[b].0 {
          assert s[a].0 == parsed[a].0 && s[b].0 == parsed[b].0;
        }
      }
      LastDistinct(s, k);
      assert parsed[i] in parsed && s[i] in s;
      LookupDistinct(parsed, k, parsed[i].1);
      LookupDistinct(s, k, Single(parsed[i].1));
    }
  }

  /** With only scalars, nothing is dropped. */
  lemma {:induction false} ScalarsAll(fields: Assoc<Incoming>)
    requires forall i :: 0 <= i < |fields| ==> fields[i].1.Scalar?
    ensures Scalars(fields) == seq(|fields|, i requires 0 <= i < |fields| => (fields[i].0, Single(fields[i].1.s)))
    decreases |fields|
  {
    if |fields| > 0 {
      ScalarsAll(fields[1..]);
    }
  }

  /** `to_string` then `from_string` copies the fields: on a target form
      that is not multipart, every field of a form of plain values comes
      back with its value and the target's other fields keep theirs,
      provided `parse_query` reads back the pairs `http_build_query` wrote. */
  lemma ToStringFromString(f: Form, g: Form, fs: FileSystem, rt: Runtime)
    requires g.contentType != MultipartType
    requires Distinct(f.data) && forall i :: 0 <= i < |f.data| ==> f.data[i].1.Single?
    requires Url.ParseQuery(ToString(f, rt), rt.urldecode) == Some(Flatten(f.data))
    ensures FromString(g, ToString(f, rt), fs, rt).Ok?
    ensures forall k :: (Lookup(FromString(g, ToString(f, rt), fs, rt).state.data, k) ==
      if HasKey(f.data, k) then Lookup(f.data, k) else Lookup(g.data, k))
  {
    var flat := Flatten(f.data);
    var r := FromString(g, ToString(f, rt), fs, rt);
    assert Distinct(flat);
    forall k
      ensures Lookup(r.state.data, k) == if HasKey(f.data, k) then Lookup(f.data, k) else Lookup(g.data, k)
    {
      if HasKey(f.data, k) {
        var i :| 0 <= i < |f.data| && f.data[i].0 == k;
        assert flat[i] == (k, f.data[i].1.s);
        assert HasKey(flat, k);
        LookupDistinct(flat, k, f.data[i].1.s);
        LookupDistinct(f.data, k, f.data[i].1);
      } else {
        forall i | 0 <= i < |flat| ensures flat[i].0 != k {
          assert flat[i].0 == f.data[i].0;
        }
      }
    }
  }

  /** Setting a plain field and unsetting it again leaves the data as
      unsetting alone would. */
  lemma SetThenUnset(f: Form, offset: string, value: string, fs: FileSystem)
    requires !IsFile(f, offset)
    ensures forall k :: (Lookup(OffsetUnset(OffsetSet(f, offset, value, fs).state, offset).data, k) ==
      Lookup(OffsetUnset(f, offset).data, k))
  {
  }

  /** A value `submit` hands to the connection: a string, the field table,
      null, or the extra header table. */
  datatype Arg = Str(s: string) | Table(fields: Fields) | Null | HeaderTable(hdr: Assoc<string>)

  /** A call on the connection: the method named by the form's method,
      with positional arguments. */
  datatype Call = Call(callee: string, args: seq<Arg>)

  /** `submit`: the action, then the query string for get, or the payload
      (the field table when multipart, the query string otherwise) and a
      null for post and ajax; then the referer (the reference URL when none
      is given) and the headers. Any other method makes no call. */
  function Submit(f: Form, referer: Option<string>, hdr: Assoc<string>, rt: Runtime): (r: Option<Call>)
    ensures r.Some? <==> f.httpMethod == MethodGet || f.httpMethod == MethodPost || f.httpMethod == "ajax"
    ensures r.Some? ==> r.value.callee == f.httpMethod
    ensures r.Some? ==> var a := r.value.args;
      && |a| >= 4
      && a[0] == Str(f.action)
      && a[|a| - 2] == Str(referer.GetOr(f.refUrl))
      && a[|a| - 1] == HeaderTable(hdr)
    ensures f.httpMethod == MethodGet ==> r.Some? && |r.value.args| == 4 && r.value.args[1] == Str(ToString(f, rt))
    ensures (f.httpMethod == MethodPost || f.httpMethod == "ajax") ==>
      (&& r.Some? && |r.value.args| == 5
       && r.value.args[2] == Null
       && (f.contentType == MultipartType ==> r.value.args[1] == Table(f.data))
       && (f.contentType != MultipartType ==> r.value.args[1] == Str(ToString(f, rt))))
  {
    var ref := referer.GetOr(f.refUrl);
    if f.httpMethod == MethodGet then
      Some(Call(f.httpMethod, [Str(f.action), Str(ToString(f, rt)), Str(ref), HeaderTable(hdr)]))
    else if f.httpMethod == MethodPost || f.httpMethod == "ajax" then
      var payload := if f.contentType == MultipartType then Table(ToArray(f)) else Str(ToString(f, rt));
      Some(Call(f.httpMethod, [Str(f.action), payload, Null, Str(ref), HeaderTable(hdr)]))
    else None
  }

  /** Every form the setters can produce is submitted: by get with the
      query string, or by post with a payload matching its content type. */
  lemma SubmitWellFormed(f: Form, referer: Option<string>, hdr: Assoc<string>, rt: Runtime)
    requires WellFormed(f)
    ensures var r := Submit(f, referer, hdr, rt);
      && r.Some?
      && (r.value.callee == MethodGet || r.value.callee == MethodPost)
      && (r.value.args[1].Table? <==> f.httpMethod == MethodPost && f.contentType == MultipartType)
  {
  }

  /** A multipart form loaded from any node is posted with its field table. */
  lemma MultipartLoadPosts(node: Node, ref: string, referer: Option<string>, hdr: Assoc<string>, rt: Runtime)
    requires Lower(Attr(node, "enctype")) == MultipartType
    requires NewForm(Some(node), ref, rt).Ok?
    ensures var f := NewForm(Some(node), ref, rt).state;
      Submit(f, referer, hdr, rt) ==
        Some(Call(MethodPost, [Str(f.action), Table(FormData(node)), Null, Str(referer.GetOr(f.refUrl)), HeaderTable(hdr)]))
  {
    var f := NewForm(Some(node), ref, rt).state;
    assert f.httpMethod == MethodPost;
    assert f.contentType == MultipartType by {
      assert WellFormed(f);
    }
  }

  /** The selector `Form::get` is given: none, a zero-based index, one
      attribute name with its value, or a table of attribute values. */
  datatype Selector = AnyForm | Index(n: int) | Named(name: string, value: string) | Attributes(attrs: Assoc<string>)

  /** The attribute values, lower-cased, with the falsy ones dropped
      (`array_filter(array_map('strtolower', ...))`). */
  function Criteria(attrs: Assoc<string>): (r: Assoc<string>)
    ensures forall i :: 0 <= i < |r| ==> Truthy(r[i].1)
    ensures |r| <= |attrs|
  {
    if |attrs| == 0 then []
    else
      var rest := Criteria(attrs[1..]);
      var v := Lower(attrs[0].1);
      if Truthy(v) then [(attrs[0].0, v)] + rest else rest
  }

  /** An attribute pair survives the filter exactly when its lower-cased
      value is truthy. */
  lemma {:induction false} CriteriaMembers(attrs: Assoc<string>, name: string, value: string)
    ensures (name, value) in Criteria(attrs) <==>
      Truthy(value) && exists i :: 0 <= i < |attrs| && attrs[i].0 == name && Lower(attrs[i].1) == value
    decreases |attrs|
  {
    if |attrs| > 0 {
      CriteriaMembers(attrs[1..], name, value);
      if exists i :: 0 <= i < |attrs[1..]| && attrs[1..][i].0 == name && Lower(attrs[1..][i].1) == value {
        var i :| 0 <= i < |attrs[1..]| && attrs[1..][i].0 == name && Lower(attrs[1..][i].1) == value;
        assert attrs[i + 1] == attrs[1..][i];
      }
      if exists i :: 0 <= i < |attrs| && attrs[i].0 == name && Lower(attrs[i].1) == value {
        var i :| 0 <= i < |attrs| && attrs[i].0 == name && Lower(attrs[i].1) == value;
        if i > 0 {
          assert attrs[1..][i - 1] == attrs[i];
        }
      }
    }
  }

  /** The attribute table the selector stands for; empty for none. */
  function CriteriaOf(sel: Selector): (r: Assoc<string>)
    requires !sel.Index?
    ensures sel.AnyForm? ==> r == []
    ensures sel.Named? ==> r == (if Truthy(Lower(sel.value)) then [(sel.name, Lower(sel.value))] else [])
  {
    match sel
    case AnyForm => []
    case Named(name, value) => Criteria([(name, value)])
    case Attributes(attrs) => Criteria(attrs)
  }

  /** A form element carries every wanted attribute value, compared with
      its own value lower-cased. */
  predicate MatchesAll(node: Node, criteria: Assoc<string>) {
    forall i :: 0 <= i < |criteria| ==> criteria[i].1 == Lower(Attr(node, criteria[i].0))
  }

  /** The test of the attribute selector, as a predicate on form elements. */
  function Wanted(criteria: Assoc<string>): Node -> bool {
    n => MatchesAll(n, criteria)
  }

  /** No form before position `n` is wanted. */
  predicate NoMatchBefore(forms: seq<Node>, wanted: Node -> bool, n: nat)
    requires n <= |forms|
  {
    forall j :: 0 <= j < n ==> !wanted(forms[j])
  }

  /** The position of the first wanted form. */
  function FirstMatch(forms: seq<Node>, wanted: Node -> bool): (r: Option<nat>)
    ensures r.Some? ==> r.value < |forms| && wanted(forms[r.value])
    ensures r.Some? ==> NoMatchBefore(forms, wanted, r.value)
    ensures r.None? ==> NoMatchBefore(forms, wanted, |forms|)
  {
    if |forms| == 0 then None
    else if wanted(forms[0]) then Some(0)
    else
      var rest := FirstMatch(forms[1..], wanted);
      if rest.None? then
        NoMatchShift(forms, wanted, |forms| - 1);
        None
      else
        NoMatchShift(forms, wanted, rest.value);
        Some(rest.value + 1)
  }

  /** An unwanted first form moves the bound by one. */
  lemma NoMatchShift(forms: seq<Node>, wanted: Node -> bool, n: nat)
    requires 0 < |forms| && n < |forms|
    requires !wanted(forms[0]) && NoMatchBefore(forms[1..], wanted, n)
    ensures NoMatchBefore(forms, wanted, n + 1)
  {
    forall j | 0 < j < n + 1 ensures !wanted(forms[j]) {
      assert forms[j] == forms[1..][j - 1];
    }
  }

  /** What `Form::get` returns: false, one form, a list of forms, or the
      exception a form's constructor threw. */
  datatype Found = NoForm | OneForm(form: Form) | AllForms(forms: seq<Form>) | Raised(error: Error)

  /** The outcome of one constructor call. */
  function Built(s: Step<Form>): (r: Found)
    ensures r.OneForm? || r.Raised?
  {
    match s
    case Ok(f) => OneForm(f)
    case Threw(_, e) => Raised(e)
  }

  /** The constructor `Form::get` applies to each form element. */
  function Constructor(ref: string, rt: Runtime): Node -> Step<Form> {
    n => NewForm(Some(n), ref, rt)
  }

  /** A form object for every node, in order, up to the first constructor
      that throws; `build` is the constructor. */
  function BuildAll(nodes: seq<Node>, build: Node -> Step<Form>): (r: Found)
    ensures r.AllForms? || r.Raised?
    ensures r.AllForms? ==> (|r.forms| == |nodes| &&
      forall i :: 0 <= i < |nodes| ==> build(nodes[i]) == Ok(r.forms[i]))
    ensures r.Raised? ==> exists i :: 0 <= i < |nodes| && ThrowsFirst(nodes, build, i, r.error)
  {
    if |nodes| == 0 then AllForms([])
    else match build(nodes[0])
      case Threw(_, e) =>
        assert ThrowsFirst(nodes, build, 0, e);
        Raised(e)
      case Ok(f) =>
        var rest := BuildAll(nodes[1..], build);
        if rest.Raised? then
          BuildAllTail(nodes, build, rest.error);
          rest
        else
          var all := [f] + rest.forms;
          assert forall i :: 0 < i < |nodes| ==> nodes[i] == nodes[1..][i - 1] && all[i] == rest.forms[i - 1];
          AllForms(all)
  }

  /** The constructor throws `e` at node `i` and returned for every node
      before it. */
  predicate ThrowsFirst(nodes: seq<Node>, build: Node -> Step<Form>, i: nat, e: Error)
    requires i < |nodes|
  {
    && build(nodes[i]).Threw? && build(nodes[i]).error == e
    && forall j :: 0 <= j < i ==> build(nodes[j]).Ok?
  }

  /** The first exception among the later nodes, after a first node that
      built, is the first exception among all nodes. */
  lemma BuildAllTail(nodes: seq<Node>, build: Node -> Step<Form>, e: Error)
    requires |nodes| > 0 && build(nodes[0]).Ok?
    requires exists i :: 0 <= i < |nodes[1..]| && ThrowsFirst(nodes[1..], build, i, e)
    ensures exists i :: 0 <= i < |nodes| && ThrowsFirst(nodes, build, i, e)
  {
    var i :| 0 <= i < |nodes[1..]| && ThrowsFirst(nodes[1..], build, i, e);
    assert nodes[i + 1] == nodes[1..][i];
    forall j | 0 <= j < i + 1 ensures build(nodes[j]).Ok? {
      if j > 0 {
        assert nodes[j] == nodes[1..][j - 1];
      }
    }
    assert ThrowsFirst(nodes, build, i + 1, e);
  }

  /** The selection `Form::get` makes among the form elements, in
      document order, with `build` as the constructor: the form at a
      non-negative index; the first form whose attributes match a
      non-empty table of truthy values; or every form when there is
      nothing to match. An empty result is false. */
  function Pick(forms: seq<Node>, sel: Selector, build: Node -> Step<Form>): (r: Found)
    ensures sel.Index? ==> var k := if sel.n < 0 then 0 else sel.n;
      r == (if k < |forms| then Built(build(forms[k])) else NoForm)
    ensures r.OneForm? ==> exists i :: 0 <= i < |forms| && build(forms[i]) == Ok(r.form)
    ensures r.AllForms? ==> (&& |r.forms| == |forms| > 0
      && forall i :: 0 <= i < |forms| ==> build(forms[i]) == Ok(r.forms[i]))
    ensures !sel.Index? && |CriteriaOf(sel)| == 0 ==>
      r == (if |forms| == 0 then NoForm else BuildAll(forms, build))
  {
    if sel.Index? then
      var k := if sel.n < 0 then 0 else sel.n;
      if k < |forms| then Built(build(forms[k])) else NoForm
    else
      var criteria := CriteriaOf(sel);
      if |criteria| > 0 then
        match FirstMatch(forms, Wanted(criteria))
        case Some(i) => Built(build(forms[i]))
        case None => NoForm
      else
        var all := BuildAll(forms, build);
        if all.AllForms? && |all.forms| == 0 then NoForm else all
  }

  /** `Form::get` on a document (None when the HTML failed to load). */
  function GetForms(doc: Option<Node>, ref: string, sel: Selector, rt: Runtime): (r: Found)
    ensures doc.None? ==> r == NoForm
    ensures doc.Some? && sel.Index? ==> var forms := ElementsByTag(doc.value, "form");
      var k := if sel.n < 0 then 0 else sel.n;
      r == (if k < |forms| then Built(NewForm(Some(forms[k]), ref, rt)) else NoForm)
    ensures r.OneForm? ==> WellFormed(r.form)
    ensures r.AllForms? ==> forall i :: 0 <= i < |r.forms| ==> WellFormed(r.forms[i])
    ensures doc.Some? && !sel.Index? && |CriteriaOf(sel)| == 0 ==>
      var forms := ElementsByTag(doc.value, "form");
      r == (if |forms| == 0 then NoForm else BuildAll(forms, Constructor(ref, rt)))
    ensures doc.Some? && !sel.Index? && |CriteriaOf(sel)| > 0 ==>
      var forms := ElementsByTag(doc.value, "form");
      r == match FirstMatch(forms, Wanted(CriteriaOf(sel)))
        case Some(i) => Built(NewForm(Some(forms[i]), ref, rt))
        case None => NoForm
  {
    match doc
    case None => NoForm
    case Some(root) =>
      var forms := ElementsByTag(root, "form");
      var build := Constructor(ref, rt);
      var r := Pick(forms, sel, build);
      assert r.OneForm? ==> WellFormed(r.form) by {
        if r.OneForm? {
          var i :| 0 <= i < |forms| && build(forms[i]) == Ok(r.form);
          assert WellFormed(NewForm(Some(forms[i]), ref, rt).Current());
        }
      }
      assert r.AllForms? ==> forall i :: 0 <= i < |r.forms| ==> WellFormed(r.forms[i]) by {
        if r.AllForms? {
          forall i | 0 <= i < |r.forms| ensures WellFormed(r.forms[i]) {
            assert build(forms[i]) == Ok(r.forms[i]);
            assert WellFormed(NewForm(Some(forms[i]), ref, rt).Current());
          }
        }
      }
      r
  }

  /** With a table of wanted values, the result is the form built from the
      first matching form element, whichever it is. */
  lemma AttributeSelection(forms: seq<Node>, sel: Selector, build: Node -> Step<Form>, i: nat)
    requires !sel.Index? && |CriteriaOf(sel)| > 0
    requires i < |forms| && Wanted(CriteriaOf(sel))(forms[i])
    requires NoMatchBefore(forms, Wanted(CriteriaOf(sel)), i)
    ensures Pick(forms, sel, build) == Built(build(forms[i]))
  {
    assert FirstMatch(forms, Wanted(CriteriaOf(sel))) == Some(i);
  }

  /** With a table of wanted values, false means no form element matches. */
  lemma AttributeSelectionNone(forms: seq<Node>, sel: Selector, build: Node -> Step<Form>)
    requires !sel.Index? && |CriteriaOf(sel)| > 0
    ensures Pick(forms, sel, build) == NoForm <==>
      NoMatchBefore(forms, Wanted(CriteriaOf(sel)), |forms|)
  {
  }

  /** A name with an empty (or "0") value selects nothing and so returns
      every form, as if no selector were given. */
  lemma FalsyValueSelectsAll(forms: seq<Node>, name: string, value: string, build: Node -> Step<Form>)
    requires !Truthy(value)
    ensures Pick(forms, Named(name, value), build) == Pick(forms, AnyForm, build)
  {
    assert Lower(value) == value by {
      if value == "0" {
        assert Lower(value)[0] == LowerChar('0');
      }
    }
  }

  /** A negative index selects the first form. */
  lemma NegativeIndexIsFirst(forms: seq<Node>, n: int, build: Node -> Step<Form>)
    requires n < 0
    ensures Pick(forms, Index(n), build) == Pick(forms, Index(0), build)
  {
  }

  /** The list of every form starts with the form index 0 selects. */
  lemma AllFormsStartWithFirst(forms: seq<Node>, build: Node -> Step<Form>)
    requires Pick(forms, AnyForm, build).AllForms?
    ensures Pick(forms, Index(0), build) == OneForm(Pick(forms, AnyForm, build).forms[0])
  {
    assert build(forms[0]) == Ok(Pick(forms, AnyForm, build).forms[0]);
  }

  /** `new Form($src, $ref_url)` for HTML text: a falsy text builds an
      empty form; otherwise the first form element of the parsed document
      is loaded, and a document that fails to parse or holds no form
      throws. `parse` stands for `DOMDocument::loadHTML`. */
  function FromHtml(src: string, parse: string -> Option<Node>, ref: string, rt: Runtime): (r: Step<Form>)
    ensures !Truthy(src) ==> r == NewForm(None, ref, rt)
    ensures r.Threw? && r.error == UnparseableHtml <==>
      Truthy(src) && (parse(src).None? || |ElementsByTag(parse(src).value, "form")| == 0)
    ensures WellFormed(r.Current())
  {
    if !Truthy(src) then NewForm(None, ref, rt)
    else match parse(src)
      case None => Threw(Defaults(), UnparseableHtml)
      case Some(root) =>
        var forms := ElementsByTag(root, "form");
        if |forms| == 0 then Threw(Defaults(), UnparseableHtml)
        else NewForm(Some(forms[0]), ref, rt)
  }

  /** The constructor on HTML text and `Form::get` with index 0 agree: the
      same form, the same exception, or no form where the constructor
      reports unparseable HTML. */
  lemma FromHtmlIsIndexZero(src: string, parse: string -> Option<Node>, ref: string, rt: Runtime)
    requires Truthy(src)
    ensures var r := FromHtml(src, parse, ref, rt);
      var g := GetForms(parse(src), ref, Index(0), rt);
      && (r.Ok? <==> g.OneForm?)
      && (r.Ok? ==> g.form == r.state)
      && (r.Threw? && r.error == UnparseableHtml ==> g == NoForm)
      && (r.Threw? && r.error != UnparseableHtml ==> g == Raised(r.error))
  {
    var r := FromHtml(src, parse, ref, rt);
    match parse(src)
    case None =>
    case Some(root) =>
      var forms := ElementsByTag(root, "form");
      if |forms| > 0 {
        assert r == NewForm(Some(forms[0]), ref, rt);
        assert r.Threw? ==> r.error.InvalidReferenceUrl?;
        assert GetForms(parse(src), ref, Index(0), rt) == Built(r);
      }
  }
}

=== FILE: http_connection.dfy ===
/**
 * The request-side logic of `PhpGrab\Connection\Http`: header lines from
 * a response, the cookie header for the next request, the urlencoded
 * POST body, the redirect target, and the headers `ajax` sends. The cURL
 * handle itself is not modelled: a request is the description handed to
 * it, and a response is given as its status, headers and effective URL.
 */
module HttpConnection {
  import opened Base
  import opened PhpString
  import opened OrderedMap
  import opened PhpLib
  import opened HttpHeader
  import opened CookieJar
  import Url

  /** The connection's state that responses change: the cookie jar and
      the response headers seen so far (`$_resp_hdr`). */
  datatype Session = Session(jar: Jar, responseHeaders: Headers)

  /** A header line split at its first ':': the canonical name, and the
      trimmed value, absent (PHP's null) when there is no ':'. */
  datatype HeaderLine = HeaderLine(key: string, value: Option<string>)

  function SplitHeaderLine(line: string): (r: HeaderLine)
    ensures r.value.None? <==> ':' !in line
    ensures r.value.None? ==> r.key == CanonicalKey(Trim(line, Blank))
  {
    var h := Cut(line, ':');
    HeaderLine(CanonicalKey(Trim(h.head, Blank)),
               if h.tail.Some? then Some(Trim(h.tail.value, Blank)) else None)
  }

  /** A line built as name ':' value splits back into the canonical name
      and the trimmed value. */
  lemma SplitHeaderLineOf(name: string, value: string)
    requires ':' !in name
    ensures SplitHeaderLine(name + ":" + value) == HeaderLine(CanonicalKey(Trim(name, Blank)), Some(Trim(value, Blank)))
  {
    CutAfterHead(name, ':', value);
  }

  /** The result of `parse_hdr`: the new state and the byte count cURL
      expects back. */
  datatype Consumed = Consumed(session: Session, length: nat)

  /** `Http::parse_hdr`: a line without ':' changes nothing; a Set-Cookie
      line goes to the jar (see CookieJar.ApplySetCookie); any other line
      stores its value under its canonical name. */
  function ParseHeaderLine(s: Session, line: string, lastUrl: string, rt: Runtime): (r: Consumed)
    ensures r.length == |line|
    ensures ':' !in line ==> r.session == s
    ensures SplitHeaderLine(line).key != "Set-Cookie" ==> r.session.jar == s.jar
    ensures SplitHeaderLine(line).key == "Set-Cookie" ==> r.session.responseHeaders == s.responseHeaders
    ensures var h := SplitHeaderLine(line);
      h.value.Some? && h.key != "Set-Cookie" ==>
        && Lookup(r.session.responseHeaders, h.key) == h.value
        && forall k :: k != h.key ==> Lookup(r.session.responseHeaders, k) == Lookup(s.responseHeaders, k)
  {
    var h := SplitHeaderLine(line);
    var next :=
      if h.value.None? then s
      else if h.key == "Set-Cookie" then
        Session(ApplySetCookie(s.jar, h.value.value, HostOf(lastUrl, rt), rt.strtotime), s.responseHeaders)
      else Session(s.jar, Upsert(s.responseHeaders, h.key, h.value.value));
    Consumed(next, |line|)
  }

  /** A header received as "Name: value" is what `get_response_header`
      returns for that name in any letter case, and the jar is untouched. */
  lemma HeaderLineThenLookup(s: Session, name: string, value: string, asked: string, lastUrl: string, rt: Runtime)
    requires ':' !in name
    requires CanonicalKey(Trim(name, Blank)) != "Set-Cookie"
    requires !StartsWith(Trim(name, Blank), "X-") && !StartsWith(asked, "X-")
    requires Lower(Trim(name, Blank)) == Lower(asked)
    ensures var r := ParseHeaderLine(s, name + ":" + value, lastUrl, rt).session;
      && ResponseHeader(r.responseHeaders, Some(asked)) == OneHeader(Some(Trim(value, Blank)))
      && r.jar == s.jar
  {
    SplitHeaderLineOf(name, value);
    var r := ParseHeaderLine(s, name + ":" + value, lastUrl, rt).session;
    ResponseHeaderAnyCase(r.responseHeaders, Trim(name, Blank), asked, Trim(value, Blank));
  }

  /** A "Set-Cookie: v" line hands the trimmed value and the host of the
      last URL to the jar and leaves the response headers alone. */
  lemma SetCookieLine(s: Session, name: string, value: string, lastUrl: string, rt: Runtime)
    requires ':' !in name
    requires CanonicalKey(Trim(name, Blank)) == "Set-Cookie"
    ensures var r := ParseHeaderLine(s, name + ":" + value, lastUrl, rt).session;
      && r.jar == ApplySetCookie(s.jar, Trim(value, Blank), HostOf(lastUrl, rt), rt.strtotime)
      && r.responseHeaders == s.responseHeaders
  {
    SplitHeaderLineOf(name, value);
  }

  /** No name has a live entry whose domain passes the test for `host`. */
  predicate NothingToSend(jar: Jar, host: string, now: int) {
    forall j :: 0 <= j < |jar| ==> NoneUsable(jar[j].1, host, now)
  }

  /** What `set_cookies` leaves: the pruned jar, the Cookie header it
      assigns (None when it assigns none), and the `CURLOPT_COOKIE` the
      handle then holds for the request. */
  datatype CookieOut = CookieOut(jar: Jar, header: Option<string>, handle: Option<string>)

  /** `Http::set_cookies` for the URL about to be fetched, on a handle
      whose `CURLOPT_COOKIE` is `prev` (None when never set). With nothing
      selected the options array stays empty and `assing_opt` sets
      nothing, so the handle keeps the previous request's cookies. */
  function SetCookies(jar: Jar, url: string, now: int, rt: Runtime, prev: Option<string>): (r: CookieOut)
    ensures r.header.None? <==> NothingToSend(jar, HostOf(url, rt), now)
    ensures r.header.Some? ==> r.handle == r.header
    ensures r.header.None? ==> r.handle == prev
  {
    var host := HostOf(url, rt);
    var sel := SelectCookies(jar, host, now);
    NothingChosen(jar, host, now);
    var header := CookieHeader(sel.cookies);
    CookieOut(sel.jar, header, if header.Some? then header else prev)
  }

  /** A cookie outlives its expiry on the handle: a session cookie for
      every domain, live at time 50 and expiring at 100, is sent by a
      first request; at time 200 it is purged and nothing is selected,
      yet the handle still carries it for the second request. */
  lemma ExpiredCookieResent(url: string, next: string, rt: Runtime)
    ensures var jar: Jar := [("sid", [("", Cookie("1", 100))])];
      var first := SetCookies(jar, url, 50, rt, None);
      var second := SetCookies(first.jar, next, 200, rt, first.handle);
      && first.handle.Some?
      && second.header.None?
      && second.handle == first.handle
  {
    var jar: Jar := [("sid", [("", Cookie("1", 100))])];
    var entry := ("", Cookie("1", 100));
    assert jar[0].1[0] == entry;
    assert Usable(entry, HostOf(url, rt), 50);
    assert !NothingToSend(jar, HostOf(url, rt), 50);
    var first := SetCookies(jar, url, 50, rt, None);
    var host := HostOf(url, rt);
    SelectCookiesPurge(jar, host, 50);
    forall j, k | 0 <= j < |first.jar| && 0 <= k < |first.jar[j].1|
      ensures !Usable(first.jar[j].1[k], HostOf(next, rt), 200)
    {
      assert first.jar[j] in first.jar && first.jar[j].1[k] in first.jar[j].1;
      var i :| 0 <= i < |jar| && jar[i].0 == first.jar[j].0 && first.jar[j].1[k] in jar[i].1;
      assert first.jar[j].1[k] == entry;
    }
    assert NothingToSend(first.jar, HostOf(next, rt), 200);
  }

  /** Nothing is selected exactly when no name has a usable entry. */
  lemma NothingChosen(jar: Jar, host: string, now: int)
    ensures |SelectCookies(jar, host, now).cookies| == 0 <==> NothingToSend(jar, host, now)
  {
    var ps := Chosen(jar, host, now);
    if |ps| > 0 {
      FromPairsHasKey(ps, ps[0].0);
      assert HasKey(ps, ps[0].0);
      assert ChosenFrom(ps[0], jar, host, now);
    }
    if !NothingToSend(jar, host, now) {
      var j :| 0 <= j < |jar| && !NoneUsable(jar[j].1, host, now);
      assert Selects(jar[j], host, now);
      FromPairsHasKey(ps, jar[j].0);
    }
  }

  /** One "name=value" piece of a POST body. */
  function PostPiece(field: (string, string), encode: bool, rawurlencode: string -> string): string {
    if encode then rawurlencode(field.0) + "=" + rawurlencode(field.1)
    else field.0 + "=" + field.1
  }

  /** `Http::get_post_string`. */
  function PostString(fields: Assoc<string>, encode: bool, rawurlencode: string -> string): (r: string)
    ensures r == "" <==> |fields| == 0
  {
    var pieces := seq(|fields|, i requires 0 <= i < |fields| => PostPiece(fields[i], encode, rawurlencode));
    if |fields| == 0 then ""
    else
      ImplodeNonEmpty(pieces, "&");
      Implode(pieces, "&")
  }

  /** Joining pieces the first of which is non-empty is non-empty. */
  lemma ImplodeNonEmpty(parts: seq<string>, sep: string)
    requires |parts| >= 1 && |parts[0]| > 0
    ensures |Implode(parts, sep)| > 0
  {
  }

  /** A POST body built with encoding parses back, through
      `Url::parse_query`, to exactly the fields it was built from, as long
      as `urldecode` undoes `rawurlencode` and the encoding leaves no
      '&', '=' or '?'. */
  lemma {:induction false} PostStringRoundTrip(fields: Assoc<string>, rt: Runtime)
    requires |fields| >= 1 && Distinct(fields)
    requires Inverts(rt.urldecode, rt.rawurlencode)
    requires Escapes(rt.rawurlencode, '&') && Escapes(rt.rawurlencode, '=') && Escapes(rt.rawurlencode, '?')
    ensures Url.ParseQuery(PostString(fields, true, rt.rawurlencode), rt.urldecode) == Some(fields)
  {
    var enc := rt.rawurlencode;
    var pieces := seq(|fields|, i requires 0 <= i < |fields| => PostPiece(fields[i], true, enc));
    var s := PostString(fields, true, enc);
    assert s == Implode(pieces, ['&']);
    forall i | 0 <= i < |pieces|
      ensures '&' !in pieces[i] && '?' !in pieces[i]
    {
      assert pieces[i] == enc(fields[i].0) + "=" + enc(fields[i].1);
    }
    ImplodeFree(pieces, '&', '?');
    TrimNoop(s, {'?'});
    ExplodeImplode(pieces, '&');
    assert Url.QueryPieces(s) == pieces;
    var pairs := Url.QueryPairs(pieces, rt.urldecode);
    forall i | 0 <= i < |pieces|
      ensures pairs[i] == fields[i]
    {
      CutAfterHead(enc(fields[i].0), '=', enc(fields[i].1));
      assert pieces[i] == enc(fields[i].0) + ['='] + enc(fields[i].1);
    }
    assert pairs == fields;
    FromDistinctPairs(fields);
  }

  /** What the next request sends as its body. */
  datatype Body = NoBody | Urlencoded(text: string) | Multipart(fields: Assoc<string>)

  /** A request as handed to cURL. `referer` None keeps the handle's
      previous referer, as `isset($referer)` does. */
  datatype Request = Request(url: string, referer: Option<string>, body: Body, headers: Headers)

  /** `Http::get`: an HTTP GET. `get` and `post` do not pass
      `default_header` to cURL, so `headers` is the table the handle was
      last given (`CURLOPT_HTTPHEADER`, set by `init` and by `ajax`). The
      table is kept as the PHP array handed over; how cURL turns it into
      header lines is not modelled. */
  function GetRequest(url: string, referer: Option<string>, headers: Headers): (r: Request)
    ensures r.body.NoBody? && r.url == url
  {
    Request(url, referer, NoBody, headers)
  }

  /** `Http::post`: fields are sent as given for multipart, otherwise as
      the encoded POST string; `headers` is the handle's table, as for
      `get`. */
  function PostRequest(url: string, referer: Option<string>, data: Assoc<string>, multipart: bool,
                       headers: Headers, rt: Runtime): (r: Request)
    ensures multipart <==> r.body.Multipart?
    ensures !multipart ==> r.body.Urlencoded? && (r.body.text == "" <==> |data| == 0)
  {
    Request(url, referer, if multipart then Multipart(data) else Urlencoded(PostString(data, true, rt.rawurlencode)), headers)
  }

  /** PHP's `(int)($a / $b)`: division truncated toward zero. */
  function TruncDiv(a: int, b: int): int
    requires b > 0
  {
    if a >= 0 then a / b else -((-a) / b)
  }

  /** The 3xx test of `get_result`. */
  predicate IsRedirect(status: int) {
    TruncDiv(status, 100) == 3
  }

  lemma IsRedirectRange(status: int)
    ensures IsRedirect(status) <==> 300 <= status < 400
  {
  }

  /** "Location" is already canonical, so `get_response_header('Location')`
      looks up exactly that key. */
  lemma LocationIsCanonical(headers: Headers)
    ensures ResponseHeader(headers, Some("Location")) == OneHeader(Lookup(headers, "Location"))
  {
    var low := "location";
    assert Lower("Location") == low by {
      forall i | 0 <= i < |low| ensures Lower("Location")[i] == low[i] {
        assert LowerChar("Location"[i]) == low[i];
      }
    }
    assert !StartsWith("Location", "X-") by {
      assert "Location"[..2][0] == 'L';
    }
    assert '-' !in low by {
      forall i | 0 <= i < |low| ensures low[i] != '-' { }
    }
    assert Cut(low, '-').tail.None?;
    assert Explode(low, '-') == [low];
    assert UcFirst(low) == "Location" by {
      assert UpperChar(low[0]) == 'L';
      assert low[1..] == "ocation";
    }
    assert UcFirstAll([low]) == ["Location"];
  }

  /** `get_result`'s follow-up request on a 3xx with a truthy Location:
      scheme "://" host, then the last URL's path with its last segment
      replaced by the Location value. Missing parts read as "". */
  function RedirectTarget(status: int, responseHeaders: Headers, lastUrl: string, rt: Runtime): (r: Option<string>)
    ensures r.Some? <==> 300 <= status < 400 && Truthy(Lookup(responseHeaders, "Location").GetOr(""))
  {
    IsRedirectRange(status);
    var location := Lookup(responseHeaders, "Location").GetOr("");
    if IsRedirect(status) && Truthy(location) then
      var parts := rt.parseUrl(lastUrl);
      var scheme := if parts.Some? then parts.value.scheme.GetOr("") else "";
      var host := if parts.Some? then parts.value.host.GetOr("") else "";
      var path := if parts.Some? then parts.value.path.GetOr("") else "";
      Some(scheme + "://" + host + ReplaceLastSegment(path, location))
    else None
  }

  /** The follow-up request of `get_result`: a GET of the redirect target,
      keeping the handle's referer and header table. */
  function RedirectRequest(status: int, responseHeaders: Headers, lastUrl: string, headers: Headers, rt: Runtime): (r: Option<Request>)
    ensures r.Some? <==> 300 <= status < 400 && Truthy(Lookup(responseHeaders, "Location").GetOr(""))
    ensures r.Some? ==> (r.value.body.NoBody? && r.value.referer.None?
      && r.value.url == RedirectTarget(status, responseHeaders, lastUrl, rt).value)
  {
    match RedirectTarget(status, responseHeaders, lastUrl, rt)
    case Some(url) => Some(GetRequest(url, None, headers))
    case None => None
  }

  /** The redirect target keeps the last URL's scheme, host and directory
      and appends the Location value verbatim. */
  lemma RedirectTargetShape(status: int, responseHeaders: Headers, lastUrl: string, rt: Runtime, parts: UrlParts)
    requires 300 <= status < 400
    requires Truthy(Lookup(responseHeaders, "Location").GetOr(""))
    requires rt.parseUrl(lastUrl) == Some(parts)
    ensures RedirectTarget(status, responseHeaders, lastUrl, rt) ==
      Some(parts.scheme.GetOr("") + "://" + parts.host.GetOr("")
           + DirPrefix(parts.path.GetOr("")) + Lookup(responseHeaders, "Location").value)
  {
    var location := Lookup(responseHeaders, "Location").value;
    ReplaceLastSegmentDir(parts.path.GetOr(""), location);
    assert IsRedirect(status) by { IsRedirectRange(status); }
    assert Lookup(responseHeaders, "Location").GetOr("") == location;
    var front := parts.scheme.GetOr("") + "://" + parts.host.GetOr("");
    var dir := DirPrefix(parts.path.GetOr(""));
    assert RedirectTarget(status, responseHeaders, lastUrl, rt) == Some(front + ReplaceLastSegment(parts.path.GetOr(""), location));
    assert front + (dir + location) == front + dir + location;
  }

  /** Example: an absolute Location path is appended after the directory, so
      /p/q redirected to /next is requested as /p//next. */
  lemma RedirectKeepsDirectory()
    ensures ReplaceLastSegment("/p/q", "/next") == "/p//next"
  {
    ReplaceLastSegmentDir("/p/q", "/next");
    var path := "/p/q";
    assert path[|path| - 1] == 'q' && path[..|path| - 1] == "/p/";
    assert DirPrefix(path) == DirPrefix("/p/") == "/p/";
    assert "/p/" + "/next" == "/p//next";
  }

  /** The default Accept of `ajax`. */
  const AjaxAccept: string := "application/json, text/javascript, */*"

  /** The request `ajax` makes, the default headers it leaves, and the
      header table it leaves on the cURL handle. */
  datatype AjaxCall = AjaxCall(request: Request, after: Headers, handle: Headers)

  /** `Http::ajax`: the table handed to the handle holds X-Requested-With
      and the given Accept; a post body is urlencoded; afterwards
      `default_header` is restored, but the handle keeps the table it was
      given for the call, so the table of later `get` and `post` requests
      still holds X-Requested-With and the ajax Accept. */
  function Ajax(defaults: Headers, url: string, referer: Option<string>, post: Option<Assoc<string>>,
                accept: string, rt: Runtime): (r: AjaxCall)
    ensures Lookup(r.request.headers, RequestedWithName) == Some(XmlHttpRequest)
    ensures Truthy(accept) ==> Lookup(r.request.headers, AcceptName) == Some(accept)
    ensures !Truthy(accept) ==> Lookup(r.request.headers, AcceptName) == Lookup(defaults, AcceptName)
    ensures post.None? <==> r.request.body.NoBody?
    ensures post.Some? ==> r.request.body == Urlencoded(PostString(post.value, true, rt.rawurlencode))
    ensures HasKey(defaults, AcceptName) ==>
      && !HasKey(r.after, RequestedWithName)
      && forall k :: k != RequestedWithName ==> Lookup(r.after, k) == Lookup(defaults, k)
    ensures Lookup(r.handle, RequestedWithName) == Some(XmlHttpRequest)
    ensures Truthy(accept) ==> Lookup(r.handle, AcceptName) == Some(accept)
  {
    var frame := AjaxBegin(defaults, accept);
    var request :=
      if post.Some? then PostRequest(url, referer, post.value, false, frame.during, rt)
      else GetRequest(url, referer, frame.during);
    AjaxRestoresWhenSet(defaults, accept);
    AjaxCall(request, AjaxEnd(frame, accept), frame.during)
  }

  /** After `ajax`, `default_header` no longer has X-Requested-With, yet
      the table of the next `get` on the same handle still holds it. */
  lemma HandleOutlivesAjax(defaults: Headers, url: string, referer: Option<string>, post: Option<Assoc<string>>,
                           accept: string, rt: Runtime, next: string)
    requires HasKey(defaults, AcceptName)
    ensures var call := Ajax(defaults, url, referer, post, accept, rt);
      && Lookup(call.after, RequestedWithName) == None
      && Lookup(GetRequest(next, None, call.handle).headers, RequestedWithName) == Some(XmlHttpRequest)
  {
  }

  /** An `ajax` call with the default Accept on a fresh connection: the
      call's table holds that Accept and X-Requested-With, and
      `default_header` ends exactly as `init` set it. */
  lemma AjaxFromDefaults(url: string, referer: Option<string>, post: Option<Assoc<string>>, rt: Runtime)
    ensures var call := Ajax(DefaultHeaders, url, referer, post, AjaxAccept, rt);
      && call.after == DefaultHeaders
      && Lookup(call.request.headers, AcceptName) == Some(AjaxAccept)
      && Lookup(call.handle, RequestedWithName) == Some(XmlHttpRequest)
  {
    DefaultHeadersShape();
    assert Truthy(AjaxAccept) by { assert AjaxAccept[0] == 'a'; }
    var frame := AjaxBegin(DefaultHeaders, AjaxAccept);
    AjaxRestoresExactly(DefaultHeaders, AjaxAccept);
    assert Ajax(DefaultHeaders, url, referer, post, AjaxAccept, rt).after == AjaxEnd(frame, AjaxAccept);
  }

  /** AjaxRestores, for defaults that may lack Accept. */
  lemma AjaxRestoresWhenSet(defaults: Headers, accept: string)
    ensures var after := AjaxEnd(AjaxBegin(defaults, accept), accept);
      HasKey(defaults, AcceptName) ==>
        && !HasKey(after, RequestedWithName)
        && forall k :: k != RequestedWithName ==> Lookup(after, k) == Lookup(defaults, k)
  {
    if HasKey(defaults, AcceptName) {
      AjaxRestores(defaults, accept);
    }
  }
}

=== FILE: http_header.dfy ===
/**
 * Header names and header maps of the HTTP connection: canonicalisation
 * of names (field names are case-insensitive, section 3.2 of RFC 7230),
 * the response-header lookup, and the default request header set with its
 * `set_header` / `unset_header` / `ajax` bookkeeping.
 */
module HttpHeader {
  import opened Base
  import opened PhpString
  import opened OrderedMap

  type Headers = Assoc<string>

  /** `ucfirst` of every piece. */
  function UcFirstAll(parts: seq<string>): (r: seq<string>)
    ensures |r| == |parts|
    ensures forall i :: 0 <= i < |r| ==> r[i] == UcFirst(parts[i])
  {
    seq(|parts|, i requires 0 <= i < |parts| => UcFirst(parts[i]))
  }

  /** Capitalise every '-'-separated segment. */
  function Capitalize(s: string): string {
    Implode(UcFirstAll(Explode(s, '-')), "-")
  }

  /** `Http::prepare_header_key`: names starting with "X-" are kept
      verbatim, any other is lower-cased with each segment capitalised. */
  function CanonicalKey(key: string): string {
    if StartsWith(key, "X-") then key else Capitalize(Lower(key))
  }

  /** What a canonical name holds at position `i`: the letter upper-cased
      at the start of a segment, lower-cased elsewhere. */
  function SegmentCase(key: string, i: nat): char
    requires i < |key|
  {
    if i == 0 || key[i - 1] == '-' then UpperChar(LowerChar(key[i])) else LowerChar(key[i])
  }

  /** The character rule of `Capitalize`: upper-case at the start of a
      segment, unchanged elsewhere. */
  predicate CapitalizedFrom(r: string, s: string)
    requires |r| == |s|
  {
    forall i :: 0 <= i < |s| ==> r[i] == (if i == 0 || s[i - 1] == '-' then UpperChar(s[i]) else s[i])
  }

  /** One position of the rule. */
  lemma CapitalizedAt(r: string, s: string, j: nat)
    requires |r| == |s| && CapitalizedFrom(r, s) && j < |s|
    ensures r[j] == (if j == 0 || s[j - 1] == '-' then UpperChar(s[j]) else s[j])
  {
  }

  /** Capitalize upper-cases exactly the segment starts. */
  lemma {:induction false} CapitalizePointwise(s: string)
    ensures |Capitalize(s)| == |s|
    ensures CapitalizedFrom(Capitalize(s), s)
    decreases |s|
  {
    var h := Cut(s, '-');
    if h.tail.Some? {
      var head, tail := h.head, h.tail.value;
      var rest := Explode(tail, '-');
      assert Explode(s, '-') == [head] + rest;
      assert UcFirstAll([head] + rest) == [UcFirst(head)] + UcFirstAll(rest);
      assert Capitalize(s) == UcFirst(head) + "-" + Capitalize(tail);
      CapitalizePointwise(tail);
      CapitalizeJoin(s, head, tail, Capitalize(tail));
    } else {
      assert Explode(s, '-') == [s];
      assert Capitalize(s) == UcFirst(s);
    }
  }

  /** A segment without '-', a '-', and a capitalised rest make a
      capitalised whole. */
  lemma CapitalizeJoin(s: string, head: string, tail: string, ct: string)
    requires s == head + "-" + tail && '-' !in head
    requires |ct| == |tail| && CapitalizedFrom(ct, tail)
    ensures |UcFirst(head) + "-" + ct| == |s|
    ensures CapitalizedFrom(UcFirst(head) + "-" + ct, s)
  {
    var r := UcFirst(head) + "-" + ct;
    forall i | 0 <= i < |s|
      ensures r[i] == (if i == 0 || s[i - 1] == '-' then UpperChar(s[i]) else s[i])
    {
      if i < |head| {
        assert s[i] == head[i] && r[i] == UcFirst(head)[i];
        if i > 0 {
          assert s[i - 1] == head[i - 1] && head[i - 1] in head;
        }
      } else if i == |head| {
        assert s[i] == '-' && r[i] == '-';
        if i > 0 {
          assert s[i - 1] == head[i - 1] && head[i - 1] in head;
        }
      } else {
        var j := i - |head| - 1;
        assert s[i] == tail[j] && r[i] == ct[j];
        CapitalizedAt(ct, tail, j);
        if j > 0 {
          assert s[i - 1] == tail[j - 1];
        } else {
          assert s[i - 1] == '-';
        }
      }
    }
  }

  /** Lower-casing moves no '-'. */
  lemma LowerKeepsHyphens(c: char)
    ensures LowerChar(c) == '-' <==> c == '-'
  {
  }

  /** The character rule of canonical names: "X-" names are unchanged,
      any other name keeps its length and its '-' positions, with letters
      upper-cased at segment starts and lower-cased elsewhere. */
  lemma CanonicalKeyPointwise(key: string)
    ensures StartsWith(key, "X-") ==> CanonicalKey(key) == key
    ensures |CanonicalKey(key)| == |key|
    ensures !StartsWith(key, "X-") ==>
      forall i :: 0 <= i < |key| ==> CanonicalKey(key)[i] == SegmentCase(key, i)
    ensures forall i :: 0 <= i < |key| ==> (CanonicalKey(key)[i] == '-' <==> key[i] == '-')
  {
    if !StartsWith(key, "X-") {
      var low := Lower(key);
      CapitalizePointwise(low);
      forall i | 0 <= i < |key| ensures CanonicalKey(key)[i] == SegmentCase(key, i) {
        assert low[i] == LowerChar(key[i]);
        if i > 0 {
          assert low[i - 1] == LowerChar(key[i - 1]);
          LowerKeepsHyphens(key[i - 1]);
        }
      }
    }
  }

  /** Canonicalising a canonical name changes nothing. */
  lemma CanonicalKeyIdempotent(key: string)
    ensures CanonicalKey(CanonicalKey(key)) == CanonicalKey(key)
  {
    var r := CanonicalKey(key);
    CanonicalKeyPointwise(key);
    if !StartsWith(key, "X-") && !StartsWith(r, "X-") {
      CanonicalKeyPointwise(r);
      forall i | 0 <= i < |r| ensures CanonicalKey(r)[i] == r[i] {
        CaseStable(key[i]);
        if i > 0 {
          assert r[i - 1] == '-' <==> key[i - 1] == '-';
        }
      }
    }
  }

  /** The two case maps of a segment character are stable under a second
      application. */
  lemma CaseStable(c: char)
    ensures LowerChar(LowerChar(c)) == LowerChar(c)
    ensures UpperChar(LowerChar(UpperChar(LowerChar(c)))) == UpperChar(LowerChar(c))
    ensures LowerChar(UpperChar(LowerChar(c))) == LowerChar(c)
  {
  }

  /** Two names that are not "X-" names and differ only in letter case
      have the same canonical name. */
  lemma CanonicalKeyCaseInsensitive(a: string, b: string)
    requires !StartsWith(a, "X-") && !StartsWith(b, "X-")
    requires Lower(a) == Lower(b)
    ensures CanonicalKey(a) == CanonicalKey(b)
  {
  }

  /** What `get_response_header` returns: the whole map for a null name,
      otherwise the value or null. */
  datatype HeaderAnswer = AllHeaders(headers: Headers) | OneHeader(value: Option<string>)

  /** `Http::get_response_header`. */
  function ResponseHeader(headers: Headers, name: Option<string>): (r: HeaderAnswer)
    ensures name.None? ==> r == AllHeaders(headers)
    ensures name.Some? ==> r.OneHeader? && (r.value.Some? <==> HasKey(headers, CanonicalKey(name.value)))
  {
    match name
    case None => AllHeaders(headers)
    case Some(n) => OneHeader(Lookup(headers, CanonicalKey(n)))
  }

  /** A value stored under a canonical non-"X-" name is found by any
      spelling of that name in any letter case. */
  lemma ResponseHeaderAnyCase(headers: Headers, stored: string, asked: string, v: string)
    requires !StartsWith(stored, "X-") && !StartsWith(asked, "X-")
    requires Lower(stored) == Lower(asked)
    requires Lookup(headers, CanonicalKey(stored)) == Some(v)
    ensures ResponseHeader(headers, Some(asked)) == OneHeader(Some(v))
  {
    CanonicalKeyCaseInsensitive(stored, asked);
  }

  /** The `$default_header` property's initial value (Keep-Alive's int 300
      as its text). */
  const DefaultHeaders: Headers := [
    ("Accept", ""),
    ("Accept-Language", "en-us,en"),
    ("Accept-Charset", "UTF-8,ISO-8859-1;q=0.7,*;q=0.7"),
    ("Keep-Alive", "300"),
    ("Connection", "keep-alive"),
    ("Expect", ""),
    ("Pragma", "")]

  /** The initial table has Accept and no X-Requested-With, so `ajax`
      restores it exactly. */
  lemma DefaultHeadersShape()
    ensures HasKey(DefaultHeaders, AcceptName) && !HasKey(DefaultHeaders, RequestedWithName)
  {
    assert DefaultHeaders[0].0 == AcceptName;
    forall i | 0 <= i < |DefaultHeaders| ensures DefaultHeaders[i].0 != RequestedWithName {
      assert DefaultHeaders[i].0[0] != RequestedWithName[0];
    }
  }

  /** `Http::set_header`: `array_merge` of the given headers over the
      defaults. */
  function SetHeader(defaults: Headers, header: Headers): (r: Headers)
    ensures forall k :: HasKey(header, k) ==> Lookup(r, k) == Last(header, k)
    ensures forall k :: !HasKey(header, k) ==> Lookup(r, k) == Lookup(defaults, k)
    ensures Distinct(defaults) ==> Distinct(r)
  {
    MergeFacts(defaults, header);
    Merge(defaults, header)
  }

  /** `Http::unset_header`: every listed name is removed. */
  function UnsetHeader(defaults: Headers, names: seq<string>): (r: Headers)
    ensures forall k :: k in names ==> Lookup(r, k) == None
    ensures forall k :: k !in names ==> Lookup(r, k) == Lookup(defaults, k)
    ensures forall p :: p in r ==> p in defaults
    decreases |names|
  {
    if |names| == 0 then defaults
    else
      assert forall k :: k in names ==> k in names[..|names| - 1] || k == names[|names| - 1];
      Remove(UnsetHeader(defaults, names[..|names| - 1]), names[|names| - 1])
  }

  const AcceptName: string := "Accept"
  const RequestedWithName: string := "X-Requested-With"
  const XmlHttpRequest: string := "XMLHttpRequest"

  /** The default headers while `ajax` runs its request, and the saved
      Accept value (`$accept_old`, null when unset). */
  datatype AjaxFrame = AjaxFrame(during: Headers, savedAccept: Option<string>)

  /** `ajax` before its request: a truthy `accept` replaces Accept, and
      X-Requested-With is set. */
  function AjaxBegin(defaults: Headers, accept: string): (r: AjaxFrame)
    ensures Lookup(r.during, RequestedWithName) == Some(XmlHttpRequest)
    ensures Truthy(accept) ==> Lookup(r.during, AcceptName) == Some(accept)
    ensures !Truthy(accept) ==> Lookup(r.during, AcceptName) == Lookup(defaults, AcceptName)
    ensures forall k :: k != AcceptName && k != RequestedWithName ==> Lookup(r.during, k) == Lookup(defaults, k)
  {
    var saved := Lookup(defaults, AcceptName);
    var h := if Truthy(accept) then Upsert(defaults, AcceptName, accept) else defaults;
    AjaxFrame(Upsert(h, RequestedWithName, XmlHttpRequest), saved)
  }

  /** `ajax` after its request returns normally: X-Requested-With is
      removed and, for a truthy `accept`, the saved Accept written back
      (a null one as ""). */
  function AjaxEnd(frame: AjaxFrame, accept: string): Headers {
    var h := Remove(frame.during, RequestedWithName);
    if Truthy(accept) then Upsert(h, AcceptName, frame.savedAccept.GetOr("")) else h
  }

  /** After `ajax` returns normally, Accept is back to its prior value,
      X-Requested-With is absent, and every other header is as before. */
  lemma AjaxRestores(defaults: Headers, accept: string)
    requires HasKey(defaults, AcceptName)
    ensures var after := AjaxEnd(AjaxBegin(defaults, accept), accept);
      && Lookup(after, AcceptName) == Lookup(defaults, AcceptName)
      && !HasKey(after, RequestedWithName)
      && forall k :: k != RequestedWithName ==> Lookup(after, k) == Lookup(defaults, k)
  {
    var frame := AjaxBegin(defaults, accept);
    var h := Remove(frame.during, RequestedWithName);
    var after := AjaxEnd(frame, accept);
    assert frame.savedAccept == Lookup(defaults, AcceptName);
    forall k | k != RequestedWithName ensures Lookup(after, k) == Lookup(defaults, k) {
      assert Lookup(h, k) == Lookup(frame.during, k);
      if k != AcceptName {
        assert Lookup(frame.during, k) == Lookup(defaults, k);
      } else if !Truthy(accept) {
        assert Lookup(frame.during, k) == Lookup(defaults, k);
      }
    }
    assert Lookup(after, RequestedWithName) == None;
  }

  /** When the defaults hold Accept and no X-Requested-With, `ajax` leaves
      them exactly as it found them, order included. */
  lemma {:induction false} AjaxRestoresExactly(defaults: Headers, accept: string)
    requires HasKey(defaults, AcceptName) && !HasKey(defaults, RequestedWithName)
    ensures AjaxEnd(AjaxBegin(defaults, accept), accept) == defaults
  {
    var saved := Lookup(defaults, AcceptName).value;
    var h := if Truthy(accept) then Upsert(defaults, AcceptName, accept) else defaults;
    assert !HasKey(h, RequestedWithName);
    var during := Upsert(h, RequestedWithName, XmlHttpRequest);
    assert during == h + [(RequestedWithName, XmlHttpRequest)];
    RemoveAppended(h, RequestedWithName, XmlHttpRequest);
    if Truthy(accept) {
      UpsertTwice(defaults, AcceptName, accept, saved);
    }
  }

  /** Removing a freshly appended key undoes the append. */
  lemma {:induction false} RemoveAppended(m: Headers, k: string, v: string)
    requires !HasKey(m, k)
    ensures Remove(m + [(k, v)], k) == m
    decreases |m|
  {
    if |m| > 0 {
      assert (m + [(k, v)])[1..] == m[1..] + [(k, v)];
      RemoveAppended(m[1..], k, v);
    }
  }

  /** Writing a key's own value back over a temporary one restores the list. */
  lemma {:induction false} UpsertTwice(m: Headers, k: string, tmp: string, v: string)
    requires Lookup(m, k) == Some(v)
    ensures Upsert(Upsert(m, k, tmp), k, v) == m
    decreases |m|
  {
    if m[0].0 != k {
      UpsertTwice(m[1..], k, tmp, v);
    }
  }
}

=== FILE: ordered_map.dfy ===
/**
 * PHP arrays with string keys: ordered association lists in which an
 * assignment to an existing key keeps the key's position and an
 * assignment to a new key appends it. Numeric-string keys, which PHP
 * turns into integers, are not distinguished.
 */
module OrderedMap {
  import opened Base

  type Assoc<V> = seq<(string, V)>

  predicate HasKey<V>(m: Assoc<V>, k: string) {
    exists i :: 0 <= i < |m| && m[i].0 == k
  }

  /** Every key occurs once, as in any PHP array. */
  predicate Distinct<V>(m: Assoc<V>) {
    forall i, j :: 0 <= i < j < |m| ==> m[i].0 != m[j].0
  }

  /** `$m[$k]`, or None when the key is unset. */
  function Lookup<V>(m: Assoc<V>, k: string): (r: Option<V>)
    ensures r.None? <==> !HasKey(m, k)
    ensures r.Some? ==> (k, r.value) in m
  {
    if |m| == 0 then None
    else if m[0].0 == k then Some(m[0].1)
    else
      assert HasKey(m, k) ==> HasKey(m[1..], k) by {
        if HasKey(m, k) {
          var i :| 0 <= i < |m| && m[i].0 == k;
          assert m[1..][i - 1].0 == k;
        }
      }
      Lookup(m[1..], k)
  }

  /** In a PHP array a key has one value: the pair is present iff Get returns it. */
  lemma {:induction false} LookupDistinct<V>(m: Assoc<V>, k: string, v: V)
    requires Distinct(m)
    ensures Lookup(m, k) == Some(v) <==> (k, v) in m
  {
    if |m| > 0 {
      if m[0].0 != k {
        assert (k, v) in m <==> (k, v) in m[1..];
        LookupDistinct(m[1..], k, v);
      } else if (k, v) in m {
        var i :| 0 <= i < |m| && m[i] == (k, v);
        assert i == 0;
      }
    }
  }

  /** `$m[$k] = $v`: overwrite in place, or append a new key. */
  function Upsert<V>(m: Assoc<V>, k: string, v: V): (r: Assoc<V>)
    ensures Assigned(r, m, k, v)
    ensures Lookup(r, k) == Some(v)
    ensures forall k' :: k' != k ==> Lookup(r, k') == Lookup(m, k')
    ensures !HasKey(m, k) ==> r == m + [(k, v)]
    ensures HasKey(m, k) ==> |r| == |m|
    ensures forall i :: 0 <= i < |m| ==> r[i].0 == m[i].0
  {
    if |m| == 0 then
      UpsertEmpty(k, v);
      [(k, v)]
    else if m[0].0 == k then
      UpsertHead(m, k, v);
      [(k, v)] + m[1..]
    else
      var rest := Upsert(m[1..], k, v);
      UpsertStep(m, k, v, rest);
      [m[0]] + rest
  }

  /** What an assignment of `v` to `k` leaves in `r`, compared with `m`:
      the new value at `k`, every other lookup as before, the keys in
      their places, and a new key appended. */
  ghost predicate Assigned<V>(r: Assoc<V>, m: Assoc<V>, k: string, v: V) {
    && Lookup(r, k) == Some(v)
    && (forall k' :: k' != k ==> Lookup(r, k') == Lookup(m, k'))
    && (!HasKey(m, k) ==> r == m + [(k, v)])
    && (HasKey(m, k) ==> |r| == |m|)
    && |m| <= |r|
    && (forall i :: 0 <= i < |m| ==> r[i].0 == m[i].0)
  }

  /** Assigning to an empty array gives the one pair. */
  lemma UpsertEmpty<V>(k: string, v: V)
    ensures Assigned([(k, v)], [], k, v)
  {
    LookupCons((k, v), [], k);
    forall k' | k' != k ensures Lookup([(k, v)], k') == None {
      LookupCons((k, v), [], k');
    }
  }

  /** Assigning to the first key replaces its value in place. */
  lemma UpsertHead<V>(m: Assoc<V>, k: string, v: V)
    requires |m| > 0 && m[0].0 == k
    ensures Assigned([(k, v)] + m[1..], m, k, v)
  {
    var r := [(k, v)] + m[1..];
    assert m == [m[0]] + m[1..];
    LookupCons((k, v), m[1..], k);
    forall k' | k' != k ensures Lookup(r, k') == Lookup(m, k') {
      LookupCons((k, v), m[1..], k');
      LookupCons(m[0], m[1..], k');
    }
    assert HasKey(m, k);
  }

  /** Assigning past a first pair with another key keeps that pair in
      front of the assignment to the rest. */
  lemma UpsertStep<V>(m: Assoc<V>, k: string, v: V, rest: Assoc<V>)
    requires |m| > 0 && m[0].0 != k
    requires Assigned(rest, m[1..], k, v)
    ensures Assigned([m[0]] + rest, m, k, v)
  {
    var r := [m[0]] + rest;
    assert m == [m[0]] + m[1..];
    LookupCons(m[0], rest, k);
    forall k' | k' != k ensures Lookup(r, k') == Lookup(m, k') {
      LookupCons(m[0], rest, k');
      LookupCons(m[0], m[1..], k');
    }
    assert HasKey(m, k) <==> HasKey(m[1..], k) by {
      if HasKey(m, k) {
        var i :| 0 <= i < |m| && m[i].0 == k;
        assert m[1..][i - 1].0 == k;
      }
      if HasKey(m[1..], k) {
        var i :| 0 <= i < |m[1..]| && m[1..][i].0 == k;
        assert m[i + 1].0 == k;
      }
    }
    forall i | 0 <= i < |m| ensures r[i].0 == m[i].0 {
      if i > 0 {
        assert r[i] == rest[i - 1] && m[i] == m[1..][i - 1];
      }
    }
    if !HasKey(m, k) {
      calc {
        r;
        [m[0]] + (m[1..] + [(k, v)]);
        ([m[0]] + m[1..]) + [(k, v)];
        m + [(k, v)];
      }
    }
  }

  /** Lookup in a list with a first pair in front. */
  lemma LookupCons<V>(p: (string, V), rest: Assoc<V>, k: string)
    ensures Lookup([p] + rest, k) == if p.0 == k then Some(p.1) else Lookup(rest, k)
  {
    assert ([p] + rest)[1..] == rest;
  }

  /** Assignment keeps a PHP array's keys distinct. */
  lemma UpsertDistinct<V>(m: Assoc<V>, k: string, v: V)
    requires Distinct(m)
    ensures Distinct(Upsert(m, k, v))
  {
    var r := Upsert(m, k, v);
    if HasKey(m, k) {
      forall i, j | 0 <= i < j < |r| ensures r[i].0 != r[j].0 {
        assert r[i].0 == m[i].0 && r[j].0 == m[j].0;
      }
    } else {
      forall i, j | 0 <= i < j < |r| ensures r[i].0 != r[j].0 {
        assert r[i].0 == m[i].0;
        if j == |m| {
          assert r[j].0 == k;
          assert m[i].0 != k;
        } else {
          assert r[j].0 == m[j].0;
        }
      }
    }
  }

  /** `unset($m[$k])`. */
  function Remove<V>(m: Assoc<V>, k: string): (r: Assoc<V>)
    ensures Lookup(r, k) == None
    ensures forall k' :: k' != k ==> Lookup(r, k') == Lookup(m, k')
    ensures !HasKey(m, k) ==> r == m
    ensures forall p :: p in r ==> p in m
  {
    if |m| == 0 then []
    else
      assert !HasKey(m, k) ==> !HasKey(m[1..], k) by {
        if HasKey(m[1..], k) {
          var i :| 0 <= i < |m[1..]| && m[1..][i].0 == k;
          assert m[i + 1].0 == k;
        }
      }
      if m[0].0 == k then Remove(m[1..], k)
      else [m[0]] + Remove(m[1..], k)
  }

  /** Value of the LAST pair with key `k`: what a run of assignments
      keeps for a repeated key. */
  function Last<V>(m: Assoc<V>, k: string): (r: Option<V>)
    ensures r.None? <==> !HasKey(m, k)
  {
    if |m| == 0 then None
    else if m[|m| - 1].0 == k then Some(m[|m| - 1].1)
    else
      assert HasKey(m, k) ==> HasKey(m[..|m| - 1], k) by {
        if HasKey(m, k) {
          var i :| 0 <= i < |m| && m[i].0 == k;
          assert m[..|m| - 1][i].0 == k;
        }
      }
      Last(m[..|m| - 1], k)
  }

  /** In a PHP array first and last occurrence coincide. */
  lemma {:induction false} LastDistinct<V>(m: Assoc<V>, k: string)
    requires Distinct(m)
    ensures Last(m, k) == Lookup(m, k)
    decreases |m|
  {
    if |m| > 0 {
      var init := m[..|m| - 1];
      if m[|m| - 1].0 != k {
        assert Distinct(init);
        LastDistinct(init, k);
        if HasKey(init, k) {
          var v := Lookup(init, k).value;
          LookupDistinct(init, k, v);
          LookupDistinct(m, k, v);
        }
      } else {
        LookupDistinct(m, k, m[|m| - 1].1);
      }
    }
  }

  /** `array_merge($m, $n)` for string keys: the pairs of `n` assigned in
      order into `m`. */
  function Merge<V>(m: Assoc<V>, n: Assoc<V>): (r: Assoc<V>)
    decreases |n|
  {
    if |n| == 0 then m
    else Upsert(Merge(m, n[..|n| - 1]), n[|n| - 1].0, n[|n| - 1].1)
  }

  /** A key is set in a list iff it is set in all but the last pair or
      in the last pair. */
  lemma HasKeySnoc<V>(n: Assoc<V>, k: string)
    requires |n| > 0
    ensures HasKey(n, k) <==> HasKey(n[..|n| - 1], k) || n[|n| - 1].0 == k
  {
    if HasKey(n, k) {
      var i :| 0 <= i < |n| && n[i].0 == k;
      if i < |n| - 1 {
        assert n[..|n| - 1][i].0 == k;
      }
    }
    if HasKey(n[..|n| - 1], k) {
      var i :| 0 <= i < |n| - 1 && n[..|n| - 1][i].0 == k;
      assert n[i].0 == k;
    }
  }

  /** Later writes win: a key set by `n` takes its last value there, any
      other key keeps its value from `m`. */
  lemma {:induction false} MergeLookup<V>(m: Assoc<V>, n: Assoc<V>, k: string)
    ensures Lookup(Merge(m, n), k) == (if HasKey(n, k) then Last(n, k) else Lookup(m, k))
    decreases |n|
  {
    if |n| > 0 {
      var init := n[..|n| - 1];
      var (lk, lv) := n[|n| - 1];
      MergeLookup(m, init, k);
      HasKeySnoc(n, k);
      assert Merge(m, n) == Upsert(Merge(m, init), lk, lv);
      if lk != k {
        assert Last(n, k) == Last(init, k);
        assert Lookup(Merge(m, n), k) == Lookup(Merge(m, init), k);
      } else {
        assert Last(n, k) == Some(lv);
      }
    }
  }

  /** Merging keeps a PHP array's keys distinct. */
  lemma {:induction false} MergeDistinct<V>(m: Assoc<V>, n: Assoc<V>)
    requires Distinct(m)
    ensures Distinct(Merge(m, n))
    decreases |n|
  {
    if |n| > 0 {
      MergeDistinct(m, n[..|n| - 1]);
      UpsertDistinct(Merge(m, n[..|n| - 1]), n[|n| - 1].0, n[|n| - 1].1);
    }
  }

  /** MergeLookup for every key, and MergeDistinct, in one fact. */
  lemma MergeFacts<V>(m: Assoc<V>, n: Assoc<V>)
    ensures forall k :: Lookup(Merge(m, n), k) == (if HasKey(n, k) then Last(n, k) else Lookup(m, k))
    ensures Distinct(m) ==> Distinct(Merge(m, n))
  {
    forall k ensures Lookup(Merge(m, n), k) == (if HasKey(n, k) then Last(n, k) else Lookup(m, k)) {
      MergeLookup(m, n, k);
    }
    if Distinct(m) {
      MergeDistinct(m, n);
    }
  }

  /** A PHP array built from a list of pairs, later pairs winning. */
  function FromPairs<V>(ps: Assoc<V>): (r: Assoc<V>)
    ensures Distinct(r)
  {
    MergeDistinct([], ps);
    Merge([], ps)
  }

  /** Pairs with distinct keys are already a PHP array. */
  lemma {:induction false} FromDistinctPairs<V>(ps: Assoc<V>)
    requires Distinct(ps)
    ensures FromPairs(ps) == ps
    decreases |ps|
  {
    if |ps| > 0 {
      var init := ps[..|ps| - 1];
      assert Distinct(init);
      FromDistinctPairs(init);
      assert !HasKey(init, ps[|ps| - 1].0);
      assert init + [ps[|ps| - 1]] == ps;
    }
  }

  /** The first key of a built array is the first pair's key, and keys
      set anywhere in the pairs are exactly the keys of the array. */
  lemma {:induction false} FromPairsKeys<V>(ps: Assoc<V>)
    requires |ps| >= 1
    ensures |FromPairs(ps)| >= 1 && FromPairs(ps)[0].0 == ps[0].0
    decreases |ps|
  {
    var init := ps[..|ps| - 1];
    var m := Merge([], init);
    assert FromPairs(ps) == Upsert(m, ps[|ps| - 1].0, ps[|ps| - 1].1);
    if |ps| == 1 {
      assert m == [];
      assert !HasKey(m, ps[0].0);
    } else {
      FromPairsKeys(init);
      assert init[0] == ps[0];
      assert FromPairs(init) == m;
    }
  }

  /** A key is set in a built array iff some pair names it. */
  lemma FromPairsHasKey<V>(ps: Assoc<V>, k: string)
    ensures HasKey(FromPairs(ps), k) <==> HasKey(ps, k)
  {
    MergeLookup([], ps, k);
  }

  /** Last seen from the front: a later pair for the key wins over the
      first one. */
  lemma {:induction false} LastCons<V>(p: (string, V), rest: Assoc<V>, k: string)
    ensures Last([p] + rest, k) ==
      if HasKey(rest, k) then Last(rest, k) else if p.0 == k then Some(p.1) else None
    decreases |rest|
  {
    if |rest| == 0 {
      assert [p] + rest == [p];
    } else {
      var init := rest[..|rest| - 1];
      assert ([p] + rest)[..|rest|] == [p] + init;
      HasKeySnoc(rest, k);
      LastCons(p, init, k);
    }
  }

  /** A key is in an array with one entry in front exactly when it is that
      entry's key or a key of the rest. */
  lemma HasKeyCons<V>(p: (string, V), rest: Assoc<V>, k: string)
    ensures HasKey([p] + rest, k) <==> p.0 == k || HasKey(rest, k)
  {
    if HasKey([p] + rest, k) && p.0 != k {
      var i :| 0 <= i < |[p] + rest| && ([p] + rest)[i].0 == k;
      assert rest[i - 1].0 == k;
    }
    if HasKey(rest, k) {
      var i :| 0 <= i < |rest| && rest[i].0 == k;
      assert ([p] + rest)[i + 1].0 == k;
    }
    if p.0 == k {
      assert ([p] + rest)[0].0 == k;
    }
  }

  /** The one-entry array `array($k => $v)`. */
  lemma OneEntry<V>(k: string, v: V)
    ensures HasKey([(k, v)], k) && Last([(k, v)], k) == Some(v) && Lookup([(k, v)], k) == Some(v)
    ensures forall k' :: k' != k ==> !HasKey([(k, v)], k')
  {
    assert [(k, v)][0].0 == k;
  }
}

=== FILE: php_lib.dfy ===
/**
 * PHP library functions the core calls but whose behaviour is not part of
 * the model. Each is a field of `Runtime`, so every operation that uses
 * one receives it as a parameter; the facts some properties need about
 * them are stated as predicates and appear as preconditions.
 */
module PhpLib {
  import opened Base
  import opened OrderedMap

  /** What `parse_url` returns: each component may be absent. */
  datatype UrlParts = UrlParts(
    scheme: Option<string>,
    host: Option<string>,
    port: Option<nat>,
    user: Option<string>,
    pass: Option<string>,
    path: Option<string>,
    query: Option<string>,
    fragment: Option<string>)

  datatype Runtime = Runtime(
    /** `parse_url`; None is its `false` for a seriously malformed URL. */
    parseUrl: string -> Option<UrlParts>,
    urlencode: string -> string,
    rawurlencode: string -> string,
    urldecode: string -> string,
    /** `http_build_query` on a flat string map. */
    buildQuery: Assoc<string> -> string,
    /** `strtotime`, with PHP's `false` read as 0 (both are falsy). */
    strtotime: string -> int)

  /** `decode(encode(s)) == s` for every string. */
  ghost predicate Inverts(decode: string -> string, encode: string -> string) {
    forall s :: decode(encode(s)) == s
  }

  /** `encode` never emits the character `c` (percent-encoding escapes it). */
  ghost predicate Escapes(encode: string -> string, c: char) {
    forall s :: c !in encode(s)
  }

  /** The host `parse_url` finds in a URL, "" when it finds none. */
  function HostOf(url: string, rt: Runtime): string {
    match rt.parseUrl(url)
    case Some(p) => p.host.GetOr("")
    case None => ""
  }
}

=== FILE: php_string.dfy ===
/**
 * The PHP string functions the core relies on (explode, implode, trim,
 * strtolower, ucfirst, strpos, str_replace), over `string = seq<char>`,
 * with PHP's reading of a string as a boolean.
 */
module PhpString {
  import opened Base

  /** PHP's boolean reading of a string: only "" and "0" are false. */
  predicate Truthy(s: string) {
    s != "" && s != "0"
  }

  predicate StartsWith(s: string, prefix: string) {
    |prefix| <= |s| && s[..|prefix|] == prefix
  }

  predicate EndsWith(s: string, suffix: string) {
    |suffix| <= |s| && s[|s| - |suffix|..] == suffix
  }

  /** A string ends with whatever was appended last. */
  lemma EndsWithConcat(a: string, b: string)
    ensures EndsWith(a + b, b)
  {
    assert (a + b)[|a|..] == b;
  }

  /** `strpos($haystack, $needle) !== false`. */
  predicate Contains(haystack: string, needle: string)
    decreases |haystack|
  {
    StartsWith(haystack, needle) || (|haystack| > 0 && Contains(haystack[1..], needle))
  }

  /** Contains holds exactly when the needle occurs at some offset. */
  lemma {:induction false} ContainsAt(haystack: string, needle: string, i: nat)
    requires i + |needle| <= |haystack| && haystack[i..i + |needle|] == needle
    ensures Contains(haystack, needle)
    decreases i
  {
    if i > 0 {
      assert haystack[1..][i - 1..i - 1 + |needle|] == needle;
      ContainsAt(haystack[1..], needle, i - 1);
    }
  }

  /** Index of the first occurrence of `c`. */
  function FirstIndex(s: string, c: char): (i: nat)
    requires c in s
    ensures i < |s| && s[i] == c && c !in s[..i]
  {
    if s[0] == c then 0 else 1 + FirstIndex(s[1..], c)
  }

  /** The result of `explode($c, $s, 2)`: the text before the first `c`
      and, when there is one, the text after it. */
  datatype Halves = Halves(head: string, tail: Option<string>)

  function Cut(s: string, c: char): (r: Halves)
    ensures r.tail.None? <==> c !in s
    ensures r.tail.None? ==> r.head == s
    ensures r.tail.Some? ==> s == r.head + [c] + r.tail.value && c !in r.head
  {
    if c in s then
      var i := FirstIndex(s, c);
      assert s == s[..i] + [c] + s[i + 1..];
      Halves(s[..i], Some(s[i + 1..]))
    else
      Halves(s, None)
  }

  /** Cut finds the first separator: a head free of `c` is split off exactly. */
  lemma CutAfterHead(head: string, c: char, tail: string)
    requires c !in head
    ensures Cut(head + [c] + tail, c) == Halves(head, Some(tail))
  {
    var s := head + [c] + tail;
    assert s[..|head|] == head && s[|head|] == c;
    assert tail == s[|head| + 1..];
  }

  /** `explode($c, $s)`: the pieces of `s` between occurrences of `c`. */
  function Explode(s: string, c: char): (r: seq<string>)
    ensures |r| >= 1
    ensures forall i :: 0 <= i < |r| ==> c !in r[i]
    decreases |s|
  {
    var h := Cut(s, c);
    if h.tail.None? then [s] else [h.head] + Explode(h.tail.value, c)
  }

  /** `implode($sep, $parts)`. */
  function Implode(parts: seq<string>, sep: string): string
  {
    if |parts| == 0 then ""
    else if |parts| == 1 then parts[0]
    else parts[0] + sep + Implode(parts[1..], sep)
  }

  /** Joining the pieces of an explode gives back the original string. */
  lemma {:induction false} ImplodeExplode(s: string, c: char)
    ensures Implode(Explode(s, c), [c]) == s
    decreases |s|
  {
    var h := Cut(s, c);
    if h.tail.Some? {
      ImplodeExplode(h.tail.value, c);
    }
  }

  /** Exploding a join of separator-free pieces gives back the pieces. */
  lemma {:induction false} ExplodeImplode(parts: seq<string>, c: char)
    requires |parts| >= 1
    requires forall i :: 0 <= i < |parts| ==> c !in parts[i]
    ensures Explode(Implode(parts, [c]), c) == parts
    decreases |parts|
  {
    if |parts| > 1 {
      CutAfterHead(parts[0], c, Implode(parts[1..], [c]));
      ExplodeImplode(parts[1..], c);
    }
  }

  /** Joining two non-empty lists puts one separator between their joins. */
  lemma {:induction false} ImplodeAppend(xs: seq<string>, ys: seq<string>, sep: string)
    requires |xs| >= 1 && |ys| >= 1
    ensures Implode(xs + ys, sep) == Implode(xs, sep) + sep + Implode(ys, sep)
    decreases |xs|
  {
    if |xs| > 1 {
      assert (xs + ys)[1..] == xs[1..] + ys;
      ImplodeAppend(xs[1..], ys, sep);
    }
  }

  /** A separator-free piece of the join holds no separator itself. */
  lemma {:induction false} ImplodeFree(parts: seq<string>, c: char, d: char)
    requires forall i :: 0 <= i < |parts| ==> d !in parts[i]
    requires c != d
    ensures d !in Implode(parts, [c])
    decreases |parts|
  {
    if |parts| > 1 {
      ImplodeFree(parts[1..], c, d);
    }
  }

  /** The characters PHP's `trim()` strips by default. */
  const Blank: set<char> := {' ', '\t', '\n', '\r', '\0', '\U{0B}'}

  /** `ltrim($s, $cs)`. */
  function TrimLeft(s: string, cs: set<char>): (r: string)
    ensures EndsWith(s, r)
    ensures |r| > 0 ==> r[0] !in cs
    ensures forall i :: 0 <= i < |s| - |r| ==> s[i] in cs
  {
    if |s| > 0 && s[0] in cs then TrimLeft(s[1..], cs) else s
  }

  /** `rtrim($s, $cs)`. */
  function TrimRight(s: string, cs: set<char>): (r: string)
    ensures StartsWith(s, r)
    ensures |r| > 0 ==> r[|r| - 1] !in cs
    ensures forall i :: |r| <= i < |s| ==> s[i] in cs
  {
    if |s| > 0 && s[|s| - 1] in cs then TrimRight(s[..|s| - 1], cs) else s
  }

  /** `trim($s, $cs)`. */
  function Trim(s: string, cs: set<char>): string {
    TrimRight(TrimLeft(s, cs), cs)
  }

  /** A string with no strippable character at either end is its own trim. */
  lemma TrimNoop(s: string, cs: set<char>)
    requires |s| > 0 ==> s[0] !in cs && s[|s| - 1] !in cs
    ensures Trim(s, cs) == s
  {
  }

  /** ASCII `strtolower` on one character. */
  function LowerChar(c: char): char {
    if 'A' <= c <= 'Z' then (c as int + 32) as char else c
  }

  /** ASCII upper-casing of one character, as `ucfirst` does. */
  function UpperChar(c: char): char {
    if 'a' <= c <= 'z' then (c as int - 32) as char else c
  }

  /** `strtolower($s)`, ASCII letters only. */
  function Lower(s: string): (r: string)
    ensures |r| == |s|
  {
    seq(|s|, i requires 0 <= i < |s| => LowerChar(s[i]))
  }

  /** A string without upper-case ASCII letters is its own lower case. */
  lemma LowerNoUpper(s: string)
    requires forall i :: 0 <= i < |s| ==> !('A' <= s[i] <= 'Z')
    ensures Lower(s) == s
  {
  }

  /** `ucfirst($s)`. */
  function UcFirst(s: string): (r: string)
    ensures |r| == |s|
  {
    if |s| == 0 then s else [UpperChar(s[0])] + s[1..]
  }

  /** `str_replace` of every character of `cs` by nothing. */
  function Strip(s: string, cs: set<char>): (r: string)
    ensures forall i :: 0 <= i < |r| ==> r[i] !in cs
    ensures (forall i :: 0 <= i < |s| ==> s[i] !in cs) ==> r == s
    ensures |r| <= |s|
  {
    if |s| == 0 then ""
    else if s[0] in cs then Strip(s[1..], cs)
    else [s[0]] + Strip(s[1..], cs)
  }

  /** Stripping distributes over concatenation. */
  lemma {:induction false} StripAppend(a: string, b: string, cs: set<char>)
    ensures Strip(a + b, cs) == Strip(a, cs) + Strip(b, cs)
    decreases |a|
  {
    if |a| > 0 {
      assert (a + b)[0] == a[0] && (a + b)[1..] == a[1..] + b;
      StripAppend(a[1..], b, cs);
    } else {
      assert a + b == b;
    }
  }

  /** One character is kept exactly when it is not one of `cs`. */
  lemma StripOne(c: char, cs: set<char>)
    ensures Strip([c], cs) == if c in cs then "" else [c]
  {
    assert [c][1..] == "";
  }

  /** Stripping reads the string left to right: a character added at the
      end is kept or dropped on its own. */
  lemma StripSnoc(s: string, c: char, cs: set<char>)
    ensures Strip(s + [c], cs) == Strip(s, cs) + (if c in cs then "" else [c])
  {
    StripAppend(s, [c], cs);
    StripOne(c, cs);
  }

  /** Decimal rendering of a natural number, as PHP interpolates an int. */
  function Decimal(n: nat): (r: string)
    ensures |r| >= 1
    ensures forall i :: 0 <= i < |r| ==> '0' <= r[i] <= '9'
    ensures r[0] == '0' ==> n == 0
  {
    if n < 10 then [('0' as int + n) as char]
    else Decimal(n / 10) + [('0' as int + n % 10) as char]
  }

  /** The number a string of decimal digits denotes. */
  function DigitsValue(s: string): nat
    requires forall i :: 0 <= i < |s| ==> '0' <= s[i] <= '9'
  {
    if |s| == 0 then 0
    else 10 * DigitsValue(s[..|s| - 1]) + (s[|s| - 1] as int - '0' as int)
  }

  /** Reading a rendered number back gives the number. */
  lemma {:induction false} DecimalRoundTrip(n: nat)
    ensures DigitsValue(Decimal(n)) == n
    decreases n
  {
    if n >= 10 {
      var r := Decimal(n);
      assert r[..|r| - 1] == Decimal(n / 10);
      DecimalRoundTrip(n / 10);
    }
  }

  /** A rendered number reads as false in PHP exactly when it is zero. */
  lemma DecimalTruthy(n: nat)
    ensures Truthy(Decimal(n)) <==> n != 0
  {
    if n >= 10 {
      assert |Decimal(n / 10)| >= 1;
    }
  }

  /** The last path segment replaced by `seg`: explode on '/', overwrite
      the last piece, implode. */
  function ReplaceLastSegment(path: string, seg: string): string {
    var parts := Explode(path, '/');
    Implode(parts[..|parts| - 1] + [seg], "/")
  }

  /** The path up to and including its last '/', or "" when it has none. */
  function DirPrefix(path: string): (r: string)
    ensures '/' !in path ==> r == ""
  {
    if |path| == 0 then ""
    else if path[|path| - 1] == '/' then path
    else DirPrefix(path[..|path| - 1])
  }

  lemma {:induction false} DirPrefixAppend(a: string, b: string)
    ensures DirPrefix(a + b) == if '/' in b then a + DirPrefix(b) else DirPrefix(a)
    decreases |b|
  {
    if |b| == 0 {
      assert a + b == a;
    } else {
      var init := b[..|b| - 1];
      assert (a + b)[..|a + b| - 1] == a + init;
      assert (a + b)[|a + b| - 1] == b[|b| - 1];
      DirPrefixAppend(a, init);
      assert '/' in b <==> '/' in init || b[|b| - 1] == '/';
      if b[|b| - 1] != '/' && '/' in init {
        assert DirPrefix(b) == DirPrefix(init);
      }
    }
  }

  /** Replacing the last segment keeps everything up to the last '/'. */
  lemma {:induction false} ReplaceLastSegmentDir(path: string, seg: string)
    ensures ReplaceLastSegment(path, seg) == DirPrefix(path) + seg
    decreases |path|
  {
    var h := Cut(path, '/');
    if h.tail.Some? {
      var head, tail := h.head, h.tail.value;
      ReplaceLastSegmentCons(path, seg);
      DirPrefixCons(path);
      ReplaceLastSegmentDir(tail, seg);
      assert head + "/" + (DirPrefix(tail) + seg) == head + "/" + DirPrefix(tail) + seg;
    }
  }

  /** Replacing the last segment of a path with a '/' works on the part
      after the first '/'. */
  lemma ReplaceLastSegmentCons(path: string, seg: string)
    requires Cut(path, '/').tail.Some?
    ensures var h := Cut(path, '/');
      ReplaceLastSegment(path, seg) == h.head + "/" + ReplaceLastSegment(h.tail.value, seg)
  {
    var h := Cut(path, '/');
    var head, tail := h.head, h.tail.value;
    var rest := Explode(tail, '/');
    var parts := Explode(path, '/');
    assert parts == [head] + rest;
    var init := rest[..|rest| - 1];
    var later := init + [seg];
    assert parts[..|parts| - 1] == [head] + init;
    assert parts[..|parts| - 1] + [seg] == [head] + later;
    assert ReplaceLastSegment(tail, seg) == Implode(later, "/");
    ImplodeAppend([head], later, "/");
    assert Implode([head], "/") == head;
  }

  /** The directory of a path with a '/' extends past its first '/'. */
  lemma DirPrefixCons(path: string)
    requires Cut(path, '/').tail.Some?
    ensures var h := Cut(path, '/');
      DirPrefix(path) == h.head + "/" + DirPrefix(h.tail.value)
  {
    var h := Cut(path, '/');
    var head, tail := h.head, h.tail.value;
    DirPrefixAppend(head + "/", tail);
    DirPrefixAppend(head, "/");
    assert path == (head + "/") + tail;
  }
}

=== FILE: url.dfy ===
/**
 * The URL container: a record of URL components with PHP's normalising
 * setters, the query-string parser, and the composer that turns the
 * record back into a URL string. `parse_url`, the percent codecs and
 * `http_build_query` come from the `Runtime` parameter.
 */
module Url {
  import opened Base
  import opened PhpString
  import opened OrderedMap
  import opened PhpLib

  const DefaultScheme: string := "http"
  const DefaultHost: string := "localhost"

  type Query = Assoc<string>

  /**
   * The container's data. An unset string component is "" (PHP reads an
   * unset key and "" alike wherever a string component is read). The
   * query is the one key whose absence shows: `hasQuery` is false when no
   * query key is set (a URL built from a falsy string, or after
   * `unset`), and `query` is then []. `compose` reads the two alike;
   * `add_query` does not. The port is kept as the text PHP interpolates:
   * an int from `parse_url` or `set_port`, or the verbatim text after ':'
   * from `set_host`.
   */
  datatype Components = Components(
    scheme: string,
    user: string,
    pass: string,
    host: string,
    port: string,
    path: string,
    query: Query,
    hasQuery: bool,
    fragment: string)

  /** One `k=v` piece of a query string, both halves url-decoded; a piece
      without '=' has the value "". */
  function QueryPair(piece: string, decode: string -> string): (string, string) {
    var h := Cut(piece, '=');
    (decode(h.head), decode(h.tail.GetOr("")))
  }

  function QueryPairs(pieces: seq<string>, decode: string -> string): (ps: Assoc<string>)
    ensures |ps| == |pieces|
    ensures forall i :: 0 <= i < |ps| ==> ps[i] == QueryPair(pieces[i], decode)
  {
    seq(|pieces|, i requires 0 <= i < |pieces| => QueryPair(pieces[i], decode))
  }

  /** The '&'-separated pieces of a query string, once '?' is trimmed from
      both ends. */
  function QueryPieces(query: string): seq<string> {
    Explode(Trim(query, {'?'}), '&')
  }

  /** `Url::parse_query`: never the `false` branch, since explode always
      yields at least one piece. */
  function ParseQuery(query: string, decode: string -> string): (r: Option<Query>)
    ensures r.Some? && |r.value| >= 1 && Distinct(r.value)
  {
    var pairs := QueryPairs(QueryPieces(query), decode);
    var a := FromPairs(pairs);
    MergeLookup([], pairs, pairs[0].0);
    assert HasKey(pairs, pairs[0].0);
    if |a| > 0 then Some(a) else None
  }

  /** A key of the parsed query takes the value of the LAST piece whose
      decoded name is that key; keys no piece names are absent. */
  lemma ParseQueryLastWins(query: string, decode: string -> string, k: string)
    ensures var pairs := QueryPairs(QueryPieces(query), decode);
      Lookup(ParseQuery(query, decode).value, k) == Last(pairs, k)
  {
    var pairs := QueryPairs(QueryPieces(query), decode);
    MergeLookup([], pairs, k);
  }

  /** The empty query string parses to the single entry "" => "". */
  lemma ParseQueryEmpty(decode: string -> string)
    ensures ParseQuery("", decode) == Some([(decode(""), decode(""))])
  {
    assert TrimLeft("", {'?'}) == "" && TrimRight("", {'?'}) == "";
    assert Cut("", '&') == Halves("", None);
    assert Explode("", '&') == [""];
    assert QueryPieces("") == [""];
    var pairs := QueryPairs([""], decode);
    assert Cut("", '=') == Halves("", None);
    assert pairs == [(decode(""), decode(""))];
    FromDistinctPairs(pairs);
    assert FromPairs(pairs) == pairs;
  }

  /** The string `parse` hands to `parse_url`: an input without "://" is
      rebased on http://localhost/ with its leading slashes dropped. */
  function ParseTarget(raw: string): (t: string)
    ensures Contains(t, "://")
    ensures Contains(raw, "://") ==> t == raw
    ensures !Contains(raw, "://") ==>
      StartsWith(t, DefaultScheme + "://" + DefaultHost + "/") && t[17..] == TrimLeft(raw, {'/'})
  {
    if Contains(raw, "://") then raw
    else
      var t := DefaultScheme + "://" + DefaultHost + "/" + TrimLeft(raw, {'/'});
      ContainsAt(t, "://", 4);
      t
  }

  /** The text PHP interpolates for a `parse_url` port. */
  function PortText(port: Option<nat>): string {
    match port
    case Some(n) => Decimal(n)
    case None => ""
  }

  /** A url-decoded optional component, "" when absent. */
  function Decoded(part: Option<string>, decode: string -> string): string {
    match part
    case Some(s) => decode(s)
    case None => ""
  }

  /** The defaults `parse` fills into what `parse_url` returned. */
  function FromParts(parts: Option<UrlParts>, rt: Runtime): (c: Components)
    ensures Truthy(c.path)
    ensures Distinct(c.query)
    ensures c.hasQuery
    ensures parts.None? ==> c == Components("", "", "", "", "", "/", [], true, "")
    ensures parts.Some? && !Truthy(parts.value.path.GetOr("")) ==> c.path == "/"
    ensures parts.Some? && Truthy(parts.value.path.GetOr("")) ==> c.path == parts.value.path.value
    ensures parts.Some? && parts.value.query.None? ==> c.query == []
    ensures parts.Some? && parts.value.query.Some? ==> |c.query| >= 1
    ensures parts.Some? && parts.value.user.None? ==> c.user == ""
    ensures parts.Some? && parts.value.pass.None? ==> c.pass == ""
    ensures parts.Some? && parts.value.fragment.None? ==> c.fragment == ""
  {
    match parts
    case None => Components("", "", "", "", "", "/", [], true, "")
    case Some(p) =>
      Components(
        p.scheme.GetOr(""),
        Decoded(p.user, rt.urldecode),
        Decoded(p.pass, rt.urldecode),
        p.host.GetOr(""),
        PortText(p.port),
        if Truthy(p.path.GetOr("")) then p.path.value else "/",
        if p.query.Some? then ParseQuery(p.query.value, rt.urldecode).value else [],
        true,
        Decoded(p.fragment, rt.urldecode))
  }

  /** `Url::parse`. */
  function Parse(raw: string, rt: Runtime): (c: Components)
    ensures Truthy(c.path)
    ensures Distinct(c.query)
    ensures c.hasQuery
  {
    FromParts(rt.parseUrl(ParseTarget(raw)), rt)
  }

  /** `new Url($url)`: a falsy string leaves only the default scheme set. */
  function NewUrl(raw: string, rt: Runtime): (c: Components)
    ensures Distinct(c.query)
    ensures c.hasQuery <==> Truthy(raw)
    ensures !Truthy(raw) ==> !IsValid(c)
  {
    if Truthy(raw) then Parse(raw, rt)
    else Components(DefaultScheme, "", "", "", "", "", [], false, "")
  }

  /** `get_is_valid`: a host is set and is not the placeholder. */
  predicate IsValid(c: Components) {
    Truthy(c.host) && c.host != DefaultHost
  }

  function SchemeOf(c: Components): string {
    if Truthy(c.scheme) then c.scheme else DefaultScheme
  }

  function PathOf(c: Components): string {
    if Truthy(c.path) then c.path else "/"
  }

  /** The credentials `compose` writes: the `userpass` accessor's value
      and '@', only when a user is set. */
  function Credentials(c: Components, encode: string -> string): string {
    if Truthy(c.user) then GetUserPass(c, encode) + "@" else ""
  }

  /** What `compose` writes before any query: scheme, "://", credentials,
      the `hostport` accessor's value and the path (default "/"). */
  function Stem(c: Components, encode: string -> string): string {
    SchemeOf(c) + "://" + Credentials(c, encode) + GetHostPort(c) + PathOf(c)
  }

  /** Two URLs that agree on scheme, credentials, host and port have stems
      that differ only in the path. */
  lemma StemSameOrigin(a: Components, b: Components, encode: string -> string)
    requires a.scheme == b.scheme && a.user == b.user && a.pass == b.pass
    requires a.host == b.host && a.port == b.port
    ensures Stem(a, encode) == SchemeOf(b) + "://" + Credentials(b, encode) + GetHostPort(b) + PathOf(a)
  {
    assert GetHostPort(a) == GetHostPort(b);
  }

  /** `Url::compose`: the stem, then '?' and the built query only for a
      non-empty query, then '#' and the encoded fragment only for a truthy
      fragment. */
  function Compose(c: Components, rt: Runtime): (r: string)
    ensures StartsWith(r, SchemeOf(c) + "://")
    ensures StartsWith(r, Stem(c, rt.urlencode))
    ensures Truthy(c.fragment) ==> EndsWith(r, "#" + rt.urlencode(c.fragment))
    ensures |c.query| > 0 && !Truthy(c.fragment) ==> EndsWith(r, "?" + rt.buildQuery(c.query))
    ensures |c.query| == 0 && !Truthy(c.fragment) ==> r == Stem(c, rt.urlencode)
    ensures |c.query| == 0 && Truthy(c.fragment) ==> r == Stem(c, rt.urlencode) + "#" + rt.urlencode(c.fragment)
    ensures |c.query| > 0 && Truthy(c.fragment) ==>
      r == Stem(c, rt.urlencode) + "?" + rt.buildQuery(c.query) + "#" + rt.urlencode(c.fragment)
  {
    var query := if |c.query| > 0 then "?" + rt.buildQuery(c.query) else "";
    var fragment := if Truthy(c.fragment) then "#" + rt.urlencode(c.fragment) else "";
    var stem := Stem(c, rt.urlencode);
    assert stem == (SchemeOf(c) + "://") + (Credentials(c, rt.urlencode) + GetHostPort(c) + PathOf(c));
    stem + query + fragment
  }

  /** Past a known prefix `a`, a string that continues with `u`, '@' and
      more cuts at its first '@' right after `u`, when `u` has no '@'. */
  lemma CutAfterPrefix(r: string, a: string, u: string, rest: string)
    requires StartsWith(r, a + (u + ['@'] + rest)) && '@' !in u
    ensures Cut(r[|a|..], '@').head == u
  {
    var b := u + ['@'] + rest;
    assert r[|a|..|a + b|] == b;
    var tail := rest + r[|a + b|..];
    assert r[|a|..] == u + ['@'] + tail;
    CutAfterHead(u, '@', tail);
  }

  /** In a composed URL with a user, the text between "://" and the first
      '@' is the `userpass` accessor's value, when that value has no '@'. */
  lemma CredentialsAfterScheme(c: Components, rt: Runtime)
    requires Truthy(c.user) && '@' !in GetUserPass(c, rt.urlencode)
    ensures var r := Compose(c, rt);
      Cut(r[|SchemeOf(c) + "://"|..], '@').head == GetUserPass(c, rt.urlencode)
  {
    var p := SchemeOf(c) + "://";
    var u := GetUserPass(c, rt.urlencode);
    var rest := GetHostPort(c) + PathOf(c);
    var cred := Credentials(c, rt.urlencode);
    assert cred == u + ['@'];
    assert Stem(c, rt.urlencode) == p + cred + GetHostPort(c) + PathOf(c);
    assert p + cred + GetHostPort(c) + PathOf(c) == p + (cred + rest);
    CutAfterPrefix(Compose(c, rt), p, u, rest);
  }

  /** The credentials can be read back out of a composed URL: the text
      between "://" and the first '@', given to `set_userpass`, restores
      user and password. This needs decoding to invert encoding, the encoder
      to escape ':' and '@', and a password other than "0". */
  lemma ComposeCredentialsRoundTrip(c: Components, rt: Runtime)
    requires Truthy(c.user) && c.pass != "0"
    requires Inverts(rt.urldecode, rt.urlencode)
    requires Escapes(rt.urlencode, ':') && Escapes(rt.urlencode, '@')
    ensures var r := Compose(c, rt);
      SetUserPass(c, Cut(r[|SchemeOf(c) + "://"|..], '@').head, rt.urldecode) == c
  {
    assert '@' !in GetUserPass(c, rt.urlencode) by {
      assert '@' !in rt.urlencode(c.user) && '@' !in rt.urlencode(c.pass);
    }
    CredentialsAfterScheme(c, rt);
    UserPassRoundTrip(c, rt.urlencode, rt.urldecode);
  }

  /** `get()`: the composed URL, or `false` for an invalid one. */
  function Get(c: Components, rt: Runtime): (r: Option<string>)
    ensures r.None? <==> !IsValid(c)
    ensures r.Some? ==> StartsWith(r.value, SchemeOf(c) + "://")
  {
    if IsValid(c) then Some(Compose(c, rt)) else None
  }

  /** The last two labels of a label list (the only one if there is one). */
  function LastLabels(labels: seq<string>): seq<string> {
    if |labels| >= 2 then labels[|labels| - 2..] else labels
  }

  /** `get_domain`: null for an invalid URL. */
  function GetDomain(c: Components): (r: Option<string>)
    ensures r.Some? <==> IsValid(c)
  {
    if IsValid(c) then Some(Implode(LastLabels(Explode(c.host, '.')), ".")) else None
  }

  /** The domain of a valid URL is its host's last two dot-labels: the
      whole host or a suffix that follows a '.', with exactly those labels. */
  lemma {:induction false} GetDomainLastLabels(c: Components)
    requires IsValid(c)
    ensures var d := GetDomain(c).value;
      && (c.host == d || EndsWith(c.host, "." + d))
      && Explode(d, '.') == LastLabels(Explode(c.host, '.'))
      && |Explode(d, '.')| <= 2
  {
    var labels := Explode(c.host, '.');
    var last := LastLabels(labels);
    var d := Implode(last, ".");
    assert GetDomain(c).value == d;
    assert forall i :: 0 <= i < |last| ==> '.' !in last[i];
    ExplodeImplode(last, '.');
    ImplodeExplode(c.host, '.');
    HostEndsWithDomain(labels, c.host);
  }

  /** The join of a label list ends with the join of its last two labels,
      after a '.' when earlier labels exist. */
  lemma HostEndsWithDomain(labels: seq<string>, host: string)
    requires |labels| >= 1 && Implode(labels, ".") == host
    ensures var d := Implode(LastLabels(labels), ".");
      host == d || EndsWith(host, "." + d)
  {
    var n := |labels|;
    if n > 2 {
      var d := Implode(labels[n - 2..], ".");
      var front := Implode(labels[..n - 2], ".");
      assert LastLabels(labels) == labels[n - 2..];
      assert host == front + ("." + d) by {
        assert labels == labels[..n - 2] + labels[n - 2..];
        ImplodeAppend(labels[..n - 2], labels[n - 2..], ".");
      }
      EndsWithConcat(front, "." + d);
    } else {
      assert LastLabels(labels) == labels;
    }
  }

  /** `set_userpass`: split on the first ':', both halves url-decoded; no
      ':' gives an empty password (padded after decoding, so not decoded). */
  function SetUserPass(c: Components, userpass: string, decode: string -> string): (r: Components)
    ensures r == c.(user := r.user, pass := r.pass)
    ensures ':' !in userpass ==> r.user == decode(userpass) && r.pass == ""
    ensures ':' in userpass ==>
      (exists u, p :: userpass == u + ":" + p && ':' !in u && r.user == decode(u) && r.pass == decode(p))
  {
    var h := Cut(userpass, ':');
    c.(user := decode(h.head), pass := if h.tail.Some? then decode(h.tail.value) else "")
  }

  /** `get_userpass`: the ':' and password only for a truthy password. */
  function GetUserPass(c: Components, encode: string -> string): string {
    encode(c.user) + (if Truthy(c.pass) then ":" + encode(c.pass) else "")
  }

  /** Setting the `userpass` accessor's own output restores user and
      password, provided decoding inverts encoding and the encoder escapes
      ':'. A password "0" is the exception: PHP reads it as false, so
      `get_userpass` drops it. */
  lemma UserPassRoundTrip(c: Components, encode: string -> string, decode: string -> string)
    requires Inverts(decode, encode) && Escapes(encode, ':')
    requires c.pass != "0"
    ensures SetUserPass(c, GetUserPass(c, encode), decode) == c
  {
    var e := encode(c.user);
    assert ':' !in e && decode(e) == c.user;
    if Truthy(c.pass) {
      CutAfterHead(e, ':', encode(c.pass));
      assert GetUserPass(c, encode) == e + [':'] + encode(c.pass);
      assert decode(encode(c.pass)) == c.pass;
    } else {
      assert c.pass == "" && GetUserPass(c, encode) == e;
      assert Cut(e, ':') == Halves(e, None);
    }
  }

  /** The "0" password does not survive the round trip. */
  lemma UserPassZeroLost(c: Components, encode: string -> string, decode: string -> string)
    requires Inverts(decode, encode) && Escapes(encode, ':')
    requires c.pass == "0"
    ensures SetUserPass(c, GetUserPass(c, encode), decode).pass == ""
  {
    assert ':' !in encode(c.user);
  }

  /** `set_host` (and its alias `set_hostport`): split on the first ':';
      without one only the host changes. */
  function SetHost(c: Components, hostport: string): (r: Components)
    ensures ':' !in hostport ==> r == c.(host := hostport)
    ensures ':' in hostport ==>
      (r == c.(host := r.host, port := r.port) && hostport == r.host + ":" + r.port && ':' !in r.host)
  {
    var h := Cut(hostport, ':');
    match h.tail
    case None => c.(host := h.head)
    case Some(port) => c.(host := h.head, port := port)
  }

  /** `get_hostport`: ":port" only for a truthy port. */
  function GetHostPort(c: Components): string {
    c.host + (if Truthy(c.port) then ":" + c.port else "")
  }

  /** Setting the `hostport` accessor's own output changes nothing, for a
      host without ':' (a falsy port is left in place by `set_host`). */
  lemma HostPortRoundTrip(c: Components)
    requires ':' !in c.host
    ensures SetHost(c, GetHostPort(c)) == c
  {
    if Truthy(c.port) {
      CutAfterHead(c.host, ':', c.port);
      assert GetHostPort(c) == c.host + [':'] + c.port;
    }
  }

  /** `set_port`: stores `max(0, n)`. */
  function SetPort(c: Components, n: int): (r: Components)
    ensures r == c.(port := r.port)
    ensures forall i :: 0 <= i < |r.port| ==> '0' <= r.port[i] <= '9'
    ensures DigitsValue(r.port) == (if n < 0 then 0 else n)
    ensures Truthy(r.port) <==> n > 0
  {
    var m: nat := if n < 0 then 0 else n;
    DecimalRoundTrip(m);
    DecimalTruthy(m);
    c.(port := Decimal(m))
  }

  /** The path rule of `set_path`. */
  function NormalizePath(path: string): (r: string)
    ensures |r| > 0 && r[0] == '/'
    ensures |path| > 0 && path[0] == '/' ==> r == path
    ensures !(|path| > 0 && path[0] == '/') ==> r == "/" + path
  {
    if !Truthy(path) || path[0] != '/' then "/" + path else path
  }

  /** `set_path`: the path always starts with '/', one already starting
      with '/' is kept verbatim, and setting it twice is setting it once. */
  function SetPath(c: Components, path: string): (r: Components)
    ensures r == c.(path := r.path)
    ensures |r.path| > 0 && r.path[0] == '/'
    ensures |path| > 0 && path[0] == '/' ==> r.path == path
  {
    c.(path := NormalizePath(path))
  }

  /** Setting the stored path again changes nothing. */
  lemma SetPathIdempotent(c: Components, path: string)
    ensures SetPath(SetPath(c, path), SetPath(c, path).path) == SetPath(c, path)
  {
  }

  /** The argument of `set_query`: a query string or an array. */
  datatype QueryInput = QueryText(text: string) | QueryArray(pairs: Query)

  /** `set_query`: a falsy argument clears the query; the key is set
      either way. */
  function SetQuery(c: Components, q: QueryInput, decode: string -> string): (r: Components)
    ensures r == c.(query := r.query, hasQuery := true)
    ensures q.QueryText? && !Truthy(q.text) ==> r.query == []
    ensures q.QueryText? && Truthy(q.text) ==> r.query == ParseQuery(q.text, decode).value
    ensures q.QueryArray? ==> r.query == q.pairs
  {
    match q
    case QueryText(s) => c.(query := if Truthy(s) then ParseQuery(s, decode).value else [], hasQuery := true)
    case QueryArray(a) => c.(query := if |a| > 0 then a else [], hasQuery := true)
  }

  /** `add_query`: `array_merge` of the new pairs into the query. With no
      query key set, the merge gets null for its first array: PHP 7 warns
      and yields null, which every later read takes for an unset query, so
      the URL keeps no query whatever was added. */
  function AddQuery(c: Components, pairs: Query): (r: Components)
    ensures r == c.(query := r.query)
    ensures !c.hasQuery ==> r == c
    ensures c.hasQuery ==> forall k :: HasKey(pairs, k) ==> Lookup(r.query, k) == Last(pairs, k)
    ensures c.hasQuery ==> forall k :: !HasKey(pairs, k) ==> Lookup(r.query, k) == Lookup(c.query, k)
    ensures Distinct(c.query) ==> Distinct(r.query)
  {
    if c.hasQuery then
      MergeFacts(c.query, pairs);
      c.(query := Merge(c.query, pairs))
    else c
  }

  /** A URL built from a falsy string has no query key, so `add_query`
      leaves its composed form as it was; one built from a URL string
      has the key and takes the pairs. */
  lemma AddQueryNeedsKey(rt: Runtime, raw: string, pairs: Query)
    requires |pairs| > 0
    ensures !Truthy(raw) ==> Compose(AddQuery(NewUrl(raw, rt), pairs), rt) == Compose(NewUrl(raw, rt), rt)
    ensures Truthy(raw) ==> |AddQuery(NewUrl(raw, rt), pairs).query| > 0
  {
    if Truthy(raw) {
      var c := NewUrl(raw, rt);
      MergeFacts(c.query, pairs);
      assert HasKey(pairs, pairs[0].0);
    }
  }
}
